=== FILE: README.md ===
# ChessKt core in Dafny

This project models the two cores of ChessKt, a multiplayer chess game written in Kotlin:

- **The chess engine.** `ChessPiece.kt`, `ChessBoard.kt` and `ChessGame.kt` define:
  - pieces and their move and attack rules;
  - the 8×8 board with `movePiece`;
  - the move oracle `isMoveForbidden`, which simulates a move, asks whether the mover is in check, and reverts the move;
  - the mate test `isMate`;
  - the turn-keeping `makeMove`.
- **The wire codec.** `Buffer.kt` and `Message.kt` define:
  - a growable little-endian byte buffer;
  - the ten protocol messages, with `pack` and `decode`.

The Kotlin board mutates shared piece objects. The model keeps that mutation explicit but pure:

- A `Board` holds the grid as a map from squares to piece identities.
- It also holds a table from identities to piece records: kind, colour, position, `hasMoved`, and `shade`, the colour of the square the piece was created on.
- It holds the live piece set, the two king identities, and the next fresh identity.
- Every mutating operation returns a new board.
- Kotlin exceptions become `Err` values.
- `!!` on a null square becomes `NullPiece`.
- An array index outside 0..7 becomes `IndexOutOfRange`.
- `throw Error(...)` becomes `LogicError`.

`isMate` iterates over a copy of a `HashSet`. Its iteration order is a parameter `order`, constrained only to list every live piece once. The result of `makeMove` is proved for every such order.

The codec works on byte sequences:

- A `Buffer` is its backing array plus an unbounded pointer.
- Kotlin `Int`, `Long` and `Short` are range newtypes.
- The wrap-around of `Int` arithmetic, `toByte` and `toShort` is written out.

Several behaviours of the code as written are modelled faithfully and stated exactly by the contracts:

- **Promotion in `movePiece`.** Only the pawn leaves the piece set, so a piece captured by a promoting pawn stays live.
- **Plain simulate+revert.** `simulateMove` sets the mover's `hasMoved` to false. `revertMove` then restores `!hasNotMoved`, which is also false. So a plain simulated move leaves the mover marked as not moved.
- **Castling simulate+revert.** The revert removes the grid cell at the rook's landing square. It also resets both pieces' `hasMoved`. The simulation does not return a piece captured by castling to the live set.
- **Promotion simulate+revert.** The revert puts a new pawn object, marked as moved, on the origin square. The original pawn and the queen both leave the live set.
- **Oracle only in check.** `makeMove` consults the oracle only while the mover is in check. Outside check, a move that exposes the own king is accepted.
- **Long writes.** `write(Long)` takes its eighth byte from `v ushr 54`, not `ushr 56`. The write/read round trip therefore holds exactly for the values whose bits 54–61 and 56–63 agree.
- **Short writes.** `write(Short)` uses truncating `%` and `/`. A negative short whose low byte is non-zero reads back 256 higher.
- **Negative lengths.** `readBytes` with a negative length passes `assertCapacity`, returns an empty array, and moves the pointer backwards.
- **`collect`.** It slices `0..pointer` inclusive, so every packed message ends with one extra zero byte.
- **Decoding.** The decoders of `Chat`, `PieceColour` and `BasicMove` re-read the opcode from the start of the array.
- **`PieceColour` packing.** `pack` writes the Boolean as a four-byte `Int`, but the decoder reads back one byte.

Modules:

| module | file | models |
|---|---|---|
| `Results` | results.dfy | the error monad used for exceptions |
| `ChessGeometry` | geometry.dfy | colours, squares, notation, square colour, directions |
| `ChessBoard` | board.dfy | the board state, its validity invariant, `pieceAt`/`hasPieceAt`/`hasColouredPieceAt`, the initial position |
| `ChessRays` | rays.dfy | the sliding loops of `availableMoves` and the walking loops of `canHit` |
| `ChessAttacks` | attacks.dfy | `canHit` for each kind, `isEndangered`, `isCheck`, and a geometric reference definition of attack |
| `ChessMoves` | moves.dfy | `availableMoves` for each kind, castling rooks and `canCastle` |
| `ChessMutation` | mutation.dfy | `movePiece`, `simulateMove`, `revertMove` |
| `ChessOracle` | oracle.dfy | `isMoveForbidden`, `isMate` |
| `ChessGame` | game.dfy | `ChessGame` and `makeMove` |
| `KotlinInts` | ints.dfy | fixed-width integers and Kotlin's truncating division |
| `Buffers` | buffer.dfy | `Buffer` |
| `Messages` | message.dfy | `Message`, `pack`, `decode` |
| `ChessOpening` | opening.dfy | the move lists of the initial position |

## Model

| member | source | states |
|---|---|---|
| ChessGeometry.Not | src/commonMain/kotlin/chess/ChessPiece.kt:8-11 | the opposite colour differs from its argument, and Black and White swap |
| ChessGeometry.NotInvolutive | src/commonMain/kotlin/chess/ChessPiece.kt:8-11 | negating a colour twice gives it back |
| ChessGeometry.SquareColour | src/commonMain/kotlin/chess/ChessBoard.kt:258-267 | a square is black exactly when its file and rank have the same parity |
| ChessGeometry.SquareColourDiagonal | src/commonMain/kotlin/chess/ChessBoard.kt:258-267 | squares on a common diagonal have the same colour, for any distance in either diagonal direction |
| ChessGeometry.FromBoardPosition | src/commonMain/kotlin/chess/ChessBoard.kt:69-72 | parsing succeeds exactly for files a–h and ranks 1–8, and always yields an on-board square |
| ChessGeometry.StringifyPosition | src/commonMain/kotlin/chess/ChessBoard.kt:73-76 | succeeds exactly for coordinates 0–7, and yields a letter a–h followed by a digit 1–8 |
| ChessGeometry.NotationRoundTrip | src/commonMain/kotlin/chess/ChessBoard.kt:69-76 | parsing the notation of an on-board square gives the square back |
| ChessGeometry.NotationRoundTripBack | src/commonMain/kotlin/chess/ChessBoard.kt:69-76 | printing a parsed valid notation gives the notation back |
| ChessBoard.PieceAt | src/commonMain/kotlin/chess/ChessBoard.kt:79-84 | there is no piece outside 0..7; on the board a piece is found exactly when the grid square is occupied, and it is the one on that square |
| ChessBoard.ColourAtOccupied | src/commonMain/kotlin/chess/ChessBoard.kt:85-90 | on a consistent board a square has a colour exactly when it holds a piece |
| ChessBoard.OffBoardEmpty | src/commonMain/kotlin/chess/ChessBoard.kt:79-90 | for coordinates off the board, all three square queries report nothing, for both colours |
| ChessBoard.Initial | src/commonMain/kotlin/chess/ChessBoard.kt:8-26 | the initial board is consistent: the grid, piece records, live set and king identities agree |
| ChessBoard.InitialOccupied | src/commonMain/kotlin/chess/ChessBoard.kt:8-24 | initially exactly the ranks 1, 2, 7 and 8 are occupied |
| ChessBoard.InitialSquare | src/commonMain/kotlin/chess/ChessBoard.kt:9-23 | White holds ranks 1–2 and Black ranks 7–8, pawns stand on ranks 2 and 7, the back ranks read R N B Q K B N R, and nothing has moved |
| ChessBoard.InitialKings | src/commonMain/kotlin/chess/ChessBoard.kt:26-49 | the recorded kings are the unmoved kings on e1 and e8, and the piece set is exactly the pieces on the grid |
| ChessOpening.InitialPawnPushes | src/jvmTest/kotlin/ChessGameTest.kt:16-47 | on the initial board every pawn of either colour may move exactly one or two squares forward |
| ChessOpening.InitialKnightJumps | src/jvmTest/kotlin/ChessGameTest.kt:27-58 | on the initial board each knight may jump to exactly the two squares two ranks ahead beside its file (a3 and c3 for b1, f3 and h3 for g1, and the mirrored squares for Black) |
| ChessOpening.InitialBackRankStill | src/jvmTest/kotlin/ChessGameTest.kt:27-58 | on the initial board the rooks, bishops, queens and kings of both colours have no moves |
| ChessOpening.BoxedHasNoMoves | src/commonMain/kotlin/chess/ChessPiece.kt:125-198 | a king, queen, rook or bishop whose every neighbouring square holds a piece of its own colour lists no move |
| ChessRays.Ray | src/commonMain/kotlin/chess/ChessPiece.kt:128-135 | the i-th listed square is i+1 steps out, on the board and not friendly, and every square before the last is empty |
| ChessRays.RayStop | src/commonMain/kotlin/chess/ChessPiece.kt:128-135 | a ray ends only at the board edge, before a friendly piece, or on an opposing piece |
| ChessRays.RayMembership | src/commonMain/kotlin/chess/ChessPiece.kt:128-135 | one sliding loop lists exactly the squares it reaches: on the board, not friendly, with only empty squares before them |
| ChessRays.Slide | src/commonMain/kotlin/chess/ChessPiece.kt:125-198 | the concatenated rays list exactly the squares that some direction reaches |
| ChessRays.StraightWalk | src/commonMain/kotlin/chess/ChessPiece.kt:298-329 | walking along the file or rank toward the target, the walk answers true exactly when every square strictly between is empty |
| ChessRays.RaiseMeansEdgeHit | src/commonMain/kotlin/chess/ChessPiece.kt:302-327 | a walk that steps off the board before meeting the target (where `assert` throws) hits the first square beyond the edge when aimed at it |
| ChessRays.DiagonalWalk | src/commonMain/kotlin/chess/ChessPiece.kt:390-405 | walking diagonally toward the target, the walk answers true exactly when the target is on a diagonal and the squares between are empty |
| ChessAttacks.CanHit | src/commonMain/kotlin/chess/ChessPiece.kt:200-251 | for on-board targets, `canHit` of every kind agrees with the geometric reference definition of attack, the bishop judged by the colour it was built on |
| ChessAttacks.StraightHit | src/commonMain/kotlin/chess/ChessPiece.kt:298-329 | the rook's walk along a file or rank succeeds exactly when the path is clear |
| ChessAttacks.DiagonalHit | src/commonMain/kotlin/chess/ChessPiece.kt:386-406 | the bishop's walk succeeds exactly for a target on a diagonal with a clear path |
| ChessAttacks.DiagonalSameColour | src/commonMain/kotlin/chess/ChessPiece.kt:231 | the queen's square-colour pre-test never rejects a target on a diagonal |
| ChessAttacks.BishopOnOwnColour | src/commonMain/kotlin/chess/ChessPiece.kt:386-406 | a bishop standing on a square of the colour it was built on hits exactly the diagonal targets with a clear path |
| ChessAttacks.DisplacedBishopBlind | src/commonMain/kotlin/chess/ChessPiece.kt:340 | a bishop standing on a square of the other colour than the one it was built on hits no square |
| ChessAttacks.RaiseNeedsNearerHit | src/commonMain/kotlin/chess/ChessPiece.kt:302-327 | if a queen's or rook's straight walk toward an on-line target would throw, the same piece hits the nearer square just beyond the edge on that line |
| ChessAttacks.SteppersIgnoreBoard | src/commonMain/kotlin/chess/ChessPiece.kt:434-437 | the king, knight and pawn attack tests do not depend on the board |
| ChessAttacks.SliderMissesOwnSquare | src/commonMain/kotlin/chess/ChessPiece.kt:298-301 | a sliding piece never hits its own square |
| ChessAttacks.IsEndangered | src/commonMain/kotlin/chess/ChessBoard.kt:91-92 | an on-board square is endangered exactly when some live opposing piece attacks it |
| ChessAttacks.IsCheck | src/commonMain/kotlin/chess/ChessBoard.kt:57-59 | a side is in check exactly when some live opposing piece attacks its king's square |
| ChessMoves.FilterSteps | src/commonMain/kotlin/chess/ChessPiece.kt:52-56 | the filter keeps exactly the on-board candidates without a friendly piece |
| ChessMoves.KingStepsSpec | src/commonMain/kotlin/chess/ChessPiece.kt:43-51 | the eight king candidates are exactly the squares at distance one |
| ChessMoves.KnightJumpsSpec | src/commonMain/kotlin/chess/ChessPiece.kt:418-426 | the eight knight candidates are exactly the knight jumps |
| ChessMoves.KnightMovesSpec | src/commonMain/kotlin/chess/ChessPiece.kt:417-432 | knight moves are exactly the on-board knight jumps that do not land on a friendly piece |
| ChessMoves.KingStepMovesSpec | src/commonMain/kotlin/chess/ChessPiece.kt:43-56 | king steps are exactly the on-board neighbours without a friendly piece |
| ChessMoves.PawnMoves | src/commonMain/kotlin/chess/ChessPiece.kt:448-470 | a pawn moves one square forward onto an empty square, two from its starting rank across empty squares, and diagonally forward only onto an opposing piece, and nowhere else |
| ChessMoves.CastlingRooks | src/commonMain/kotlin/chess/ChessPiece.kt:60 | the listed rooks are exactly the live unmoved rooks of the colour, each once |
| ChessMoves.CanCastle | src/commonMain/kotlin/chess/ChessPiece.kt:78-110 | castling with a rook is allowed exactly when neither piece has moved, the king is not attacked, and on the rook's side (a-file: three squares, h-file: two) the squares are empty and unattacked |
| ChessMoves.WestPath | src/commonMain/kotlin/chess/ChessPiece.kt:93-100 | the long-castling test is the clear-and-safe path of three squares toward the a-file |
| ChessMoves.EastPath | src/commonMain/kotlin/chess/ChessPiece.kt:102-107 | the short-castling test is the clear-and-safe path of two squares toward the h-file |
| ChessMoves.CastleSquares | src/commonMain/kotlin/chess/ChessPiece.kt:64-71 | the squares added are exactly the squares beside the listed rooks that may castle, all on the board |
| ChessMoves.CastleSquaresSpec | src/commonMain/kotlin/chess/ChessPiece.kt:64-71 | the castling squares are exactly the squares beside the rooks that may castle |
| ChessMoves.KingMoves | src/commonMain/kotlin/chess/ChessPiece.kt:42-76 | the king's moves are exactly its neighbour steps without a friendly piece plus, while unmoved, the square beside each rook it may castle with |
| ChessMoves.AvailableMoves | src/commonMain/kotlin/chess/ChessPiece.kt:19 | every kind lists exactly its targets, and all of them lie on the board |
| ChessMutation.Get | src/commonMain/kotlin/chess/ChessBoard.kt:269 | grid indexing fails exactly off the board, and otherwise reads what `pieceAt` reads |
| ChessMutation.MoveGuard | src/commonMain/kotlin/chess/ChessBoard.kt:110-121 | an off-board origin is an index error; on the board, a logic error comes exactly when the origin is empty or the target holds a king or a friend, and success names the mover and the captured piece |
| ChessMutation.MovePiece | src/commonMain/kotlin/chess/ChessBoard.kt:109-152 | a successful move keeps the board consistent and every piece record known; a logic error comes exactly when a guard fails; an off-board origin is an index error |
| ChessMutation.MovePieceOrdinary | src/commonMain/kotlin/chess/ChessBoard.kt:147-151 | an ordinary move relocates the piece, marks it moved, drops the captured piece, and leaves every other square and every other piece record alone |
| ChessMutation.MovePiecePromotion | src/commonMain/kotlin/chess/ChessBoard.kt:123-130 | a pawn reaching the last rank is replaced by a fresh unmoved queen, and a captured piece stays live |
| ChessMutation.MovePieceCastle | src/commonMain/kotlin/chess/ChessBoard.kt:132-146 | castling fails on a missing rook; otherwise the king and rook land on their squares marked moved, and the live set is unchanged |
| ChessMutation.CastleShape | src/commonMain/kotlin/chess/ChessBoard.kt:132-146 | castling fails with a null error exactly when nothing other than the king stands beside the destination, and otherwise moves the king and that piece to their squares, marks both moved and keeps the live set |
| ChessMutation.CastleOkShape | src/commonMain/kotlin/chess/ChessBoard.kt:132-146 | a castling that succeeds found another piece beside the destination, had room on the other side, and built the castled board |
| ChessMutation.CastleValid | src/commonMain/kotlin/chess/ChessBoard.kt:132-146 | a successful castling keeps the board consistent and leaves every other piece record alone |
| ChessMutation.SimulateMove | src/commonMain/kotlin/chess/ChessBoard.kt:178-223 | a successful simulation keeps the board consistent and yields a record that revert accepts |
| ChessMutation.SimulateCastleShape | src/commonMain/kotlin/chess/ChessBoard.kt:203-216 | a castling simulation needs a piece beside the target and otherwise castles like `movePiece` |
| ChessMutation.RevertValid | src/commonMain/kotlin/chess/ChessBoard.kt:224-256 | reverting a simulation keeps the board consistent |
| ChessMutation.PlainRoundTrip | src/commonMain/kotlin/chess/ChessBoard.kt:178-256 | simulate then revert of a plain move restores the board, except that the mover is left unmoved and a captured piece rejoins the live set |
| ChessMutation.PromotionRoundTrip | src/commonMain/kotlin/chess/ChessBoard.kt:178-256 | simulate then revert of a promotion restores every square's kind and colour, but the origin holds a new moved pawn outside the live set |
| ChessMutation.CastleRoundTrip | src/commonMain/kotlin/chess/ChessBoard.kt:178-256 | simulate then revert of castling restores the grid except the rook's landing square, clears both moved flags, and leaves a captured piece out of the live set |
| ChessOracle.IsMoveForbidden | src/commonMain/kotlin/chess/ChessBoard.kt:156-169 | the oracle leaves a consistent board that still knows every piece record it knew |
| ChessOracle.ForbiddenOnKing | src/commonMain/kotlin/chess/ChessBoard.kt:157-159 | a move onto a king is forbidden without touching the board |
| ChessOracle.ForbiddenWhenGuardFails | src/commonMain/kotlin/chess/ChessBoard.kt:160-168 | a move the simulation rejects is forbidden, and the board is unchanged |
| ChessOracle.ForbiddenMeansCheck | src/commonMain/kotlin/chess/ChessBoard.kt:160-164 | a simulated move is forbidden exactly when some opposing piece attacks the mover's king after it |
| ChessOracle.ForbiddenPlainRestores | src/commonMain/kotlin/chess/ChessBoard.kt:156-169 | after a plain simulated move, the oracle's board is the original except for the mover's reset flag and a captured piece back in the live set |
| ChessOracle.ForbiddenPromotionReplacesPawn | src/commonMain/kotlin/chess/ChessBoard.kt:156-169 | after a promotion, the oracle's board has the same kinds and colours, but the pawn object is replaced and neither pawn is live |
| ChessOracle.ForbiddenCastleRestores | src/commonMain/kotlin/chess/ChessBoard.kt:156-169 | after castling, the oracle's board loses the rook-landing cell and resets both moved flags |
| ChessOracle.AnyAllowed | src/commonMain/kotlin/chess/ChessBoard.kt:63 | the search answers true exactly with a witness, a listed move allowed on the board it was asked on; false means every listed move was forbidden in turn, and the board is the one the last question left |
| ChessOracle.MateFold | src/commonMain/kotlin/chess/ChessBoard.kt:60-65 | not mate comes with a piece of the side that found an allowed move on the board it was examined on; mate means every piece was reached and each piece of the side had all its moves forbidden |
| ChessOracle.IsMate | src/commonMain/kotlin/chess/ChessBoard.kt:60-65 | the board stays consistent; the side is not mated exactly when, in iteration order, some piece of its colour has a move the oracle allows, and mated when every such piece has all its moves forbidden, the board then being the one the last search left |
| ChessOracle.MateSkipsOtherColour | src/commonMain/kotlin/chess/ChessBoard.kt:60-65 | pieces of the other colour do not affect the mate test |
| ChessOracle.MateWithoutMoves | src/commonMain/kotlin/chess/ChessBoard.kt:60-65 | if no piece of the side has a move, it is mated and the board is untouched |
| ChessOracle.NoPiecesIsMate | src/commonMain/kotlin/chess/ChessBoard.kt:60-65 | a side with no live pieces is mated |
| ChessOracle.NotMateHasWitness | src/commonMain/kotlin/chess/ChessBoard.kt:62-64 | "not mated" needs a piece of the side |
| ChessOracle.FirstAllowedIsNotMate | src/commonMain/kotlin/chess/ChessBoard.kt:62-64 | if the first piece's first move is allowed, the side is not mated and the search stops at once |
| ChessGame.NewGame | src/commonMain/kotlin/chess/ChessGame.kt:3-8 | a new game starts from a consistent board with White to move |
| ChessGame.MakeMove | src/commonMain/kotlin/chess/ChessGame.kt:22-76 | the board stays consistent, and the turn passes exactly when the move is not illegal |
| ChessGame.Conclude | src/commonMain/kotlin/chess/ChessGame.kt:60-75 | after a played move the other side is to move; the result is CONTINUE exactly when `isMate` says no, a win for the mover exactly when mate and check, and STALEMATE exactly when mate without check |
| ChessGame.PlainlyIllegalRefused | src/commonMain/kotlin/chess/ChessGame.kt:23-53 | off-board, empty-origin, wrong-colour and unlisted moves are refused and change nothing |
| ChessGame.NoCheckNoRefusal | src/commonMain/kotlin/chess/ChessGame.kt:54-60 | out of check, a listed move of the own side is played without asking the oracle |
| ChessGame.InCheckAsksOracle | src/commonMain/kotlin/chess/ChessGame.kt:54-59 | in check, a listed move is refused exactly when the oracle forbids it |
| ChessGame.AllowedMoveAccepted | src/commonMain/kotlin/chess/ChessGame.kt:54-62 | a listed move that the oracle allows is played, and the turn passes |
| KotlinInts.TruncDiv | src/commonMain/kotlin/Buffer.kt:64 | Kotlin `/` rounds toward zero: the quotient times the divisor lies within one divisor of the dividend, on the side of zero |
| KotlinInts.TruncDivUnique | src/commonMain/kotlin/Buffer.kt:64 | any quotient with those bounds is the truncated quotient |
| KotlinInts.TruncRem | src/commonMain/kotlin/Buffer.kt:63 | Kotlin `%` satisfies a = (a/d)·d + r, and takes the sign of the dividend |
| KotlinInts.Wrap32 | src/commonMain/kotlin/Buffer.kt:31 | `Int` addition is congruent to the true sum modulo 2^32 |
| Buffers.WithCapacity | src/commonMain/kotlin/Buffer.kt:9-12 | a new buffer has the requested number of zero bytes and the pointer at 0 |
| Buffers.Doubled | src/commonMain/kotlin/Buffer.kt:22-24 | doubling stops at the first power-of-two multiple above the need, overshooting by at most a factor of two |
| Buffers.EnsureCapacity | src/commonMain/kotlin/Buffer.kt:19-29 | growing keeps the pointer and the old bytes, pads with zeros, leaves room for delta+1 bytes, and changes nothing when there is room |
| Buffers.AssertCapacity | src/commonMain/kotlin/Buffer.kt:30-35 | the check passes exactly when the wrapped pointer+delta is below the array size, so a sum inside `Int` passes exactly when it fits and a sum that overflows always passes |
| Buffers.Put | src/commonMain/kotlin/Buffer.kt:76-78 | writing bytes puts them at the pointer, advances past them, and leaves the rest of the array alone |
| Buffers.Take | src/commonMain/kotlin/Buffer.kt:143-146 | reading n bytes returns the bytes at the pointer and advances by n |
| Buffers.TakeNeedsSpare | src/commonMain/kotlin/Buffer.kt:30-35 | a read of n bytes succeeds exactly when one more byte would still fit, and otherwise reports EOF |
| Buffers.IntBytes | src/commonMain/kotlin/Buffer.kt:53-60 | the four bytes are the little-endian digits of the unsigned value of the `Int` |
| Buffers.LongBytes | src/commonMain/kotlin/Buffer.kt:41-52 | the first seven bytes are the low 56 bits of the `Long`, and the eighth holds bits 54-61 |
| Buffers.ShortBytes | src/commonMain/kotlin/Buffer.kt:61-66 | a non-negative `Short` gives its little-endian digits; a negative one gives digits 256 higher unless its low byte is zero |
| Buffers.IntBytesRoundTrip | src/commonMain/kotlin/Buffer.kt:53-60 | the four little-endian bytes of an `Int` read back as the same `Int` |
| Buffers.ShortBytesRoundTrip | src/commonMain/kotlin/Buffer.kt:61-66 | a `Short` reads back unchanged exactly when it is non-negative or a multiple of 256, and otherwise 256 higher |
| Buffers.LongBytesRoundTrip | src/commonMain/kotlin/Buffer.kt:41-52 | a `Long` reads back unchanged exactly when bits 54–61 equal bits 56–63 |
| Buffers.LongBytesSmall | src/commonMain/kotlin/Buffer.kt:41-52 | every non-negative `Long` below 2^54 survives the round trip |
| Buffers.LongBytesFirstLoss | src/commonMain/kotlin/Buffer.kt:50 | 2^54 is the smallest value that does not survive the round trip: it reads back as 2^54 + 2^56 |
| Buffers.WriteInt | src/commonMain/kotlin/Buffer.kt:53-60 | writing succeeds exactly at a non-negative pointer, advances it by four, and keeps a spare byte |
| Buffers.WriteLong | src/commonMain/kotlin/Buffer.kt:41-52 | writing succeeds exactly at a non-negative pointer and advances it by eight |
| Buffers.WriteShort | src/commonMain/kotlin/Buffer.kt:61-66 | writing succeeds exactly at a non-negative pointer and advances it by two |
| Buffers.WriteByte | src/commonMain/kotlin/Buffer.kt:68-72 | writing succeeds exactly at a non-negative pointer and advances it by one |
| Buffers.WriteBytes | src/commonMain/kotlin/Buffer.kt:73-80 | writing an array advances the pointer by four plus its length |
| Buffers.WriteBoolean | src/commonMain/kotlin/Buffer.kt:82 | a Boolean is written as a four-byte `Int` |
| Buffers.ReadInt | src/commonMain/kotlin/Buffer.kt:126-134 | a read advances by four and returns the little-endian `Int` of the four bytes at the pointer; it succeeds whenever a byte follows them |
| Buffers.ReadLong | src/commonMain/kotlin/Buffer.kt:113-125 | a read advances by eight and returns the little-endian `Long` of the eight bytes at the pointer; it succeeds whenever a byte follows them |
| Buffers.ReadShort | src/commonMain/kotlin/Buffer.kt:135-141 | a read advances by two and returns the little-endian `Short` of the two bytes at the pointer; it succeeds whenever a byte follows them |
| Buffers.ReadByte | src/commonMain/kotlin/Buffer.kt:143-146 | a read advances by one and returns the byte at the pointer; it succeeds whenever a byte follows it |
| Buffers.ReadBoolean | src/commonMain/kotlin/Buffer.kt:155 | a read advances by one and returns whether the byte at the pointer is non-zero |
| Buffers.ReadBytes | src/commonMain/kotlin/Buffer.kt:147-153 | a read fails when the length cannot be read, moves the pointer by the length with `Int` wrap-around, yields nothing for a non-positive length, and otherwise the bytes after the length |
| Buffers.FromArrayReadsFirst | src/commonMain/kotlin/Buffer.kt:15-17 | a buffer made from an array reads its first `Int` from the first four bytes |
| Buffers.ReadIntAt | src/commonMain/kotlin/Buffer.kt:126-134 | the four bytes of an `Int` at the pointer, with a spare byte behind them, read as that `Int` |
| Buffers.ReadBooleanAt | src/commonMain/kotlin/Buffer.kt:155 | a Boolean's `Int` encoding reads back as that Boolean from its first byte |
| Buffers.ReadBytesAt | src/commonMain/kotlin/Buffer.kt:147-153 | a length-prefixed array reads back as the same array |
| Buffers.NegativeLengthRewinds | src/commonMain/kotlin/Buffer.kt:147-153 | a negative length yields an empty array and moves the pointer back by that amount |
| Buffers.WriteReadInt | src/commonMain/kotlin/Buffer.kt:126-134 | reading at the old pointer returns the written `Int` and ends at the writer's pointer |
| Buffers.WriteReadShort | src/commonMain/kotlin/Buffer.kt:135-141 | reading at the old pointer returns the written `Short`, or 256 more for a negative short with a non-zero low byte |
| Buffers.WriteReadLong | src/commonMain/kotlin/Buffer.kt:113-125 | reading at the old pointer returns the written `Long` exactly when bits 54–61 equal bits 56–63 |
| Buffers.WriteReadByte | src/commonMain/kotlin/Buffer.kt:143-146 | reading at the old pointer returns the written byte |
| Buffers.WriteReadBoolean | src/commonMain/kotlin/Buffer.kt:155 | reading at the old pointer returns the written Boolean, but advances one byte instead of four |
| Buffers.WriteReadBytes | src/commonMain/kotlin/Buffer.kt:147-153 | reading at the old pointer returns the written array and ends at the writer's pointer |
| Buffers.NewBufferFresh | src/commonMain/kotlin/Buffer.kt:9-12 | a new buffer has written nothing and is zero behind the pointer |
| Buffers.CollectFresh | src/commonMain/kotlin/Buffer.kt:37-39 | collecting a buffer that was only written to gives the written bytes plus one zero |
| Buffers.EnsureFresh | src/commonMain/kotlin/Buffer.kt:19-29 | growing keeps the written bytes and the zeros behind them |
| Buffers.WriteIntFresh | src/commonMain/kotlin/Buffer.kt:53-60 | an `Int` write appends its four bytes to what was written |
| Buffers.WriteBytesFresh | src/commonMain/kotlin/Buffer.kt:73-80 | an array write appends its length and then its bytes |
| Messages.PackOpcode | src/commonMain/kotlin/Message.kt:22-25 | a message without fields packs to its opcode's four bytes and a zero |
| Messages.PackChat | src/commonMain/kotlin/Message.kt:53-57 | a chat packs to opcode 1, then the author's and text's lengths and bytes, then a zero |
| Messages.PackPieceColour | src/commonMain/kotlin/Message.kt:74-78 | a colour message packs to opcode 2, the Boolean as a four-byte `Int`, and a zero |
| Messages.PackBasicMove | src/commonMain/kotlin/Message.kt:103-107 | a move packs to opcode 5, its four coordinates as `Int`s, and a zero |
| Messages.Pack | src/commonMain/kotlin/Message.kt:2 | every message packs to its layout followed by one zero byte |
| Messages.ZeroPayloadPack | src/commonMain/kotlin/Message.kt:22-37 | the messages without fields pack to exactly five bytes, the opcode and a zero |
| Messages.PackFraming | src/commonMain/kotlin/Message.kt:6 | every packed message starts with its opcode and ends with a zero byte |
| Messages.ChatFrom | src/commonMain/kotlin/Message.kt:45-51 | the chat decoder yields only chat messages |
| Messages.PieceColourFrom | src/commonMain/kotlin/Message.kt:66-72 | the colour decoder yields only colour messages |
| Messages.BasicMoveFrom | src/commonMain/kotlin/Message.kt:95-101 | the move decoder yields only move messages |
| Messages.Decode | src/commonMain/kotlin/Message.kt:5-19 | a decoded message needs at least five bytes, and its opcode is the array's first `Int` |
| Messages.ChatRoundTrip | src/commonMain/kotlin/Message.kt:45-57 | a packed chat decodes to the same author and text |
| Messages.PieceColourRoundTrip | src/commonMain/kotlin/Message.kt:66-78 | a packed colour message decodes to the same colour |
| Messages.BasicMoveRoundTrip | src/commonMain/kotlin/Message.kt:95-107 | a packed move decodes to the same four coordinates |
| Messages.ZeroPayloadRoundTrip | src/commonMain/kotlin/Message.kt:5-19 | a packed message without fields decodes to itself |
| Messages.PackDecodeRoundTrip | src/commonMain/kotlin/Message.kt:5-19 | every message that fits in `Int` sizes decodes from its packing to itself |
| Messages.ShortInputIsEof | src/commonMain/kotlin/Message.kt:6 | an array shorter than five bytes fails with EOF |
| Messages.DecodeDispatch | src/commonMain/kotlin/Message.kt:6-18 | an opcode outside -3..6 is rejected, and the field-less opcodes always decode |
| Messages.ConstructorsCheckOpcode | src/commonMain/kotlin/Message.kt:48 | each field decoder rejects an array that does not start with its own opcode |

## Left out

- Console output (`println`, `visualize`, the `debug` flag) has no effect on the model's results and is not modelled.
- The string helpers `setPieceAt`, `put` and `pieceAt(Char, Int)` are folded into the construction of the initial board.
- `ChessGame.whiteKing`/`blackKing`/`currentKing` duplicate the board's king fields and are not modelled separately.
- `ChessRays.StraightWalk`: where a queen's or rook's straight walk steps off the board before meeting its target, Kotlin calls `chess.assert` (`src/commonMain/kotlin/chess/util.kt:8-16`), which throws `Error`; `isMoveForbidden` would catch that and answer "forbidden". The model answers false instead. This needs a target two or more squares beyond the edge. `ChessAttacks.RaiseNeedsNearerHit` shows that the same piece then also hits the nearer square just beyond the edge, and `canCastle` asks about the nearer square first and stops there. Every other question (`isCheck`, the walks toward on-board targets) stays on the board, so the throw is not reached from any operation of the model.
- `ChessMoves.CastlingRooks`: `rooks(colour)` iterates a `HashSet`, and the model lists the rooks in ascending identity order. The order is observable: it fixes the order of the castling squares in the king's move list. That order decides which castling move `isMate` asks the oracle about first, and each question leaves its marks on the board (the reset `hasMoved` flags). The model proves its results for this one order only.
- A bishop's `squareColour` is fixed when the bishop is constructed (`ChessPiece.kt:340`). The model stores it in the piece record's `shade`, which `Spawn` sets from the square the piece is created on. `ChessAttacks.BishopOnOwnColour` and `ChessAttacks.DisplacedBishopBlind` state what `canHit` then does: a bishop that stands on a square of the other colour hits nothing.
- `HashSet` iteration order in `isMate` is a parameter of `MakeMove`, not a concrete hash order.
- Strings are kept as their encoded bytes. `encodeToByteArray` and `decodeToString` (UTF-8, with replacement of malformed input) are not modelled.
- `write(Char)`/`readChar` are not modelled. They are `write(Short)`/`readShort` with a conversion.
- The `vararg` `write(Any)` and the reified `read<T>()` dispatch are modelled per type, at each call site. Their `UnsupportedOperationException` branch cannot be reached from the messages.
- The constructor `Buffer(arr)` is `FromArray`. A negative initial capacity (a Kotlin exception) is excluded by using `nat`.
- `Buffers.EnsureCapacity`: requires `Growable`, which rules out a zero capacity. In Kotlin a zero capacity doubles forever. The capacity is an unbounded integer, so the `Int` overflow of `capacity *= 2` for arrays beyond 2^30 bytes is not modelled.
- `Messages.Pack`: requires `Packable`, which keeps chat field lengths and positions inside `Int`.
- `Buffers.WriteBytes`: requires `IsArray`, which keeps the array's size an `Int`, as every Kotlin array is.
- The chat message's initial capacity counts characters (`author.length`) where the bytes are written. The model passes the byte counts. Only the capacity doubling depends on it, and `Buffers.EnsureFresh` shows the written bytes do not.
- `Message.toString` and the `opcode` field's use outside `pack` are not modelled.
- The JVM server, the matchmaker and the JS client are not part of this model.
- The fool's-mate game of `src/jvmTest/kotlin/ChessGameTest.kt:113-151` is not proved. Stating it needs the oracle's answer for every white reply after four plies. The opening move lists of the same file (lines 12-69) are proved by the `ChessOpening` lemmas.

=== FILE: attacks.dfy ===
/**
 * Threat tests: `canHit` of every piece kind (ChessPiece.kt) and the board
 * queries built on it, `isEndangered` and `isCheck` (ChessBoard.kt).
 */
module ChessAttacks {
  import opened ChessGeometry
  import opened ChessBoard
  import opened ChessRays

  /** The rank direction a pawn of colour `c` advances in. */
  function Forward(c: Colour): int {
    if c == White then 1 else -1
  }

  /** `if (to < from) -1 else 1`: the step direction the walks choose. */
  function Toward(from: int, to: int): int {
    if to < from then -1 else 1
  }

  /**
   * `canHit` of each kind, following its Kotlin branches. On the board it is
   * the reference attack: King, Knight and Pawn by geometry alone, Rook,
   * Bishop and Queen along a free line, never onto their own square.
   */
  function CanHit(b: Board, p: Piece, t: Pos): (r: bool)
    requires OnBoard(p.pos)
    ensures OnBoard(t) ==> (r <==> Attacks(b, p, t))
  {
    var s := p.pos;
    WalksAgree(b, s, t);
    match p.kind
    case King => Abs(s.x - t.x) <= 1 && Abs(s.y - t.y) <= 1
    case Queen =>
      if s == t then false
      else if s.x == t.x then StraightWalk(b, s, t, 0, Toward(s.y, t.y))
      else if s.y == t.y then StraightWalk(b, s, t, Toward(s.x, t.x), 0)
      else if SquareColour(s.x, s.y) == SquareColour(t.x, t.y) then
        DiagonalWalk(b, s, t, Toward(s.x, t.x), Toward(s.y, t.y))
      else false
    case Rook =>
      if (s.x != t.x && s.y != t.y) || s == t then false
      else if s.x == t.x then StraightWalk(b, s, t, 0, Toward(s.y, t.y))
      else StraightWalk(b, s, t, Toward(s.x, t.x), 0)
    case Bishop =>
      if s == t || p.shade != SquareColour(t.x, t.y) then false
      else DiagonalWalk(b, s, t, Toward(s.x, t.x), Toward(s.y, t.y))
    case Knight =>
      || (Abs(t.x - s.x) == 2 && Abs(t.y - s.y) == 1)
      || (Abs(t.x - s.x) == 1 && Abs(t.y - s.y) == 2)
    case Pawn => s.y + Forward(p.colour) == t.y && Abs(s.x - t.x) == 1
  }

  // ---------------------------------------------------------------------
  // The reference description of an attack, in terms of lines and squares.
  // ---------------------------------------------------------------------

  /** A knight's L-shaped jump. */
  predicate KnightJump(a: Pos, t: Pos) {
    var dx := Abs(t.x - a.x);
    var dy := Abs(t.y - a.y);
    (dx == 1 && dy == 2) || (dx == 2 && dy == 1)
  }

  /** No occupied square strictly between `a` and `t` on the line joining them. */
  predicate PathClear(b: Board, a: Pos, t: Pos) {
    ClearBetween(b, a, Sign(t.x - a.x), Sign(t.y - a.y), Distance(a, t))
  }

  /**
   * Which squares a piece attacks, stated geometrically. A bishop sees only
   * squares of the colour it was constructed on.
   */
  predicate Attacks(b: Board, p: Piece, t: Pos) {
    var s := p.pos;
    match p.kind
    case King => Distance(s, t) <= 1
    case Queen => (OnFileOrRank(s, t) || OnDiagonal(s, t)) && PathClear(b, s, t)
    case Rook => OnFileOrRank(s, t) && PathClear(b, s, t)
    case Bishop => p.shade == SquareColour(t.x, t.y) && OnDiagonal(s, t) && PathClear(b, s, t)
    case Knight => KnightJump(s, t)
    case Pawn => t.y == s.y + Forward(p.colour) && Abs(t.x - s.x) == 1
  }

  /** The straight walks of Rook and Queen, against the reference. */
  lemma StraightHit(b: Board, s: Pos, t: Pos)
    requires OnBoard(s) && OnBoard(t) && OnFileOrRank(s, t)
    ensures s.x == t.x ==> (StraightWalk(b, s, t, 0, Toward(s.y, t.y)) <==> PathClear(b, s, t))
    ensures s.y == t.y ==> (StraightWalk(b, s, t, Toward(s.x, t.x), 0) <==> PathClear(b, s, t))
  {
    if s.x == t.x {
      assert StraightHeading(s, t, 0, Toward(s.y, t.y));
    } else {
      assert StraightHeading(s, t, Toward(s.x, t.x), 0);
    }
  }

  /** The diagonal walk of Bishop and Queen, against the reference. */
  lemma DiagonalHit(b: Board, s: Pos, t: Pos)
    requires OnBoard(s) && OnBoard(t) && s != t
    ensures DiagonalWalk(b, s, t, Toward(s.x, t.x), Toward(s.y, t.y)) <==> OnDiagonal(s, t) && PathClear(b, s, t)
  {
    assert DiagonalHeading(s, t, Toward(s.x, t.x), Toward(s.y, t.y));
  }

  /** Squares on one diagonal share a colour, so the colour test never rejects a diagonal target. */
  lemma DiagonalSameColour(s: Pos, t: Pos)
    requires OnDiagonal(s, t)
    ensures SquareColour(s.x, s.y) == SquareColour(t.x, t.y)
  {
    if t.x - s.x == t.y - s.y {
      SquareColourDiagonal(s.x, s.y, t.x - s.x);
    } else {
      SquareColourDiagonal(s.x, s.y, t.x - s.x);
      assert t.y == s.y - (t.x - s.x);
    }
  }

  /** The walks `canHit` takes between two on-board squares, against the reference, all at once. */
  lemma WalksAgree(b: Board, s: Pos, t: Pos)
    requires OnBoard(s)
    ensures OnBoard(t) && OnFileOrRank(s, t) ==>
      && (s.x == t.x ==> (StraightWalk(b, s, t, 0, Toward(s.y, t.y)) <==> PathClear(b, s, t)))
      && (s.y == t.y ==> (StraightWalk(b, s, t, Toward(s.x, t.x), 0) <==> PathClear(b, s, t)))
    ensures OnBoard(t) && s != t ==>
      (DiagonalWalk(b, s, t, Toward(s.x, t.x), Toward(s.y, t.y)) <==> OnDiagonal(s, t) && PathClear(b, s, t))
    ensures OnDiagonal(s, t) ==> SquareColour(s.x, s.y) == SquareColour(t.x, t.y)
  {
    if OnBoard(t) && OnFileOrRank(s, t) {
      StraightHit(b, s, t);
    }
    if OnBoard(t) && s != t {
      DiagonalHit(b, s, t);
    }
    if OnDiagonal(s, t) {
      DiagonalSameColour(s, t);
    }
  }

  /** A bishop standing on a square of its construction colour hits along every free diagonal. */
  lemma BishopOnOwnColour(b: Board, p: Piece, t: Pos)
    requires OnBoard(p.pos) && OnBoard(t) && p.kind == Bishop
    requires p.shade == SquareColour(p.pos.x, p.pos.y)
    ensures CanHit(b, p, t) <==> OnDiagonal(p.pos, t) && PathClear(b, p.pos, t)
  {
    if OnDiagonal(p.pos, t) {
      DiagonalSameColour(p.pos, t);
    }
  }

  /**
   * A bishop put onto a square of the other colour (which only a move made
   * for another piece object can do) hits no square of the board.
   */
  lemma DisplacedBishopBlind(b: Board, p: Piece, t: Pos)
    requires OnBoard(p.pos) && OnBoard(t) && p.kind == Bishop
    requires p.shade != SquareColour(p.pos.x, p.pos.y)
    ensures !CanHit(b, p, t)
  {
    if OnDiagonal(p.pos, t) {
      DiagonalSameColour(p.pos, t);
    }
  }

  /**
   * `canHit` of a Rook or Queen would reach the straight loop's
   * `chess.assert(.. in 0..7)` with an off-board coordinate, and throw.
   */
  predicate CanHitRaises(b: Board, p: Piece, t: Pos)
    requires OnBoard(p.pos)
  {
    var s := p.pos;
    && p.kind in {Queen, Rook} && s != t && (s.x == t.x || s.y == t.y)
    && (if s.x == t.x then StraightRaises(b, s, t, 0, Toward(s.y, t.y))
        else StraightRaises(b, s, t, Toward(s.x, t.x), 0))
  }

  /**
   * Only a target at least two squares off the board can make `canHit`
   * throw, and the same piece then hits the first square beyond the edge on
   * the way. `canCastle` asks about the nearer square first, so its `||`
   * stops before the throwing question.
   */
  lemma RaiseNeedsNearerHit(b: Board, p: Piece, t: Pos)
    requires OnBoard(p.pos) && CanHitRaises(b, p, t)
    ensures var s := p.pos;
      var e := if s.x == t.x then Beyond(t, 0, Toward(s.y, t.y)) else Beyond(t, Toward(s.x, t.x), 0);
      && !OnBoard(e) && (s.x == t.x ==> e.x == t.x && e.y != t.y) && (s.x != t.x ==> e.y == t.y && e.x != t.x)
      && CanHit(b, p, e)
  {
    var s := p.pos;
    if s.x == t.x {
      RaiseMeansEdgeHit(b, s, t, 0, Toward(s.y, t.y));
    } else {
      RaiseMeansEdgeHit(b, s, t, Toward(s.x, t.x), 0);
    }
  }

  /** King, Knight and Pawn never look at the board: occupancy cannot change their answer. */
  lemma SteppersIgnoreBoard(b1: Board, b2: Board, p: Piece, t: Pos)
    requires OnBoard(p.pos) && p.kind in {King, Knight, Pawn}
    ensures CanHit(b1, p, t) == CanHit(b2, p, t)
  {
  }

  /** A sliding piece never hits its own square. */
  lemma SliderMissesOwnSquare(b: Board, p: Piece)
    requires OnBoard(p.pos) && p.kind in {Queen, Rook, Bishop}
    ensures !CanHit(b, p, p.pos)
  {
  }

  // ---------------------------------------------------------------------
  // Board-level threat queries.
  // ---------------------------------------------------------------------

  /**
   * `isEndangered(t, c)`: some live piece not of colour `c` can hit `t`; for
   * an on-board square, some live opposing piece attacks it. The Kotlin
   * `any` stops at the first hit; `canHit` has no side effects, so the
   * iteration order does not matter.
   */
  function IsEndangered(b: Board, t: Pos, c: Colour): (r: bool)
    requires Valid(b)
    ensures OnBoard(t) ==> (r <==> exists id :: id in b.live && b.table[id].colour != c && Attacks(b, b.table[id], t))
  {
    EndangersAgree(b, t, c);
    exists id {:trigger Endangers(b, id, t, c)} :: id in b.live && Endangers(b, id, t, c)
  }

  /** Piece by piece, on the board, endangering is being an opposing piece that attacks. */
  lemma EndangersAgree(b: Board, t: Pos, c: Colour)
    requires Valid(b)
    ensures OnBoard(t) ==> forall id :: id in b.live ==>
      (Endangers(b, id, t, c) <==> b.table[id].colour != c && Attacks(b, b.table[id], t))
  {
    if OnBoard(t) {
      forall id | id in b.live
        ensures Endangers(b, id, t, c) <==> b.table[id].colour != c && Attacks(b, b.table[id], t)
      {
      }
    }
  }

  /** The live piece `id` is not of colour `c` and can hit `t`. */
  predicate Endangers(b: Board, id: PieceId, t: Pos, c: Colour)
    requires Valid(b)
  {
    id in b.live && b.table[id].colour != c && CanHit(b, b.table[id], t)
  }

  /** `isCheck(c)`: some live piece of the other colour attacks the square of the cached king of colour `c`. */
  function IsCheck(b: Board, c: Colour): (r: bool)
    requires Valid(b)
    ensures r <==>
      exists id :: id in b.live && b.table[id].colour == Not(c) && Attacks(b, b.table[id], b.table[KingOf(b, c)].pos)
  {
    IsEndangered(b, b.table[KingOf(b, c)].pos, c)
  }
}

=== FILE: board.dfy ===
/**
 * The board of ChessBoard.kt: an 8x8 grid of optional piece references, the
 * table of piece objects those references point to, and the separate set of
 * live pieces that threat queries iterate.
 */
module ChessBoard {
  import opened Results
  import opened ChessGeometry

  datatype Kind = King | Queen | Rook | Bishop | Knight | Pawn

  /** The identity of a piece object (Kotlin compares pieces by reference). */
  type PieceId = nat

  /**
   * The fields of a ChessPiece object: `pos` and `hasMoved` change as the
   * piece moves; `shade` is the colour of the square the piece was
   * constructed on, which a Bishop keeps as its `squareColour`.
   */
  datatype Piece = Piece(kind: Kind, colour: Colour, pos: Pos, hasMoved: bool, shade: Colour)

  /** A piece object constructed on `pos`. */
  function Spawn(kind: Kind, colour: Colour, pos: Pos, hasMoved: bool): Piece {
    Piece(kind, colour, pos, hasMoved, SquareColour(pos.x, pos.y))
  }

  /**
   * `cells` holds the occupied squares of `array` (an absent square is null),
   * `table` every piece object ever created, `live` the set `pieces`,
   * `whiteKing`/`blackKing` the cached king references and `nextId` the
   * identity the next constructed piece receives.
   */
  datatype Board = Board(
    cells: map<Pos, PieceId>,
    table: map<PieceId, Piece>,
    live: set<PieceId>,
    whiteKing: PieceId,
    blackKing: PieceId,
    nextId: PieceId)

  /**
   * What every board the engine builds satisfies: references point at known
   * objects, an object in the grid records the square it sits on, positions
   * are on the board and new identities are unused.
   */
  predicate Valid(b: Board) {
    && (forall p :: p in b.cells ==> OnBoard(p) && b.cells[p] in b.table && b.table[b.cells[p]].pos == p)
    && b.live <= b.table.Keys
    && b.whiteKing in b.table && b.blackKing in b.table
    && (forall id :: id in b.table ==> OnBoard(b.table[id].pos) && id < b.nextId)
  }

  /** `king(c)`: the cached king reference of colour `c`. */
  function KingOf(b: Board, c: Colour): PieceId {
    if c == White then b.whiteKing else b.blackKing
  }

  /** `pieceAt(x, y)`: null for every coordinate outside 0..7, otherwise the grid cell. */
  function PieceAt(b: Board, x: int, y: int): (r: Option<PieceId>)
    ensures !(InRange(x) && InRange(y)) ==> r == None
    ensures r.Some? ==> Pos(x, y) in b.cells && b.cells[Pos(x, y)] == r.value
    ensures InRange(x) && InRange(y) ==> (r.Some? <==> Pos(x, y) in b.cells)
  {
    if InRange(x) && InRange(y) && Pos(x, y) in b.cells then Some(b.cells[Pos(x, y)]) else None
  }

  /** `hasPieceAt(x, y)`: false for every coordinate outside 0..7. */
  function HasPieceAt(b: Board, x: int, y: int): (r: bool)
  {
    InRange(x) && InRange(y) && Pos(x, y) in b.cells
  }

  /**
   * `pieceAt(x, y)?.colour`. The table lookup always succeeds on a valid
   * board; the guard keeps the function total.
   */
  function ColourAt(b: Board, x: int, y: int): (r: Option<Colour>)
  {
    if HasPieceAt(b, x, y) && b.cells[Pos(x, y)] in b.table then Some(b.table[b.cells[Pos(x, y)]].colour)
    else None
  }

  /** `hasColouredPieceAt(x, y, colour)`: false for every coordinate outside 0..7. */
  function HasColouredPieceAt(b: Board, x: int, y: int, c: Colour): (r: bool)
  {
    ColourAt(b, x, y) == Some(c)
  }

  /** On a valid board every occupied square has a colour. */
  lemma ColourAtOccupied(b: Board, x: int, y: int)
    requires Valid(b)
    ensures ColourAt(b, x, y).Some? <==> HasPieceAt(b, x, y)
  {
  }

  /** Off the board nothing is found, whatever the board holds. */
  lemma OffBoardEmpty(b: Board, x: int, y: int)
    requires !(InRange(x) && InRange(y))
    ensures PieceAt(b, x, y) == None && !HasPieceAt(b, x, y)
    ensures forall c :: !HasColouredPieceAt(b, x, y, c)
  {
  }

  /** The kind and colour on each occupied square, forgetting identities and flags. */
  function Occupancy(b: Board): map<Pos, (Kind, Colour)>
  {
    map p | p in b.cells && b.cells[p] in b.table :: (b.table[b.cells[p]].kind, b.table[b.cells[p]].colour)
  }

  // ---------------------------------------------------------------------
  // The initial position (the `init` block and the `pieces` set).
  // ---------------------------------------------------------------------

  /** The back rank from file a to file h. */
  function BackRank(x: int): Kind {
    if x == 0 || x == 7 then Rook
    else if x == 1 || x == 6 then Knight
    else if x == 2 || x == 5 then Bishop
    else if x == 3 then Queen
    else King
  }

  /** The ranks the initial position fills: 1, 2, 7 and 8 in notation. */
  predicate HomeRank(y: int) { y == 0 || y == 1 || y == 6 || y == 7 }

  /** Identities of the 32 initial pieces: white back rank, white pawns, black back rank, black pawns. */
  function InitialId(p: Pos): PieceId
    requires OnBoard(p) && HomeRank(p.y)
  {
    (if p.y == 0 then 0 else if p.y == 1 then 8 else if p.y == 7 then 16 else 24) + p.x
  }

  function InitialPiece(id: nat): Piece
    requires id < 32
  {
    if id < 8 then Spawn(BackRank(id), White, Pos(id, 0), false)
    else if id < 16 then Spawn(Pawn, White, Pos(id - 8, 1), false)
    else if id < 24 then Spawn(BackRank(id - 16), Black, Pos(id - 16, 7), false)
    else Spawn(Pawn, Black, Pos(id - 24, 6), false)
  }

  function InitialCells(): map<Pos, PieceId> {
    map x: int, y: int | 0 <= x < 8 && 0 <= y < 8 && HomeRank(y) :: Pos(x, y) := InitialId(Pos(x, y))
  }

  lemma InitialIdInverse(p: Pos)
    requires OnBoard(p) && HomeRank(p.y)
    ensures InitialId(p) < 32 && InitialPiece(InitialId(p)).pos == p
  {
  }

  lemma InitialCellsFacts()
    ensures forall p :: p in InitialCells() ==>
      OnBoard(p) && HomeRank(p.y) && InitialCells()[p] == InitialId(p)
  {
  }

  /** Every initial cell refers to one of the 32 initial pieces, which records that cell. */
  lemma InitialCellsRefer()
    ensures forall p :: p in InitialCells() ==>
      InitialCells()[p] < 32 && InitialPiece(InitialCells()[p]).pos == p
  {
    InitialCellsFacts();
    forall p | p in InitialCells()
      ensures InitialCells()[p] < 32 && InitialPiece(InitialCells()[p]).pos == p
    {
      InitialIdInverse(p);
    }
  }

  lemma InitialPiecesOnBoard()
    ensures forall id: nat :: id < 32 ==> OnBoard(InitialPiece(id).pos)
  {
  }

  function InitialTable(): map<PieceId, Piece> {
    map id: nat | id < 32 :: InitialPiece(id)
  }

  /** The freshly constructed ChessBoard. */
  function Initial(): (b: Board)
    ensures Valid(b)
  {
    var cells := InitialCells();
    InitialCellsRefer();
    InitialPiecesOnBoard();
    assert cells.Values <= InitialTable().Keys;
    Board(cells, InitialTable(), cells.Values, 4, 20, 32)
  }

  /** Ranks 1, 2, 7 and 8 are filled, the others empty. */
  lemma InitialOccupied(x: int, y: int)
    requires InRange(x) && InRange(y)
    ensures HasPieceAt(Initial(), x, y) <==> HomeRank(y)
  {
  }

  /**
   * The standard layout: ranks 1 and 2 white, 7 and 8 black, pawns in front,
   * R N B Q K B N R behind, nobody has moved yet.
   */
  lemma InitialSquare(x: int, y: int)
    requires InRange(x) && HomeRank(y)
    ensures var b := Initial();
      var p := b.table[b.cells[Pos(x, y)]];
      && p.colour == (if y <= 1 then White else Black)
      && p.kind == (if y == 1 || y == 6 then Pawn else BackRank(x))
      && !p.hasMoved
  {
  }

  /** The cached kings stand on e1 and e8; the live set is exactly the set of occupied cells. */
  lemma InitialKings()
    ensures var b := Initial();
      && b.cells[Pos(4, 0)] == b.whiteKing && b.table[b.whiteKing] == Spawn(King, White, Pos(4, 0), false)
      && b.cells[Pos(4, 7)] == b.blackKing && b.table[b.blackKing] == Spawn(King, Black, Pos(4, 7), false)
      && b.live == b.cells.Values
  {
  }
}

=== FILE: buffer.dfy ===
/**
 * Buffer.kt: a growable byte array with a cursor. Writers grow the array by
 * doubling and store little-endian fields at the cursor; readers check the
 * remaining room first and fail with "EOF". Every operation returns the new
 * buffer; a Kotlin exception becomes an `Err`.
 */
module Buffers {
  import opened Results
  import opened KotlinInts

  /**
   * `Eof` is the `Error("EOF")` of `assertCapacity`, `IndexOutOfRange` an
   * array access outside the backing array, `OpcodeMismatch` a failing
   * `require` and `UnknownOpcode` the `UnsupportedOperationException` of
   * `decode`.
   */
  datatype CodecError = Eof | IndexOutOfRange | OpcodeMismatch | UnknownOpcode

  /** `buf` is the backing array, whose size is the buffer's `capacity`; `pointer` is the cursor. */
  datatype Buffer = Buffer(buf: seq<u8>, pointer: int)

  /** A zero-filled array of `n` bytes (`ByteArray(n)`). */
  function Zeros(n: nat): (r: seq<u8>)
    ensures |r| == n && forall i :: 0 <= i < n ==> r[i] == 0
  {
    seq(n, i => 0)
  }

  /** `Buffer(initialCapacity)`. */
  function WithCapacity(n: nat): (r: Buffer)
    ensures |r.buf| == n && r.pointer == 0 && forall i :: 0 <= i < n ==> r.buf[i] == 0
  {
    Buffer(Zeros(n), 0)
  }

  /** `Buffer(arr)`: reading starts at the first byte. */
  function FromArray(arr: seq<u8>): Buffer {
    Buffer(arr, 0)
  }

  function Pow2(k: nat): (r: nat)
    ensures r >= 1
  {
    if k == 0 then 1 else 2 * Pow2(k - 1)
  }

  lemma DoubleOnce(cap: nat, k: nat)
    ensures cap * 2 * Pow2(k) == cap * Pow2(k + 1)
  {
    assert Pow2(k + 1) == 2 * Pow2(k);
  }

  /** The doubling loop of `ensureCapacity`: double `cap` until it exceeds `need`. */
  function Doubled(cap: nat, need: int): (r: nat)
    requires cap > 0
    ensures r > need && r >= cap
    ensures exists k: nat :: r == cap * Pow2(k)
    ensures need < cap ==> r == cap
    ensures r == cap || r <= 2 * need
    decreases if need < cap then 0 else need - cap + 1
  {
    if need < cap then
      assert cap == cap * Pow2(0);
      cap
    else
      var r := Doubled(cap * 2, need);
      var k: nat :| r == cap * 2 * Pow2(k);
      DoubleOnce(cap, k);
      r
  }

  /** Growing is only possible from a non-empty array: doubling zero never ends. */
  predicate Growable(b: Buffer, delta: int) {
    b.pointer + delta + 1 < |b.buf| || |b.buf| > 0
  }

  /**
   * `ensureCapacity(delta)`: if `pointer+delta+1` does not fit, the array is
   * replaced by a zero-filled one of doubled capacity holding the old bytes.
   */
  function EnsureCapacity(b: Buffer, delta: int): (r: Buffer)
    requires Growable(b, delta)
    ensures r.pointer == b.pointer && b.pointer + delta + 1 < |r.buf|
    ensures |b.buf| <= |r.buf| && r.buf[..|b.buf|] == b.buf
    ensures forall i :: |b.buf| <= i < |r.buf| ==> r.buf[i] == 0
    ensures exists k: nat :: |r.buf| == |b.buf| * Pow2(k)
    ensures b.pointer + delta + 1 < |b.buf| ==> r == b
    ensures |r.buf| == |b.buf| || |r.buf| <= 2 * (b.pointer + delta + 1)
  {
    if b.pointer + delta + 1 < |b.buf| then
      assert |b.buf| == |b.buf| * Pow2(0);
      b
    else
      var cap := Doubled(|b.buf|, b.pointer + delta + 1);
      Buffer(b.buf + Zeros(cap - |b.buf|), b.pointer)
  }

  /**
   * `assertCapacity(delta)`: "EOF" unless `pointer+delta` (an `Int` sum) is
   * below the capacity. Without overflow that is the plain sum; a sum that
   * overflows past the top of `Int` wraps negative and passes.
   */
  function AssertCapacity(b: Buffer, delta: int): (r: Result<(), CodecError>)
    ensures r.Ok? <==> (Wrap32(b.pointer + delta) as int) < |b.buf|
    ensures r.Err? ==> r == Err(Eof)
    ensures -0x8000_0000 <= b.pointer + delta < 0x8000_0000 ==> (r.Ok? <==> b.pointer + delta < |b.buf|)
    ensures 0x8000_0000 <= b.pointer + delta < Two32 ==> r.Ok?
  {
    if Wrap32(b.pointer + delta) as int >= |b.buf| then Err(Eof) else Ok(())
  }

  /** `collect()`: the array sliced to `0..pointer`, both ends included. */
  function Collect(b: Buffer): (r: Result<seq<u8>, CodecError>)
    ensures 0 <= b.pointer < |b.buf| ==> r == Ok(b.buf[..b.pointer + 1])
    ensures b.pointer < 0 ==> r == Ok([])
    ensures b.pointer >= |b.buf| ==> r == Err(IndexOutOfRange)
  {
    if b.pointer < 0 then Ok([])
    else if b.pointer >= |b.buf| then Err(IndexOutOfRange)
    else Ok(b.buf[..b.pointer + 1])
  }

  /** `buf[pointer++] = ..` for each of `bytes`, once capacity has been ensured. */
  function Put(b: Buffer, bytes: seq<u8>): (r: Result<Buffer, CodecError>)
    requires b.pointer + |bytes| <= |b.buf|
    ensures r.Ok? <==> bytes == [] || b.pointer >= 0
    ensures r.Ok? ==> r.value.pointer == b.pointer + |bytes| && |r.value.buf| == |b.buf|
    ensures r.Ok? && bytes != [] ==>
      && r.value.buf[..b.pointer] == b.buf[..b.pointer]
      && r.value.buf[b.pointer..b.pointer + |bytes|] == bytes
      && r.value.buf[b.pointer + |bytes|..] == b.buf[b.pointer + |bytes|..]
  {
    if bytes == [] then Ok(b)
    else if b.pointer < 0 then Err(IndexOutOfRange)
    else Ok(Buffer(b.buf[..b.pointer] + bytes + b.buf[b.pointer + |bytes|..], b.pointer + |bytes|))
  }

  /** `buf[pointer++]`, `n` times, after `assertCapacity(n)`. */
  function Take(b: Buffer, n: nat): (r: Result<(seq<u8>, Buffer), CodecError>)
    ensures r.Ok? ==> |r.value.0| == n && r.value.1 == b.(pointer := b.pointer + n)
    ensures r.Ok? && n > 0 ==> 0 <= b.pointer && b.pointer + n <= |b.buf| && r.value.0 == b.buf[b.pointer..b.pointer + n]
    ensures 0 <= b.pointer && b.pointer + n < |b.buf| ==> r.Ok?
  {
    var _ :- AssertCapacity(b, n);
    if n == 0 then Ok(([], b))
    else if !(0 <= b.pointer && b.pointer + n <= |b.buf|) then Err(IndexOutOfRange)
    else Ok((b.buf[b.pointer..b.pointer + n], b.(pointer := b.pointer + n)))
  }

  // ---------------------------------------------------------------------
  // Field layouts.
  // ---------------------------------------------------------------------

  /** `(v ushr s) and 0xff` for s = 0, 8, 16, 24. */
  function IntBytes(v: i32): (r: seq<u8>)
    ensures |r| == 4
    ensures r[0] as int + r[1] as int * 0x100 + r[2] as int * 0x1_0000 + r[3] as int * 0x100_0000 == U32(v)
  {
    var u := U32(v);
    Digits4(u);
    [ToByte(u), ToByte(u / 0x100), ToByte(u / 0x1_0000), ToByte(u / 0x100_0000)]
  }

  /** The `or` of the four bytes shifted by 0, 8, 16 and 24, as an `Int`. */
  function IntOf(s: seq<u8>): i32
    requires |s| == 4
  {
    Wrap32(s[0] as int + s[1] as int * 0x100 + s[2] as int * 0x1_0000 + s[3] as int * 0x100_0000)
  }

  /** The eight bytes `write(Long)` stores: shifts 0, 8, .., 48 and then 54. */
  function LongBytes(v: i64): (r: seq<u8>)
    ensures |r| == 8
    ensures r[0] as int + r[1] as int * 0x100 + r[2] as int * 0x1_0000 + r[3] as int * 0x100_0000
      + r[4] as int * 0x1_0000_0000 + r[5] as int * 0x100_0000_0000
      + r[6] as int * 0x1_0000_0000_0000 == U64(v) % 0x100_0000_0000_0000
    ensures r[7] as int == U64(v) / 0x40_0000_0000_0000 % 0x100
  {
    var u := U64(v);
    Digits8(u);
    [ToByte(u), ToByte(u / 0x100), ToByte(u / 0x1_0000), ToByte(u / 0x100_0000),
     ToByte(u / 0x1_0000_0000), ToByte(u / 0x100_0000_0000), ToByte(u / 0x1_0000_0000_0000),
     ToByte(u / 0x40_0000_0000_0000)]
  }

  /** The `or` of eight bytes shifted by 0, 8, .., 56, as a `Long`. */
  function LongOf(s: seq<u8>): i64
    requires |s| == 8
  {
    Wrap64(s[0] as int + s[1] as int * 0x100 + s[2] as int * 0x1_0000 + s[3] as int * 0x100_0000
      + s[4] as int * 0x1_0000_0000 + s[5] as int * 0x100_0000_0000
      + s[6] as int * 0x1_0000_0000_0000 + s[7] as int * 0x100_0000_0000_0000)
  }

  /** `(v % 256).toByte()` and `(v / 256).toByte()` with Kotlin's truncating `%` and `/`. */
  function ShortBytes(v: i16): (r: seq<u8>)
    ensures |r| == 2
    ensures v >= 0 ==> r[0] as int + r[1] as int * 0x100 == v as int
    ensures v < 0 ==> (r[0] as int + r[1] as int * 0x100 - v as int - (if v as int % 0x100 == 0 then 0 else 0x100)) % Two16 == 0
  {
    ShortDigits(v as int);
    [ToByte(TruncRem(v as int, 0x100)), ToByte(TruncDiv(v as int, 0x100))]
  }

  /** The two bytes shifted by 0 and 8, then `toShort()`. */
  function ShortOf(s: seq<u8>): i16
    requires |s| == 2
  {
    Wrap16(s[0] as int + s[1] as int * 0x100)
  }

  // ---------------------------------------------------------------------
  // Writers.
  // ---------------------------------------------------------------------

  function WriteInt(b: Buffer, v: i32): (r: Result<Buffer, CodecError>)
    requires Growable(b, 4)
    ensures r.Ok? <==> b.pointer >= 0
    ensures r.Ok? ==> r.value.pointer == b.pointer + 4 && r.value.pointer + 1 < |r.value.buf|
  {
    Put(EnsureCapacity(b, 4), IntBytes(v))
  }

  function WriteLong(b: Buffer, v: i64): (r: Result<Buffer, CodecError>)
    requires Growable(b, 8)
    ensures r.Ok? <==> b.pointer >= 0
    ensures r.Ok? ==> r.value.pointer == b.pointer + 8 && r.value.pointer + 1 < |r.value.buf|
  {
    Put(EnsureCapacity(b, 8), LongBytes(v))
  }

  function WriteShort(b: Buffer, v: i16): (r: Result<Buffer, CodecError>)
    requires Growable(b, 2)
    ensures r.Ok? <==> b.pointer >= 0
    ensures r.Ok? ==> r.value.pointer == b.pointer + 2 && r.value.pointer + 1 < |r.value.buf|
  {
    Put(EnsureCapacity(b, 2), ShortBytes(v))
  }

  function WriteByte(b: Buffer, v: u8): (r: Result<Buffer, CodecError>)
    requires Growable(b, 1)
    ensures r.Ok? <==> b.pointer >= 0
    ensures r.Ok? ==> r.value.pointer == b.pointer + 1 && r.value.pointer + 1 < |r.value.buf|
  {
    Put(EnsureCapacity(b, 1), [v])
  }

  /** A Kotlin array: its size is an `Int`. */
  predicate IsArray(arr: seq<u8>) { |arr| < 0x8000_0000 }

  /** `write(arr)`: room for the length and the bytes, the length as an `Int`, then the bytes. */
  function WriteBytes(b: Buffer, arr: seq<u8>): (r: Result<Buffer, CodecError>)
    requires IsArray(arr) && Growable(b, 4 + |arr|)
    ensures r.Ok? <==> b.pointer >= 0
    ensures r.Ok? ==> r.value.pointer == b.pointer + 4 + |arr| && r.value.pointer + 1 < |r.value.buf|
  {
    var e := EnsureCapacity(b, 4 + |arr|);
    var w :- WriteInt(e, |arr| as i32);
    Put(w, arr)
  }

  /** `write(b: Boolean)` writes the `Int` 1 or 0. */
  function WriteBoolean(b: Buffer, v: bool): (r: Result<Buffer, CodecError>)
    requires Growable(b, 4)
    ensures r.Ok? <==> b.pointer >= 0
    ensures r.Ok? ==> r.value.pointer == b.pointer + 4
  {
    WriteInt(b, if v then 1 else 0)
  }

  // ---------------------------------------------------------------------
  // Readers.
  // ---------------------------------------------------------------------

  /** `readInt()`: the four bytes at the pointer, little-endian, as an `Int`. */
  function ReadInt(b: Buffer): (r: Result<(i32, Buffer), CodecError>)
    ensures r.Ok? ==> r.value.1 == b.(pointer := b.pointer + 4)
    ensures r.Ok? ==> 0 <= b.pointer && b.pointer + 4 <= |b.buf| && r.value.0 == IntOf(b.buf[b.pointer..b.pointer + 4])
    ensures 0 <= b.pointer && b.pointer + 4 < |b.buf| ==> r.Ok?
  {
    var (s, b1) :- Take(b, 4);
    Ok((IntOf(s), b1))
  }

  /** `readLong()`: the eight bytes at the pointer, little-endian, as a `Long`. */
  function ReadLong(b: Buffer): (r: Result<(i64, Buffer), CodecError>)
    ensures r.Ok? ==> r.value.1 == b.(pointer := b.pointer + 8)
    ensures r.Ok? ==> 0 <= b.pointer && b.pointer + 8 <= |b.buf| && r.value.0 == LongOf(b.buf[b.pointer..b.pointer + 8])
    ensures 0 <= b.pointer && b.pointer + 8 < |b.buf| ==> r.Ok?
  {
    var (s, b1) :- Take(b, 8);
    Ok((LongOf(s), b1))
  }

  /** `readShort()`: the two bytes at the pointer, little-endian, as a `Short`. */
  function ReadShort(b: Buffer): (r: Result<(i16, Buffer), CodecError>)
    ensures r.Ok? ==> r.value.1 == b.(pointer := b.pointer + 2)
    ensures r.Ok? ==> 0 <= b.pointer && b.pointer + 2 <= |b.buf| && r.value.0 == ShortOf(b.buf[b.pointer..b.pointer + 2])
    ensures 0 <= b.pointer && b.pointer + 2 < |b.buf| ==> r.Ok?
  {
    var (s, b1) :- Take(b, 2);
    Ok((ShortOf(s), b1))
  }

  /** `readByte()`: the byte at the pointer. */
  function ReadByte(b: Buffer): (r: Result<(u8, Buffer), CodecError>)
    ensures r.Ok? ==> r.value.1 == b.(pointer := b.pointer + 1)
    ensures r.Ok? ==> 0 <= b.pointer < |b.buf| && r.value.0 == b.buf[b.pointer]
    ensures 0 <= b.pointer && b.pointer + 1 < |b.buf| ==> r.Ok?
  {
    var (s, b1) :- Take(b, 1);
    Ok((s[0], b1))
  }

  /** `readBoolean()`: one byte, true unless zero. */
  function ReadBoolean(b: Buffer): (r: Result<(bool, Buffer), CodecError>)
    ensures r.Ok? ==> r.value.1 == b.(pointer := b.pointer + 1)
    ensures r.Ok? ==> 0 <= b.pointer < |b.buf| && (r.value.0 <==> b.buf[b.pointer] != 0)
    ensures 0 <= b.pointer && b.pointer + 1 < |b.buf| ==> r.Ok?
  {
    var (v, b1) :- ReadByte(b);
    Ok((v != 0, b1))
  }

  /**
   * `readBytes()`: an `Int` length, `assertCapacity(len)`, then the slice
   * `pointer until pointer+len` (empty when the end is not after the start)
   * and `pointer += len`, both with `Int` sums.
   */
  function ReadBytes(b: Buffer): (r: Result<(seq<u8>, Buffer), CodecError>)
    ensures ReadInt(b).Err? ==> r.Err?
    ensures r.Ok? ==> ReadInt(b).Ok?
    ensures r.Ok? ==>
      var (len, b1) := ReadInt(b).value;
      && r.value.1 == b1.(pointer := Wrap32(b1.pointer + len as int) as int)
      && (len <= 0 ==> r.value.0 == [])
      && (0 < len as int && b1.pointer + len as int < 0x8000_0000 ==>
            b1.pointer + len as int < |b.buf| && r.value.0 == b.buf[b1.pointer..b1.pointer + len as int])
  {
    var (len, b1) :- ReadInt(b);
    var _ :- AssertCapacity(b1, len as int);
    var sum := b1.pointer + len as int;
    var end := Wrap32(sum) as int;
    assert sum < 0x8000_0000 ==> end == sum by {
      if sum < 0x8000_0000 { Wrap32Id(sum); }
    }
    if end <= b1.pointer then Ok(([], b1.(pointer := end)))
    else if b1.pointer < 0 then Err(IndexOutOfRange)
    else Ok((b1.buf[b1.pointer..end], b1.(pointer := end)))
  }

  // ---------------------------------------------------------------------
  // Layout arithmetic.
  // ---------------------------------------------------------------------

  lemma Digits4(u: nat)
    requires u < Two32
    ensures (u % 0x100) + (u / 0x100 % 0x100) * 0x100 + (u / 0x1_0000 % 0x100) * 0x1_0000 + (u / 0x100_0000 % 0x100) * 0x100_0000 == u
  {
    Digits3(u);
    var top := u / 0x100_0000;
    assert u == top * 0x100_0000 + u % 0x100_0000;
    assert top < 0x100;
  }

  /**
   * The bytes of a 16-bit value by truncating `%` and `/`: the value itself
   * when it is not negative, and otherwise its pattern, 256 higher unless
   * 256 divides it.
   */
  lemma ShortDigits(x: int)
    requires -0x8000 <= x < 0x8000
    ensures var lo, hi := ToByte(TruncRem(x, 0x100)) as int, ToByte(TruncDiv(x, 0x100)) as int;
      && (x >= 0 ==> lo + hi * 0x100 == x)
      && (x < 0 ==> (lo + hi * 0x100 - x - (if x % 0x100 == 0 then 0 else 0x100)) % Two16 == 0)
  {
    if x >= 0 {
      assert x == x / 0x100 * 0x100 + x % 0x100;
    } else {
      var q, r := (-x) / 0x100, (-x) % 0x100;
      assert TruncRem(x, 0x100) == -r && TruncDiv(x, 0x100) == -q;
      NegativeDigits(x, q, r);
    }
  }

  lemma NegativeDigits(x: int, q: int, r: int)
    requires -0x8000 <= x < 0 && q == (-x) / 0x100 && r == (-x) % 0x100
    ensures var lo, hi := ToByte(-r) as int, ToByte(-q) as int;
      (lo + hi * 0x100 - x - (if x % 0x100 == 0 then 0 else 0x100)) % Two16 == 0
  {
    assert -x == q * 0x100 + r;
    assert 0 <= q <= 0x80;
    var lo, hi := ToByte(-r) as int, ToByte(-q) as int;
    assert hi == if q == 0 then 0 else 0x100 - q by {
      if q != 0 { ModUnique(-q, 0x100, -1, 0x100 - q); }
    }
    if r == 0 {
      ModUnique(x, 0x100, -q, 0);
      assert lo + hi * 0x100 - x == (if q == 0 then 0 else Two16);
    } else {
      ModUnique(-r, 0x100, -1, 0x100 - r);
      ModUnique(x, 0x100, -q - 1, 0x100 - r);
      assert lo + hi * 0x100 - x - 0x100 == (if q == 0 then 0 else Two16);
    }
  }

  /** The low three bytes of `u` add up to its value modulo 2^24. */
  lemma Digits3(u: nat)
    ensures (u % 0x100) + (u / 0x100 % 0x100) * 0x100 + (u / 0x1_0000 % 0x100) * 0x1_0000 == u % 0x100_0000
  {
    var a, q1 := u % 0x100, u / 0x100;
    var b, q2 := q1 % 0x100, q1 / 0x100;
    var c, q3 := q2 % 0x100, q2 / 0x100;
    assert u == q2 * 0x1_0000 + (b * 0x100 + a);
    DivUnique(u, 0x1_0000, q2, b * 0x100 + a);
    assert u == q3 * 0x100_0000 + (c * 0x1_0000 + b * 0x100 + a);
    ModUnique(u, 0x100_0000, q3, c * 0x1_0000 + b * 0x100 + a);
  }

  /** A byte of the low word of `lo + hi * 2^32` is the same byte of `lo`. */
  lemma LowByte(lo: nat, hi: nat, d: nat)
    requires lo < Two32 && d in {1, 0x100, 0x1_0000, 0x100_0000}
    ensures (lo + hi * Two32) / d % 0x100 == lo / d % 0x100
  {
    var k := Two32 / d;
    assert k * d == Two32 && k % 0x100 == 0;
    var n := lo + hi * Two32;
    assert hi * Two32 == (hi * k) * d;
    assert n == (lo / d + hi * k) * d + lo % d;
    DivUnique(n, d, lo / d + hi * k, lo % d);
    var x := lo / d;
    assert hi * k == (hi * (k / 0x100)) * 0x100;
    ModUnique(x + hi * k, 0x100, x / 0x100 + hi * (k / 0x100), x % 0x100);
  }

  /** Shifting `lo + hi * 2^32` right past the low word shifts `hi`. */
  lemma HighByte(lo: nat, hi: nat, d: nat)
    requires lo < Two32 && d > 0
    ensures (lo + hi * Two32) / (Two32 * d) == hi / d
  {
    var q, r := hi / d, hi % d;
    assert lo + hi * Two32 == q * (Two32 * d) + (r * Two32 + lo);
    assert r * Two32 + lo < Two32 * d by {
      assert r <= d - 1;
      assert r * Two32 <= (d - 1) * Two32;
    }
    DivUnique(lo + hi * Two32, Two32 * d, q, r * Two32 + lo);
  }

  /** The low seven bytes of a 64-bit pattern and its top byte add back up to it. */
  lemma Digits8(u: nat)
    requires u < Two64
    ensures var low := (u % 0x100) + (u / 0x100 % 0x100) * 0x100 + (u / 0x1_0000 % 0x100) * 0x1_0000
        + (u / 0x100_0000 % 0x100) * 0x100_0000 + (u / 0x1_0000_0000 % 0x100) * 0x1_0000_0000
        + (u / 0x100_0000_0000 % 0x100) * 0x100_0000_0000 + (u / 0x1_0000_0000_0000 % 0x100) * 0x1_0000_0000_0000;
      low == u % 0x100_0000_0000_0000 && low + (u / 0x100_0000_0000_0000) * 0x100_0000_0000_0000 == u
  {
    var lo := u % Two32;
    var hi := u / Two32;
    assert u == lo + hi * Two32;
    LowByte(lo, hi, 1);
    LowByte(lo, hi, 0x100);
    LowByte(lo, hi, 0x1_0000);
    LowByte(lo, hi, 0x100_0000);
    Digits4(lo);
    HighByte(lo, hi, 1);
    HighByte(lo, hi, 0x100);
    HighByte(lo, hi, 0x1_0000);
    HighByte(lo, hi, 0x100_0000);
    Digits3(hi);
  }

  // ---------------------------------------------------------------------
  // Layout round trips.
  // ---------------------------------------------------------------------

  /** Every `Int` survives its four bytes. */
  lemma IntBytesRoundTrip(v: i32)
    ensures IntOf(IntBytes(v)) == v
  {
    Digits4(U32(v));
  }

  /**
   * A `Short` survives its two bytes exactly when it is not negative or is a
   * multiple of 256; any other negative value reads back 256 too high,
   * because the signed `%` and `/` both round toward zero.
   */
  lemma ShortBytesRoundTrip(v: i16)
    ensures ShortOf(ShortBytes(v)) == if v >= 0 || TruncRem(v as int, 0x100) == 0 then v else v + 0x100
    ensures ShortOf(ShortBytes(v)) == v <==> v >= 0 || TruncRem(v as int, 0x100) == 0
  {
    var x := v as int;
    var bytes := ShortBytes(v);
    if x >= 0 {
      assert bytes[0] as int == x % 0x100 && bytes[1] as int == x / 0x100;
      Wrap16Id(x);
    } else {
      var a := -x;
      var q, r := a / 0x100, a % 0x100;
      assert TruncRem(x, 0x100) == -r && TruncDiv(x, 0x100) == -q;
      if r == 0 {
        assert bytes[0] == 0 && bytes[1] as int == 0x100 - q;
        assert bytes[0] as int + bytes[1] as int * 0x100 == x + Two16;
        Wrap16Id(x);
      } else if q == 0 {
        assert bytes[0] as int == 0x100 - r && bytes[1] == 0;
        Wrap16Id(x + 0x100);
      } else {
        assert bytes[0] as int == 0x100 - r && bytes[1] as int == 0x100 - q;
        assert bytes[0] as int + bytes[1] as int * 0x100 == x + 0x100 + Two16;
        Wrap16Id(x + 0x100);
      }
    }
  }

  /**
   * A `Long` survives its eight bytes exactly when its bits 54 to 61 equal
   * its bits 56 to 63: the eighth byte is taken from a shift by 54 and put
   * back with a shift by 56.
   */
  lemma LongBytesRoundTrip(v: i64)
    ensures LongOf(LongBytes(v)) == v <==> U64(v) / 0x40_0000_0000_0000 % 0x100 == U64(v) / 0x100_0000_0000_0000
  {
    var u := U64(v);
    Digits8(u);
    var t := u / 0x40_0000_0000_0000 % 0x100;
    var s := u % 0x100_0000_0000_0000 + t * 0x100_0000_0000_0000;
    assert LongOf(LongBytes(v)) == Wrap64(s);
    if t != u / 0x100_0000_0000_0000 && Wrap64(s) == v {
      Wrap64Injective(s, u);
    }
  }

  /** In particular every value below 2^54 survives ... */
  lemma LongBytesSmall(v: i64)
    requires 0 <= v < 0x40_0000_0000_0000
    ensures LongOf(LongBytes(v)) == v
  {
    assert U64(v) == v as int;
    DivUnique(v as int, 0x40_0000_0000_0000, 0, v as int);
    DivUnique(v as int, 0x100_0000_0000_0000, 0, v as int);
    LongBytesRoundTrip(v);
  }

  /** ... and 2^54 itself comes back as 2^54 + 2^56. */
  lemma LongBytesFirstLoss()
    ensures LongOf(LongBytes(0x40_0000_0000_0000)) == 0x140_0000_0000_0000
  {
    var u := U64(0x40_0000_0000_0000);
    assert u == 0x40_0000_0000_0000;
    assert LongBytes(0x40_0000_0000_0000) == [0, 0, 0, 0, 0, 0, 0x40, 1];
  }

  // ---------------------------------------------------------------------
  // Reading what was written.
  // ---------------------------------------------------------------------

  /** Reads check `pointer+d` against the capacity: EOF unless a byte is left after the field. */
  lemma TakeNeedsSpare(b: Buffer, n: nat)
    requires 0 <= b.pointer && b.pointer + n < 0x8000_0000
    ensures Take(b, n).Ok? <==> b.pointer + n < |b.buf|
    ensures b.pointer + n >= |b.buf| ==> Take(b, n) == Err(Eof)
  {
  }

  lemma ReadIntAt(b: Buffer, v: i32)
    requires 0 <= b.pointer && b.pointer + 4 < |b.buf| && b.buf[b.pointer..b.pointer + 4] == IntBytes(v)
    ensures ReadInt(b) == Ok((v, b.(pointer := b.pointer + 4)))
  {
    IntBytesRoundTrip(v);
  }

  /** `Buffer(arr)` reads from the first byte: the leading `Int` of an array of five or more bytes. */
  lemma FromArrayReadsFirst(arr: seq<u8>)
    requires |arr| >= 5
    ensures ReadInt(FromArray(arr)) == Ok((IntOf(arr[..4]), Buffer(arr, 4)))
  {
    assert arr[0..4] == arr[..4];
  }

  /** `readBoolean` reads only the first byte of the `Int` that `write(Boolean)` stored. */
  lemma ReadBooleanAt(b: Buffer, v: bool)
    requires 0 <= b.pointer && b.pointer + 4 < |b.buf| && b.buf[b.pointer..b.pointer + 4] == IntBytes(if v then 1 else 0)
    ensures ReadBoolean(b) == Ok((v, b.(pointer := b.pointer + 1)))
  {
    assert b.buf[b.pointer] == IntBytes(if v then 1 else 0)[0];
  }

  lemma ReadBytesAt(b: Buffer, arr: seq<u8>)
    requires 0 <= b.pointer && b.pointer + 4 + |arr| < |b.buf| && b.pointer + 4 + |arr| < 0x8000_0000
    requires b.buf[b.pointer..b.pointer + 4] == IntBytes(|arr| as i32)
    requires b.buf[b.pointer + 4..b.pointer + 4 + |arr|] == arr
    ensures ReadBytes(b) == Ok((arr, b.(pointer := b.pointer + 4 + |arr|)))
  {
    var p, n := b.pointer, |arr|;
    ReadIntAt(b, n as i32);
    var b1 := b.(pointer := p + 4);
    Wrap32Id(p + 4 + n);
    assert AssertCapacity(b1, n).Ok?;
    if n > 0 {
      assert b1.buf[b1.pointer..p + 4 + n] == arr;
    }
  }

  /**
   * A negative length prefix is not refused: `readBytes` returns no bytes and
   * moves the cursor back by the length.
   */
  lemma NegativeLengthRewinds(b: Buffer)
    requires 0 <= b.pointer && b.pointer + 4 < |b.buf| && b.pointer + 4 < 0x8000_0000
    requires IntOf(b.buf[b.pointer..b.pointer + 4]) < 0
    ensures var len := IntOf(b.buf[b.pointer..b.pointer + 4]) as int;
      ReadBytes(b) == Ok(([], b.(pointer := b.pointer + 4 + len)))
  {
    var len := IntOf(b.buf[b.pointer..b.pointer + 4]) as int;
    assert Take(b, 4).Ok?;
    Wrap32Id(b.pointer + 4 + len);
  }

  /** `write(Int)` then `readInt` from the same offset gives the value back and ends where the writer did. */
  lemma WriteReadInt(b: Buffer, v: i32)
    requires Growable(b, 4) && b.pointer >= 0
    ensures WriteInt(b, v).Ok?
    ensures var w := WriteInt(b, v).value;
      ReadInt(w.(pointer := b.pointer)) == Ok((v, w))
  {
    var w := WriteInt(b, v).value;
    ReadIntAt(w.(pointer := b.pointer), v);
  }

  lemma WriteReadShort(b: Buffer, v: i16)
    requires Growable(b, 2) && b.pointer >= 0
    ensures WriteShort(b, v).Ok?
    ensures var w := WriteShort(b, v).value;
      ReadShort(w.(pointer := b.pointer)) == Ok((if v >= 0 || TruncRem(v as int, 0x100) == 0 then v else v + 0x100, w))
  {
    ShortBytesRoundTrip(v);
  }

  lemma WriteReadLong(b: Buffer, v: i64)
    requires Growable(b, 8) && b.pointer >= 0
    ensures WriteLong(b, v).Ok?
    ensures var w := WriteLong(b, v).value;
      && ReadLong(w.(pointer := b.pointer)).Ok?
      && ReadLong(w.(pointer := b.pointer)).value.1 == w
      && (ReadLong(w.(pointer := b.pointer)).value.0 == v <==> U64(v) / 0x40_0000_0000_0000 % 0x100 == U64(v) / 0x100_0000_0000_0000)
  {
    LongBytesRoundTrip(v);
  }

  lemma WriteReadByte(b: Buffer, v: u8)
    requires Growable(b, 1) && b.pointer >= 0
    ensures WriteByte(b, v).Ok?
    ensures var w := WriteByte(b, v).value;
      ReadByte(w.(pointer := b.pointer)) == Ok((v, w))
  {
  }

  /** `write(b)` then `readBoolean` gives `b` back, but one byte on where the writer is four bytes on. */
  lemma WriteReadBoolean(b: Buffer, v: bool)
    requires Growable(b, 4) && b.pointer >= 0
    ensures WriteBoolean(b, v).Ok?
    ensures var w := WriteBoolean(b, v).value;
      && w.pointer == b.pointer + 4
      && ReadBoolean(w.(pointer := b.pointer)) == Ok((v, w.(pointer := b.pointer + 1)))
  {
    var w := WriteBoolean(b, v).value;
    ReadBooleanAt(w.(pointer := b.pointer), v);
  }

  lemma WriteReadBytes(b: Buffer, arr: seq<u8>)
    requires IsArray(arr) && Growable(b, 4 + |arr|) && b.pointer >= 0
    requires b.pointer + 4 + |arr| < 0x8000_0000
    ensures WriteBytes(b, arr).Ok?
    ensures var w := WriteBytes(b, arr).value;
      ReadBytes(w.(pointer := b.pointer)) == Ok((arr, w))
  {
    var p := b.pointer;
    var e := EnsureCapacity(b, 4 + |arr|);
    assert EnsureCapacity(e, 4) == e;
    var wi := Put(e, IntBytes(|arr| as i32)).value;
    assert wi.buf[p..p + 4] == IntBytes(|arr| as i32);
    var w := Put(wi, arr).value;
    assert WriteBytes(b, arr) == Ok(w);
    assert w.buf[p..p + 4] == IntBytes(|arr| as i32) by {
      if arr != [] {
        assert w.buf[..p + 4] == wi.buf[..p + 4];
        assert w.buf[p..p + 4] == wi.buf[p..p + 4];
      }
    }
    ReadBytesAt(w.(pointer := p), arr);
  }

  // ---------------------------------------------------------------------
  // Writing into a fresh buffer and collecting.
  // ---------------------------------------------------------------------

  /** A buffer written from its start: `w` is what was written and the rest of the array is zero. */
  predicate Fresh(b: Buffer, w: seq<u8>) {
    && b.pointer == |w| && |w| < |b.buf|
    && b.buf[..|w|] == w
    && forall i :: |w| <= i < |b.buf| ==> b.buf[i] == 0
  }

  lemma NewBufferFresh(n: nat)
    requires n > 0
    ensures Fresh(WithCapacity(n), [])
  {
  }

  /** `collect()` on a fresh buffer: the written bytes and one zero byte after them. */
  lemma CollectFresh(b: Buffer, w: seq<u8>)
    requires Fresh(b, w)
    ensures Collect(b) == Ok(w + [0])
  {
    assert b.buf[..|w| + 1] == b.buf[..|w|] + [b.buf[|w|]];
  }

  lemma EnsureFresh(b: Buffer, w: seq<u8>, delta: int)
    requires Fresh(b, w)
    ensures Fresh(EnsureCapacity(b, delta), w)
  {
    var r := EnsureCapacity(b, delta);
    assert r.buf[..|w|] == r.buf[..|b.buf|][..|w|];
  }

  lemma PutFresh(b: Buffer, w: seq<u8>, bytes: seq<u8>)
    requires Fresh(b, w) && |w| + |bytes| < |b.buf|
    ensures Put(b, bytes).Ok? && Fresh(Put(b, bytes).value, w + bytes)
  {
    if bytes != [] {
      var r := Put(b, bytes).value;
      assert r.buf[..|w + bytes|] == r.buf[..|w|] + r.buf[|w|..|w| + |bytes|];
      forall i | |w + bytes| <= i < |r.buf|
        ensures r.buf[i] == 0
      {
        assert r.buf[i] == r.buf[|w| + |bytes|..][i - |w| - |bytes|];
      }
    }
  }

  lemma WriteIntFresh(b: Buffer, w: seq<u8>, v: i32)
    requires Fresh(b, w)
    ensures WriteInt(b, v).Ok? && Fresh(WriteInt(b, v).value, w + IntBytes(v))
  {
    EnsureFresh(b, w, 4);
    PutFresh(EnsureCapacity(b, 4), w, IntBytes(v));
  }

  lemma WriteBytesFresh(b: Buffer, w: seq<u8>, arr: seq<u8>)
    requires Fresh(b, w) && IsArray(arr)
    ensures WriteBytes(b, arr).Ok? && Fresh(WriteBytes(b, arr).value, w + IntBytes(|arr| as i32) + arr)
  {
    var e := EnsureCapacity(b, 4 + |arr|);
    EnsureFresh(b, w, 4 + |arr|);
    WriteIntFresh(e, w, |arr| as i32);
    var wi := WriteInt(e, |arr| as i32).value;
    PutFresh(wi, w + IntBytes(|arr| as i32), arr);
  }
}

=== FILE: game.dfy ===
/**
 * ChessGame.kt: the turn-keeping wrapper around the board. `makeMove`
 * rejects moves that are off the board, start on an empty square, move the
 * other side's piece, are not in the piece's move list, or are forbidden
 * while in check; otherwise it plays the move, hands the turn over and asks
 * whether the new side to move is mated.
 */
module ChessGame {
  import opened Results
  import opened ChessGeometry
  import opened ChessBoard
  import opened ChessAttacks
  import opened ChessMoves
  import opened ChessMutation
  import opened ChessOracle

  /** The answers of `makeMove`. */
  datatype GameState = IllegalMove | Continue | BlackWin | WhiteWin | Stalemate

  /** A game: its board and the colour to move. */
  datatype Game = Game(board: Board, current: Colour)

  /** A new game: the initial position with White to move. */
  function NewGame(): (g: Game)
    ensures Valid(g.board) && g.current == White
  {
    Game(Initial(), White)
  }

  /**
   * The iteration order of a `HashSet` copy, as a function of its contents:
   * every arrangement lists each element of the set exactly once.
   */
  ghost predicate Arranges(order: set<PieceId> -> seq<PieceId>) {
    forall s :: Enumerates(order(s), s)
  }

  /** The win that a mate in check gives the side of colour `c`. */
  function WinFor(c: Colour): GameState {
    if c == White then WhiteWin else BlackWin
  }

  /**
   * `makeMove(from, to)`. The oracle is only asked when the side to move is
   * in check, and the board it leaves behind is the one the move is played
   * on (or kept, when the move is refused). `isMate` and the final `isCheck`
   * look at the board after the move, in the order `order` gives the live set.
   */
  function MakeMove(g: Game, from: Pos, to: Pos, order: set<PieceId> -> seq<PieceId>): (r: Result<(GameState, Game), Fault>)
    requires Valid(g.board) && Arranges(order)
    ensures r.Ok? ==> Valid(r.value.1.board)
    ensures r.Ok? ==> (r.value.0 == IllegalMove <==> r.value.1.current == g.current)
  {
    var b := g.board;
    if !(OnBoard(from) && OnBoard(to)) then Ok((IllegalMove, g))
    else if from !in b.cells then Ok((IllegalMove, g))
    else
      var id := b.cells[from];
      var sq := b.table[id];
      if sq.colour != g.current then Ok((IllegalMove, g))
      else if to !in AvailableMoves(b, id) then Ok((IllegalMove, g))
      else
        var (forbidden, b1) :- if IsCheck(b, g.current) then IsMoveForbidden(b, id, to.x, to.y) else Ok((false, b));
        if forbidden then Ok((IllegalMove, g.(board := b1)))
        else Conclude(b1, g.current, from, to, order)
  }

  /**
   * The second half of `makeMove`: play the move, hand the turn to the other
   * colour and classify the position: a mate in check is a win for `mover`,
   * a mate out of check a stalemate, anything else goes on.
   */
  function Conclude(b: Board, mover: Colour, from: Pos, to: Pos, order: set<PieceId> -> seq<PieceId>): (r: Result<(GameState, Game), Fault>)
    requires Valid(b) && Arranges(order)
    ensures r.Ok? ==> Valid(r.value.1.board) && r.value.1.current == Not(mover) && r.value.0 != IllegalMove
    ensures r.Ok? && r.value.0 in {WhiteWin, BlackWin} ==> r.value.0 == WinFor(mover) && IsCheck(r.value.1.board, Not(mover))
    ensures r.Ok? && r.value.0 == Stalemate ==> !IsCheck(r.value.1.board, Not(mover))
    ensures MovePiece(b, from.x, from.y, to.x, to.y).Err? ==> r == Err(MovePiece(b, from.x, from.y, to.x, to.y).error)
    ensures MovePiece(b, from.x, from.y, to.x, to.y).Ok? ==>
      var b2 := MovePiece(b, from.x, from.y, to.x, to.y).value;
      var m := IsMate(b2, Not(mover), order(b2.live));
      && (m.Err? ==> r == Err(m.error))
      && (m.Ok? ==>
            var (mate, b3) := m.value;
            && r.Ok? && r.value.1 == Game(b3, Not(mover))
            && (r.value.0 == Continue <==> !mate)
            && (r.value.0 == WinFor(mover) <==> mate && IsCheck(b3, Not(mover)))
            && (r.value.0 == Stalemate <==> mate && !IsCheck(b3, Not(mover))))
  {
    var b2 :- MovePiece(b, from.x, from.y, to.x, to.y);
    var next := Not(mover);
    var (mate, b3) :- IsMate(b2, next, order(b2.live));
    if !mate then Ok((Continue, Game(b3, next)))
    else if IsCheck(b3, next) then Ok((WinFor(mover), Game(b3, next)))
    else Ok((Stalemate, Game(b3, next)))
  }

  /** The four refusals that need no simulation: each leaves the game exactly as it was. */
  predicate PlainlyIllegal(g: Game, from: Pos, to: Pos)
    requires Valid(g.board)
  {
    var b := g.board;
    || !OnBoard(from) || !OnBoard(to)
    || from !in b.cells
    || b.table[b.cells[from]].colour != g.current
    || to !in AvailableMoves(b, b.cells[from])
  }

  /** A move that is off the board, from an empty square, of the wrong colour or not listed is refused and changes nothing. */
  lemma PlainlyIllegalRefused(g: Game, from: Pos, to: Pos, order: set<PieceId> -> seq<PieceId>)
    requires Valid(g.board) && Arranges(order)
    requires PlainlyIllegal(g, from, to)
    ensures MakeMove(g, from, to, order) == Ok((IllegalMove, g))
  {
  }

  /**
   * When the side to move is not in check, a listed move of its own piece
   * goes straight to being played: the oracle is not asked, so even a move
   * that leaves the own king attacked is accepted and the turn passes.
   */
  lemma NoCheckNoRefusal(g: Game, from: Pos, to: Pos, order: set<PieceId> -> seq<PieceId>)
    requires Valid(g.board) && Arranges(order)
    requires !PlainlyIllegal(g, from, to) && !IsCheck(g.board, g.current)
    ensures var r := MakeMove(g, from, to, order);
      r == Conclude(g.board, g.current, from, to, order)
  {
  }

  /**
   * In check, a listed move is refused exactly when the oracle forbids it;
   * the refusal keeps the board the oracle left behind.
   */
  lemma InCheckAsksOracle(g: Game, from: Pos, to: Pos, order: set<PieceId> -> seq<PieceId>)
    requires Valid(g.board) && Arranges(order)
    requires !PlainlyIllegal(g, from, to) && IsCheck(g.board, g.current)
    requires IsMoveForbidden(g.board, g.board.cells[from], to.x, to.y).Ok?
    ensures var (forbidden, b1) := IsMoveForbidden(g.board, g.board.cells[from], to.x, to.y).value;
      var r := MakeMove(g, from, to, order);
      && (forbidden ==> r == Ok((IllegalMove, g.(board := b1))))
      && (!forbidden ==> r == Conclude(b1, g.current, from, to, order))
  {
  }

  /**
   * A listed move of the side to move that the oracle does not forbid is
   * never refused: whether or not the oracle is asked, the move is played.
   */
  lemma AllowedMoveAccepted(g: Game, from: Pos, to: Pos, order: set<PieceId> -> seq<PieceId>)
    requires Valid(g.board) && Arranges(order)
    requires !PlainlyIllegal(g, from, to)
    requires IsMoveForbidden(g.board, g.board.cells[from], to.x, to.y).Ok?
    requires !IsMoveForbidden(g.board, g.board.cells[from], to.x, to.y).value.0
    ensures var r := MakeMove(g, from, to, order);
      r.Ok? ==> r.value.0 != IllegalMove && r.value.1.current == Not(g.current)
  {
    if IsCheck(g.board, g.current) {
      InCheckAsksOracle(g, from, to, order);
    } else {
      NoCheckNoRefusal(g, from, to, order);
    }
  }
}

=== FILE: geometry.dfy ===
/**
 * Squares, colours and the algebraic notation of the chess engine
 * (ChessColour in ChessPiece.kt and the companion object of ChessBoard.kt).
 */
module ChessGeometry {
  import opened Results

  /** A candidate square (file, rank); off-board values occur while generating moves. */
  datatype Pos = Pos(x: int, y: int)

  datatype Colour = Black | White

  /** The `!` operator on ChessColour. */
  function Not(c: Colour): (r: Colour)
    ensures r != c
    ensures c == Black <==> r == White
  {
    match c
    case Black => White
    case White => Black
  }

  lemma NotInvolutive(c: Colour)
    ensures Not(Not(c)) == c
    ensures Not(c) != c
  {
  }

  predicate InRange(i: int) { 0 <= i <= 7 }

  predicate OnBoard(p: Pos) { InRange(p.x) && InRange(p.y) }

  /** Kotlin's `x % 2 == 0`; a truncated remainder is zero exactly when the Euclidean one is. */
  predicate IsEven(i: int) { i % 2 == 0 }

  /**
   * `squareColour`: BLACK when file and rank are both even or both odd.
   * Kotlin's `%` truncates, but only its comparison with zero is used, so the
   * result agrees with Dafny's `%` for negative arguments too.
   */
  function SquareColour(x: int, y: int): (r: Colour)
    ensures r == Black <==> (IsEven(x) <==> IsEven(y))
  {
    if IsEven(x) then (if IsEven(y) then Black else White)
    else (if IsEven(y) then White else Black)
  }

  /** Squares one diagonal step apart always have the same colour. */
  lemma {:induction false} SquareColourDiagonal(x: int, y: int, k: int)
    ensures SquareColour(x + k, y + k) == SquareColour(x, y)
    ensures SquareColour(x + k, y - k) == SquareColour(x, y)
  {
    assert (x + k) - x == k && (y + k) - y == k;
  }

  /** A file letter 'a'..'h' and a rank number 1..8, as `fromBoardPosition` demands. */
  predicate ValidNotation(a: char, b: int) {
    'a' <= a <= 'h' && 1 <= b <= 8
  }

  /**
   * `fromBoardPosition`: the `require` guard becomes an absent result.
   * (`a.toLowerCase()` is the identity on 'a'..'h'.)
   */
  function FromBoardPosition(a: char, b: int): (r: Option<Pos>)
    ensures r.Some? <==> ValidNotation(a, b)
    ensures r.Some? ==> OnBoard(r.value)
  {
    if ValidNotation(a, b) then Some(Pos(a as int - 'a' as int, b - 1)) else None
  }

  /** `stringifyPosition`: a file letter followed by the rank digit. */
  function StringifyPosition(x: int, y: int): (r: Option<string>)
    ensures r.Some? <==> InRange(x) && InRange(y)
    ensures r.Some? ==> |r.value| == 2 && 'a' <= r.value[0] <= 'h' && '1' <= r.value[1] <= '8'
  {
    if InRange(x) && InRange(y) then
      Some([(x + 'a' as int) as char, (y + 1 + '0' as int) as char])
    else None
  }

  /** The two notations are mutual inverses on the 64 squares. */
  lemma NotationRoundTrip(x: int, y: int)
    requires InRange(x) && InRange(y)
    ensures StringifyPosition(x, y).Some?
    ensures var s := StringifyPosition(x, y).value;
            FromBoardPosition(s[0], s[1] as int - '0' as int) == Some(Pos(x, y))
  {
  }

  lemma NotationRoundTripBack(a: char, b: int)
    requires ValidNotation(a, b)
    ensures var p := FromBoardPosition(a, b).value;
            StringifyPosition(p.x, p.y) == Some([a, (b + '0' as int) as char])
  {
  }

  // ---------------------------------------------------------------------
  // Lines through the board, used by ray casting and threat tests.
  // ---------------------------------------------------------------------

  function Abs(i: int): nat { if i < 0 then -i else i }

  function Sign(i: int): int { if i < 0 then -1 else if i > 0 then 1 else 0 }

  /** The square `k` steps from `from` in the direction (dx, dy). */
  function Step(from: Pos, dx: int, dy: int, k: int): Pos {
    Pos(from.x + k * dx, from.y + k * dy)
  }

  /** One of the eight compass directions. */
  predicate IsDir(dx: int, dy: int) {
    -1 <= dx <= 1 && -1 <= dy <= 1 && (dx != 0 || dy != 0)
  }

  /** The Chebyshev (king-move) distance between two squares. */
  function Distance(a: Pos, b: Pos): nat {
    var dx := Abs(b.x - a.x);
    var dy := Abs(b.y - a.y);
    if dx < dy then dy else dx
  }

  /** How many more steps fit on the board from `p` in the direction (dx, dy). */
  function Span(p: Pos, dx: int, dy: int): nat
    requires OnBoard(p)
  {
    (if dx > 0 then 7 - p.x else if dx < 0 then p.x else 0)
    + (if dy > 0 then 7 - p.y else if dy < 0 then p.y else 0)
  }

  /** Two squares share a file or a rank. */
  predicate OnFileOrRank(a: Pos, b: Pos) { a != b && (a.x == b.x || a.y == b.y) }

  /** Two squares share a diagonal. */
  predicate OnDiagonal(a: Pos, b: Pos) { a != b && Abs(b.x - a.x) == Abs(b.y - a.y) }

  /** Stepping once more is stepping from the next square. */
  lemma StepShift(from: Pos, dx: int, dy: int, j: int)
    ensures Step(Step(from, dx, dy, 1), dx, dy, j) == Step(from, dx, dy, j + 1)
  {
  }

  /** A unit step count times a direction in -1..1. */
  lemma UnitProduct(k: int, d: int)
    requires -1 <= d <= 1
    ensures k * d == (if d > 0 then k else if d < 0 then -k else 0)
  {
  }

  /** A square strictly between two on-board squares of a line is on the board. */
  lemma StepBetweenOnBoard(from: Pos, dx: int, dy: int, j: int, k: int)
    requires IsDir(dx, dy)
    requires OnBoard(from) && OnBoard(Step(from, dx, dy, k)) && 0 <= j <= k
    ensures OnBoard(Step(from, dx, dy, j))
  {
    UnitProduct(j, dx);
    UnitProduct(k, dx);
    UnitProduct(j, dy);
    UnitProduct(k, dy);
  }

  /** A diagonal step towards `t` keeps (or reaches) the diagonal and shortens the distance. */
  lemma DiagonalApproach(cur: Pos, t: Pos, mx: int, my: int)
    requires cur.x != t.x && cur.y != t.y
    requires mx == Sign(t.x - cur.x) && my == Sign(t.y - cur.y)
    ensures var n := Step(cur, mx, my, 1);
      && Abs(t.x - n.x) < Abs(t.x - cur.x)
      && (n != t ==> (OnDiagonal(cur, t) <==> OnDiagonal(n, t)))
      && (n == t ==> OnDiagonal(cur, t) && Distance(cur, t) == 1)
      && (OnDiagonal(cur, t) && n != t ==> Distance(n, t) == Distance(cur, t) - 1)
      && (OnBoard(cur) && OnBoard(t) ==> OnBoard(n))
  {
  }
}

=== FILE: ints.dfy ===
/**
 * The fixed-width integers of the Kotlin codec, as ranges of unbounded
 * integers. A byte is kept as its unsigned bit pattern; the conversions
 * (`toByte`, `toShort`, the `Int` result of shifts that overflow) are
 * written out as explicit wrap-arounds.
 */
module KotlinInts {

  /** The bit pattern of a Kotlin `Byte`. */
  newtype u8 = x: int | 0 <= x < 0x100

  /** Kotlin `Short`, `Int` and `Long`. */
  newtype i16 = x: int | -0x8000 <= x < 0x8000
  newtype i32 = x: int | -0x8000_0000 <= x < 0x8000_0000
  newtype i64 = x: int | -0x8000_0000_0000_0000 <= x < 0x8000_0000_0000_0000

  const Two16: int := 0x1_0000
  const Two32: int := 0x1_0000_0000
  const Two64: int := 0x1_0000_0000_0000_0000

  /** `toByte()`: the low eight bits. */
  function ToByte(x: int): (r: u8)
    ensures (r as int - x) % 0x100 == 0
  {
    (x % 0x100) as u8
  }

  /** The signed 16-bit value with the low 16 bits of `x` (`toShort()`). */
  function Wrap16(x: int): (r: i16)
    ensures (r as int - x) % Two16 == 0
  {
    var m := x % Two16;
    if m < 0x8000 then m as i16 else (m - Two16) as i16
  }

  /** The signed 32-bit value with the low 32 bits of `x`: `Int` addition and shifts wrap. */
  function Wrap32(x: int): (r: i32)
    ensures (r as int - x) % Two32 == 0
  {
    var m := x % Two32;
    if m < 0x8000_0000 then m as i32 else (m - Two32) as i32
  }

  /** The signed 64-bit value with the low 64 bits of `x`. */
  function Wrap64(x: int): (r: i64)
    ensures (r as int - x) % Two64 == 0
  {
    var m := x % Two64;
    if m < 0x8000_0000_0000_0000 then m as i64 else (m - Two64) as i64
  }

  /** The unsigned bit patterns of a `Short`, an `Int` and a `Long`. */
  function U16(v: i16): (r: nat)
    ensures r < Two16 && Wrap16(r) == v
  {
    if v < 0 then v as int + Two16 else v as int
  }

  function U32(v: i32): (r: nat)
    ensures r < Two32 && Wrap32(r) == v
  {
    if v < 0 then v as int + Two32 else v as int
  }

  function U64(v: i64): (r: nat)
    ensures r < Two64 && Wrap64(r) == v
  {
    if v < 0 then v as int + Two64 else v as int
  }

  /** Distinct bit patterns name distinct values: wrapping is injective on one period. */
  lemma Wrap32Injective(a: int, b: int)
    requires 0 <= a < Two32 && 0 <= b < Two32 && Wrap32(a) == Wrap32(b)
    ensures a == b
  {
  }

  lemma Wrap64Injective(a: int, b: int)
    requires 0 <= a < Two64 && 0 <= b < Two64 && Wrap64(a) == Wrap64(b)
    ensures a == b
  {
  }

  lemma Wrap16Injective(a: int, b: int)
    requires 0 <= a < Two16 && 0 <= b < Two16 && Wrap16(a) == Wrap16(b)
    ensures a == b
  {
  }

  /**
   * Kotlin `/` and `%` on integers truncate toward zero: the quotient is the
   * multiple of `d` nearest to `a` on the side of zero.
   */
  function TruncDiv(a: int, d: int): (r: int)
    requires d > 0
    ensures a >= 0 ==> r == a / d
    ensures a < 0 ==> r == -((-a) / d)
    ensures a >= 0 ==> 0 <= r && r * d <= a < r * d + d
    ensures a < 0 ==> r <= 0 && r * d - d < a <= r * d
  {
    var n := if a >= 0 then a else -a;
    DivBounds(n, d);
    if a >= 0 then a / d
    else
      var q := n / d;
      assert (-q) * d == -(q * d);
      -q
  }

  /** Euclidean division of a natural number brackets it between two consecutive multiples. */
  lemma DivBounds(n: nat, d: int)
    requires d > 0
    ensures 0 <= n / d && (n / d) * d <= n < (n / d) * d + d
  {
    assert n == (n / d) * d + n % d;
  }

  /** The bounds of `TruncDiv` determine it: no other quotient rounds toward zero. */
  lemma TruncDivUnique(a: int, d: int, q: int)
    requires d > 0
    requires a >= 0 ==> q * d <= a < q * d + d
    requires a < 0 ==> q * d - d < a <= q * d
    ensures TruncDiv(a, d) == q
  {
    if a >= 0 {
      DivUnique(a, d, q, a - q * d);
    } else {
      assert -a == (-q) * d + (q * d - a);
      DivUnique(-a, d, -q, q * d - a);
    }
  }

  function TruncRem(a: int, d: int): (r: int)
    requires d > 0
    ensures a == TruncDiv(a, d) * d + r
    ensures a >= 0 ==> 0 <= r < d
    ensures a < 0 ==> -d < r <= 0
  {
    if a >= 0 then a % d else -((-a) % d)
  }

  lemma MulAwayFromZero(k: int, m: int)
    requires m > 0
    ensures k >= 1 ==> k * m >= m
    ensures k <= -1 ==> k * m <= -m
  {
  }

  /** Euclidean division has one quotient and remainder. */
  lemma DivUnique(n: int, m: int, q: int, r: int)
    requires m > 0 && n == q * m + r && 0 <= r < m
    ensures n / m == q
  {
    var q', r' := n / m, n % m;
    assert (q - q') * m == r' - r;
    MulAwayFromZero(q - q', m);
  }

  /** Euclidean remainder is unique too. */
  lemma ModUnique(n: int, m: int, q: int, r: int)
    requires m > 0 && n == q * m + r && 0 <= r < m
    ensures n % m == r
  {
    DivUnique(n, m, q, r);
  }

  /** A value in the `Short` range is its own wrap, also one period up. */
  lemma Wrap16Id(y: int)
    requires -0x8000 <= y < 0x8000
    ensures Wrap16(y) as int == y && Wrap16(y + Two16) as int == y
  {
    if y >= 0 {
      ModUnique(y, Two16, 0, y);
      ModUnique(y + Two16, Two16, 1, y);
    } else {
      ModUnique(y, Two16, -1, y + Two16);
      ModUnique(y + Two16, Two16, 0, y + Two16);
    }
  }

  /** A value in the `Int` range is its own wrap: the sum did not overflow. */
  lemma Wrap32Id(y: int)
    requires -0x8000_0000 <= y < 0x8000_0000
    ensures Wrap32(y) as int == y
  {
    if y >= 0 {
      ModUnique(y, Two32, 0, y);
    } else {
      ModUnique(y, Two32, -1, y + Two32);
    }
  }
}

=== FILE: message.dfy ===
/**
 * Message.kt: the messages of the wire protocol. Every message packs to a
 * little-endian `Int` opcode followed by its fields and the trailing byte
 * that `collect` adds; `decode` reads the opcode and dispatches on it, and
 * the messages with fields parse the whole array again from its start.
 */
module Messages {
  import opened Results
  import opened KotlinInts
  import opened Buffers

  /** Text fields are kept as the bytes they are encoded to. */
  datatype Message =
    | Ready
    | Exit
    | Hello
    | Ping
    | Chat(author: seq<u8>, msg: seq<u8>)
    | PieceColour(isWhite: bool)
    | GuestJoined
    | StartGame
    | BasicMove(x: i32, y: i32, x1: i32, y1: i32)
    | YourMove

  function Opcode(m: Message): i32 {
    match m
    case Ready => -3
    case Exit => -2
    case Hello => -1
    case Ping => 0
    case Chat(_, _) => 1
    case PieceColour(_) => 2
    case GuestJoined => 3
    case StartGame => 4
    case BasicMove(_, _, _, _) => 5
    case YourMove => 6
  }

  predicate HasPayload(m: Message) {
    m.Chat? || m.PieceColour? || m.BasicMove?
  }

  /**
   * The sizes a message must keep to for its positions and lengths to be
   * `Int`s: only a chat message has fields of unbounded length.
   */
  predicate Packable(m: Message) {
    m.Chat? ==> 12 + |m.author| + |m.msg| < 0x8000_0000
  }

  /** What a message is laid out as before `collect` adds its zero byte: the opcode, then the fields. */
  function Layout(m: Message): seq<u8>
    requires Packable(m)
  {
    match m
    case Chat(a, t) => IntBytes(1) + IntBytes(|a| as i32) + a + IntBytes(|t| as i32) + t
    case PieceColour(w) => IntBytes(2) + IntBytes(if w then 1 else 0)
    case BasicMove(x, y, x1, y1) => IntBytes(5) + IntBytes(x) + IntBytes(y) + IntBytes(x1) + IntBytes(y1)
    case _ => IntBytes(Opcode(m))
  }

  /**
   * `pack()` of the messages without fields: `Buffer(4)`, the opcode,
   * `collect()`. Here and in the other `pack` functions the writes cannot
   * fail (the pointer starts at 0), so their results are taken directly.
   */
  function PackOpcode(op: i32): (r: Result<seq<u8>, CodecError>)
    ensures r == Ok(IntBytes(op) + [0])
  {
    var b0 := WithCapacity(4);
    NewBufferFresh(4);
    WriteIntFresh(b0, [], op);
    assert [] + IntBytes(op) == IntBytes(op);
    var b1 := WriteInt(b0, op).value;
    CollectFresh(b1, IntBytes(op));
    Collect(b1)
  }

  /** `Chat.pack()`: opcode 1, then author and text, each as its `Int` length and its bytes. */
  function PackChat(a: seq<u8>, t: seq<u8>): (r: Result<seq<u8>, CodecError>)
    requires Packable(Chat(a, t))
    ensures r == Ok(IntBytes(1) + IntBytes(|a| as i32) + a + IntBytes(|t| as i32) + t + [0])
  {
    var op := IntBytes(1);
    var b0 := WithCapacity(1 + 4 + |a| + |t|);
    NewBufferFresh(1 + 4 + |a| + |t|);
    WriteIntFresh(b0, [], 1);
    assert [] + op == op;
    var b1 := WriteInt(b0, 1).value;
    WriteBytesFresh(b1, op, a);
    var b2 := WriteBytes(b1, a).value;
    var w2 := op + IntBytes(|a| as i32) + a;
    WriteBytesFresh(b2, w2, t);
    var b3 := WriteBytes(b2, t).value;
    CollectFresh(b3, w2 + IntBytes(|t| as i32) + t);
    Collect(b3)
  }

  /** `PieceColour.pack()`: opcode 2, then the Boolean as an `Int`. */
  function PackPieceColour(w: bool): (r: Result<seq<u8>, CodecError>)
    ensures r == Ok(IntBytes(2) + IntBytes(if w then 1 else 0) + [0])
  {
    var op := IntBytes(2);
    var b0 := WithCapacity(1 + 1);
    NewBufferFresh(1 + 1);
    WriteIntFresh(b0, [], 2);
    assert [] + op == op;
    var b1 := WriteInt(b0, 2).value;
    WriteIntFresh(b1, op, if w then 1 else 0);
    var b2 := WriteBoolean(b1, w).value;
    CollectFresh(b2, op + IntBytes(if w then 1 else 0));
    Collect(b2)
  }

  /** `BasicMove.pack()`: opcode 5, then the four coordinates as `Int`s. */
  function PackBasicMove(x: i32, y: i32, x1: i32, y1: i32): (r: Result<seq<u8>, CodecError>)
    ensures r == Ok(IntBytes(5) + IntBytes(x) + IntBytes(y) + IntBytes(x1) + IntBytes(y1) + [0])
  {
    var op := IntBytes(5);
    var b0 := WithCapacity(1 + 16);
    NewBufferFresh(1 + 16);
    WriteIntFresh(b0, [], 5);
    assert [] + op == op;
    var b1 := WriteInt(b0, 5).value;
    WriteIntFresh(b1, op, x);
    var b2 := WriteInt(b1, x).value;
    WriteIntFresh(b2, op + IntBytes(x), y);
    var b3 := WriteInt(b2, y).value;
    WriteIntFresh(b3, op + IntBytes(x) + IntBytes(y), x1);
    var b4 := WriteInt(b3, x1).value;
    WriteIntFresh(b4, op + IntBytes(x) + IntBytes(y) + IntBytes(x1), y1);
    var b5 := WriteInt(b4, y1).value;
    CollectFresh(b5, op + IntBytes(x) + IntBytes(y) + IntBytes(x1) + IntBytes(y1));
    Collect(b5)
  }

  /**
   * `pack()`: a buffer of the message's starting capacity, the opcode, the
   * fields in order, then `collect()`, which adds one zero byte.
   */
  function Pack(m: Message): (r: Result<seq<u8>, CodecError>)
    requires Packable(m)
    ensures r == Ok(Layout(m) + [0])
  {
    match m
    case Chat(a, t) => PackChat(a, t)
    case PieceColour(w) => PackPieceColour(w)
    case BasicMove(x, y, x1, y1) => PackBasicMove(x, y, x1, y1)
    case _ => PackOpcode(Opcode(m))
  }

  /** The byte-array constructor of `Chat`: the opcode is read again and must be 1. */
  function ChatFrom(arr: seq<u8>): (r: Result<Message, CodecError>)
    ensures r.Ok? ==> r.value.Chat?
  {
    var (op, b1) :- ReadInt(FromArray(arr));
    if op != 1 then Err(OpcodeMismatch)
    else
      var (a, b2) :- ReadBytes(b1);
      var (t, _) :- ReadBytes(b2);
      Ok(Chat(a, t))
  }

  /** The byte-array constructor of `PieceColour`. */
  function PieceColourFrom(arr: seq<u8>): (r: Result<Message, CodecError>)
    ensures r.Ok? ==> r.value.PieceColour?
  {
    var (op, b1) :- ReadInt(FromArray(arr));
    if op != 2 then Err(OpcodeMismatch)
    else
      var (w, _) :- ReadBoolean(b1);
      Ok(PieceColour(w))
  }

  /** The byte-array constructor of `BasicMove`. */
  function BasicMoveFrom(arr: seq<u8>): (r: Result<Message, CodecError>)
    ensures r.Ok? ==> r.value.BasicMove?
  {
    var (op, b1) :- ReadInt(FromArray(arr));
    if op != 5 then Err(OpcodeMismatch)
    else
      var (x, b2) :- ReadInt(b1);
      var (y, b3) :- ReadInt(b2);
      var (x1, b4) :- ReadInt(b3);
      var (y1, _) :- ReadInt(b4);
      Ok(BasicMove(x, y, x1, y1))
  }

  /** `decode(arr)`: dispatch on the leading `Int`; an opcode outside -3..6 is unsupported. */
  function Decode(arr: seq<u8>): (r: Result<Message, CodecError>)
    ensures r.Ok? ==> |arr| >= 5 && Opcode(r.value) == IntOf(arr[..4])
  {
    var (op, _) :- ReadInt(FromArray(arr));
    assert arr[0..4] == arr[..4];
    if op == -3 then Ok(Ready)
    else if op == -2 then Ok(Exit)
    else if op == -1 then Ok(Hello)
    else if op == 0 then Ok(Ping)
    else if op == 1 then ChatFrom(arr)
    else if op == 2 then PieceColourFrom(arr)
    else if op == 3 then Ok(GuestJoined)
    else if op == 4 then Ok(StartGame)
    else if op == 5 then BasicMoveFrom(arr)
    else if op == 6 then Ok(YourMove)
    else Err(UnknownOpcode)
  }

  // ---------------------------------------------------------------------
  // Packing.
  // ---------------------------------------------------------------------

  /** A message without fields packs to its four opcode bytes and one zero byte. */
  lemma ZeroPayloadPack(m: Message)
    requires !HasPayload(m)
    ensures Pack(m) == Ok(IntBytes(Opcode(m)) + [0])
    ensures Layout(m) == IntBytes(Opcode(m))
    ensures |Pack(m).value| == 5
  {
  }

  /** The first part of a two-part sequence. */
  lemma Prefix(pre: seq<u8>, rest: seq<u8>)
    ensures (pre + rest)[..|pre|] == pre
  {
  }

  /** The layout starts with the opcode's four little-endian bytes. */
  lemma LayoutStartsWithOpcode(m: Message)
    requires Packable(m)
    ensures |Layout(m)| >= 4 && Layout(m)[..4] == IntBytes(Opcode(m))
  {
    if m.Chat? {
      ChatStartsWithOpcode(m.author, m.msg);
    } else if m.BasicMove? {
      BasicMoveStartsWithOpcode(m.x, m.y, m.x1, m.y1);
    } else if m.PieceColour? {
      Prefix(IntBytes(2), IntBytes(if m.isWhite then 1 else 0));
    } else {
      assert Layout(m) == IntBytes(Opcode(m));
    }
  }

  lemma ChatStartsWithOpcode(a: seq<u8>, t: seq<u8>)
    requires Packable(Chat(a, t))
    ensures Layout(Chat(a, t))[..4] == IntBytes(1)
  {
    var rest := IntBytes(|a| as i32) + a + IntBytes(|t| as i32) + t;
    assert Layout(Chat(a, t)) == IntBytes(1) + rest;
    Prefix(IntBytes(1), rest);
  }

  lemma BasicMoveStartsWithOpcode(x: i32, y: i32, x1: i32, y1: i32)
    ensures Layout(BasicMove(x, y, x1, y1))[..4] == IntBytes(5)
  {
    var rest := IntBytes(x) + IntBytes(y) + IntBytes(x1) + IntBytes(y1);
    assert Layout(BasicMove(x, y, x1, y1)) == IntBytes(5) + rest;
    Prefix(IntBytes(5), rest);
  }

  lemma LayoutFraming(m: Message)
    requires Packable(m)
    ensures var arr := Layout(m) + [0];
      |arr| >= 5 && arr[..4] == IntBytes(Opcode(m)) && IntOf(arr[..4]) == Opcode(m) && arr[|arr| - 1] == 0
  {
    LayoutStartsWithOpcode(m);
    var l := Layout(m);
    assert (l + [0])[..4] == l[..4] by {
      Prefix(l[..4], l[4..] + [0]);
      assert l + [0] == l[..4] + (l[4..] + [0]);
    }
    IntBytesRoundTrip(Opcode(m));
  }

  /** Every packed message starts with its opcode and ends with the zero byte of `collect`. */
  lemma PackFraming(m: Message)
    requires Packable(m)
    ensures Pack(m).Ok?
    ensures var arr := Pack(m).value;
      |arr| >= 5 && arr[..4] == IntBytes(Opcode(m)) && IntOf(arr[..4]) == Opcode(m) && arr[|arr| - 1] == 0
  {
    LayoutFraming(m);
  }

  // ---------------------------------------------------------------------
  // Decoding what was packed.
  // ---------------------------------------------------------------------

  /** The reader positioned `k` bytes into a packed array. */
  function At(arr: seq<u8>, k: int): Buffer {
    Buffer(arr, k)
  }

  /** The middle part of a three-part sequence. */
  lemma Window(pre: seq<u8>, mid: seq<u8>, post: seq<u8>)
    ensures (pre + mid + post)[|pre|..|pre| + |mid|] == mid
  {
  }

  /** Where the fields of a chat message sit in its packed array. */
  lemma ChatWindows(op: seq<u8>, la: seq<u8>, a: seq<u8>, lt: seq<u8>, t: seq<u8>)
    requires |op| == 4 && |la| == 4 && |lt| == 4
    ensures var arr := op + la + a + lt + t + [0];
      var p := 8 + |a|;
      && arr[0..4] == op && arr[4..8] == la && arr[8..p] == a
      && arr[p..p + 4] == lt && arr[p + 4..p + 4 + |t|] == t
  {
    var arr := op + la + a + lt + t + [0];
    assert arr == [] + op + (la + a + lt + t + [0]);
    Window([], op, la + a + lt + t + [0]);
    assert arr == op + la + (a + lt + t + [0]);
    Window(op, la, a + lt + t + [0]);
    assert arr == (op + la) + a + (lt + t + [0]);
    Window(op + la, a, lt + t + [0]);
    assert arr == (op + la + a) + lt + (t + [0]);
    Window(op + la + a, lt, t + [0]);
    Window(op + la + a + lt, t, [0]);
  }

  lemma ChatFromLayout(a: seq<u8>, t: seq<u8>)
    requires Packable(Chat(a, t))
    ensures ChatFrom(IntBytes(1) + IntBytes(|a| as i32) + a + IntBytes(|t| as i32) + t + [0]) == Ok(Chat(a, t))
  {
    var arr := IntBytes(1) + IntBytes(|a| as i32) + a + IntBytes(|t| as i32) + t + [0];
    ChatWindows(IntBytes(1), IntBytes(|a| as i32), a, IntBytes(|t| as i32), t);
    ReadIntAt(At(arr, 0), 1);
    ReadBytesAt(At(arr, 4), a);
    ReadBytesAt(At(arr, 8 + |a|), t);
  }

  lemma ChatRoundTrip(a: seq<u8>, t: seq<u8>)
    requires Packable(Chat(a, t))
    ensures Decode(Layout(Chat(a, t)) + [0]) == Ok(Chat(a, t))
  {
    var arr := Layout(Chat(a, t)) + [0];
    assert arr == IntBytes(1) + IntBytes(|a| as i32) + a + IntBytes(|t| as i32) + t + [0];
    ChatFromLayout(a, t);
    assert arr[..4] == IntBytes(1);
    DecodeReads(arr, 1);
  }

  /** `decode` hands an array whose first four bytes hold opcode `op` to that opcode's reader. */
  lemma DecodeReads(arr: seq<u8>, op: i32)
    requires |arr| >= 5 && arr[..4] == IntBytes(op)
    ensures op == 1 ==> Decode(arr) == ChatFrom(arr)
    ensures op == 2 ==> Decode(arr) == PieceColourFrom(arr)
    ensures op == 5 ==> Decode(arr) == BasicMoveFrom(arr)
  {
    FromArrayReadsFirst(arr);
    IntBytesRoundTrip(op);
  }

  lemma PieceColourRoundTrip(w: bool)
    ensures Decode(Layout(PieceColour(w)) + [0]) == Ok(PieceColour(w))
  {
    var arr := Layout(PieceColour(w)) + [0];
    assert arr[0..4] == IntBytes(2);
    ReadIntAt(At(arr, 0), 2);
    assert arr[..4] == IntBytes(2);
    DecodeReads(arr, 2);
    assert arr[4..8] == IntBytes(if w then 1 else 0);
    ReadBooleanAt(At(arr, 4), w);
  }

  lemma BasicMoveFromLayout(x: i32, y: i32, x1: i32, y1: i32)
    ensures BasicMoveFrom(IntBytes(5) + IntBytes(x) + IntBytes(y) + IntBytes(x1) + IntBytes(y1) + [0]) == Ok(BasicMove(x, y, x1, y1))
  {
    var arr := IntBytes(5) + IntBytes(x) + IntBytes(y) + IntBytes(x1) + IntBytes(y1) + [0];
    assert arr[0..4] == IntBytes(5);
    ReadIntAt(At(arr, 0), 5);
    assert arr[4..8] == IntBytes(x);
    ReadIntAt(At(arr, 4), x);
    assert arr[8..12] == IntBytes(y);
    ReadIntAt(At(arr, 8), y);
    assert arr[12..16] == IntBytes(x1);
    ReadIntAt(At(arr, 12), x1);
    assert arr[16..20] == IntBytes(y1);
    ReadIntAt(At(arr, 16), y1);
  }

  lemma BasicMoveRoundTrip(x: i32, y: i32, x1: i32, y1: i32)
    ensures Decode(Layout(BasicMove(x, y, x1, y1)) + [0]) == Ok(BasicMove(x, y, x1, y1))
  {
    var arr := Layout(BasicMove(x, y, x1, y1)) + [0];
    assert arr == IntBytes(5) + IntBytes(x) + IntBytes(y) + IntBytes(x1) + IntBytes(y1) + [0];
    BasicMoveFromLayout(x, y, x1, y1);
    assert arr[..4] == IntBytes(5);
    DecodeReads(arr, 5);
  }

  lemma ZeroPayloadRoundTrip(m: Message)
    requires !HasPayload(m)
    ensures Decode(Layout(m) + [0]) == Ok(m)
  {
    var arr := IntBytes(Opcode(m)) + [0];
    assert arr[0..4] == IntBytes(Opcode(m));
    ReadIntAt(At(arr, 0), Opcode(m));
  }

  /** `decode(m.pack())` is `m` again, fields and all. */
  lemma PackDecodeRoundTrip(m: Message)
    requires Packable(m)
    ensures Pack(m).Ok? && Decode(Pack(m).value) == Ok(m)
  {
    if m.Chat? {
      ChatRoundTrip(m.author, m.msg);
    } else if m.PieceColour? {
      PieceColourRoundTrip(m.isWhite);
    } else if m.BasicMove? {
      BasicMoveRoundTrip(m.x, m.y, m.x1, m.y1);
    } else {
      ZeroPayloadRoundTrip(m);
    }
  }

  // ---------------------------------------------------------------------
  // Decoding arbitrary input.
  // ---------------------------------------------------------------------

  /** Fewer than five bytes fail with EOF: reading the opcode needs a byte after it. */
  lemma ShortInputIsEof(arr: seq<u8>)
    requires |arr| < 5
    ensures Decode(arr) == Err(Eof)
  {
  }

  /**
   * The opcode alone decides what `decode` does: the ten known opcodes give
   * their message (the fieldless ones whatever follows) and any other is
   * unsupported.
   */
  lemma DecodeDispatch(arr: seq<u8>)
    requires |arr| >= 5
    ensures var op := IntOf(arr[..4]);
      && (Decode(arr) == Err(UnknownOpcode) <==> !(-3 <= op <= 6))
      && (op in {-3, -2, -1, 0, 3, 4, 6} ==> Decode(arr).Ok? && !HasPayload(Decode(arr).value))
  {
    assert arr[0..4] == arr[..4];
  }

  /** The byte-array constructors refuse an array that starts with another opcode. */
  lemma ConstructorsCheckOpcode(arr: seq<u8>)
    requires |arr| >= 5
    ensures IntOf(arr[..4]) != 1 ==> ChatFrom(arr) == Err(OpcodeMismatch)
    ensures IntOf(arr[..4]) != 2 ==> PieceColourFrom(arr) == Err(OpcodeMismatch)
    ensures IntOf(arr[..4]) != 5 ==> BasicMoveFrom(arr) == Err(OpcodeMismatch)
  {
    assert arr[0..4] == arr[..4];
  }
}

=== FILE: moves.dfy ===
/**
 * Move generation: `availableMoves` of every piece kind and `King.canCastle`
 * (ChessPiece.kt), with `rooks` (ChessBoard.kt).
 */
module ChessMoves {
  import opened ChessGeometry
  import opened ChessBoard
  import opened ChessRays
  import opened ChessAttacks

  // ---------------------------------------------------------------------
  // King and Knight: a fixed candidate list, filtered.
  // ---------------------------------------------------------------------

  /** The `filter` of King and Knight: keep the candidates on the board not holding a piece of colour `c`, in order. */
  function FilterSteps(b: Board, c: Colour, cands: seq<Pos>): (r: seq<Pos>)
    ensures forall q :: q in r <==> q in cands && OnBoard(q) && !HasColouredPieceAt(b, q.x, q.y, c)
    ensures |r| <= |cands|
  {
    if cands == [] then []
    else
      var q := cands[0];
      (if OnBoard(q) && !HasColouredPieceAt(b, q.x, q.y, c) then [q] else []) + FilterSteps(b, c, cands[1..])
  }

  /** The eight king candidates of `King.availableMoves`, clockwise from the top left. */
  function KingSteps(s: Pos): seq<Pos> {
    [Pos(s.x - 1, s.y + 1), Pos(s.x, s.y + 1), Pos(s.x + 1, s.y + 1), Pos(s.x + 1, s.y),
     Pos(s.x + 1, s.y - 1), Pos(s.x, s.y - 1), Pos(s.x - 1, s.y - 1), Pos(s.x - 1, s.y)]
  }

  /** The eight knight candidates, in the order `Knight.availableMoves` lists them. */
  function KnightJumps(s: Pos): seq<Pos> {
    [Pos(s.x - 1, s.y - 2), Pos(s.x + 1, s.y - 2), Pos(s.x - 1, s.y + 2), Pos(s.x + 1, s.y + 2),
     Pos(s.x - 2, s.y + 1), Pos(s.x - 2, s.y - 1), Pos(s.x + 2, s.y + 1), Pos(s.x + 2, s.y - 1)]
  }

  /** The candidate list of a king is exactly the squares at distance one. */
  lemma KingStepsSpec(s: Pos, q: Pos)
    ensures q in KingSteps(s) <==> Distance(s, q) == 1
  {
    if Distance(s, q) == 1 {
      var dx, dy := q.x - s.x, q.y - s.y;
      assert -1 <= dx <= 1 && -1 <= dy <= 1 && (dx != 0 || dy != 0);
      assert q == Pos(s.x + dx, s.y + dy);
    }
  }

  /** The candidate list of a knight is exactly the L-shaped jumps. */
  lemma KnightJumpsSpec(s: Pos, q: Pos)
    ensures q in KnightJumps(s) <==> KnightJump(s, q)
  {
    if KnightJump(s, q) {
      assert q == Pos(s.x + (q.x - s.x), s.y + (q.y - s.y));
    }
  }

  /**
   * Knight moves are the on-board L-shaped jumps that do not land on a
   * friendly piece; squares attacked by the opponent are not excluded.
   */
  lemma KnightMovesSpec(b: Board, p: Piece)
    ensures forall q :: q in FilterSteps(b, p.colour, KnightJumps(p.pos)) <==>
      OnBoard(q) && KnightJump(p.pos, q) && !HasColouredPieceAt(b, q.x, q.y, p.colour)
  {
    forall q ensures q in FilterSteps(b, p.colour, KnightJumps(p.pos)) <==>
      OnBoard(q) && KnightJump(p.pos, q) && !HasColouredPieceAt(b, q.x, q.y, p.colour)
    {
      KnightJumpsSpec(p.pos, q);
    }
  }

  /** The non-castling king moves: neighbouring on-board squares not holding a friendly piece, attacked or not. */
  lemma KingStepMovesSpec(b: Board, p: Piece)
    ensures forall q :: q in FilterSteps(b, p.colour, KingSteps(p.pos)) <==>
      OnBoard(q) && Distance(p.pos, q) == 1 && !HasColouredPieceAt(b, q.x, q.y, p.colour)
  {
    forall q ensures q in FilterSteps(b, p.colour, KingSteps(p.pos)) <==>
      OnBoard(q) && Distance(p.pos, q) == 1 && !HasColouredPieceAt(b, q.x, q.y, p.colour)
    {
      KingStepsSpec(p.pos, q);
    }
  }

  // ---------------------------------------------------------------------
  // Pawn.
  // ---------------------------------------------------------------------

  /** `isAtStart`: a white pawn on rank 1 or a black pawn on rank 6. */
  predicate AtStart(p: Piece) {
    (p.colour == White && p.pos.y == 1) || (p.colour == Black && p.pos.y == 6)
  }

  /**
   * A pawn may move one square forward onto an empty on-board square, two
   * from its starting rank when both squares are empty, and diagonally
   * forward only onto an opposing piece.
   */
  predicate PawnTarget(b: Board, p: Piece, q: Pos) {
    var f := Forward(p.colour);
    var one := Pos(p.pos.x, p.pos.y + f);
    || (q == one && OnBoard(q) && !HasPieceAt(b, q.x, q.y))
    || (q == Pos(p.pos.x, p.pos.y + 2 * f) && AtStart(p) && OnBoard(one)
        && !HasPieceAt(b, one.x, one.y) && !HasPieceAt(b, q.x, q.y))
    || (q.y == p.pos.y + f && Abs(q.x - p.pos.x) == 1 && HasColouredPieceAt(b, q.x, q.y, Not(p.colour)))
  }

  /** Pawn `availableMoves`: forward, double forward, then the two captures; exactly the pawn's targets. */
  function PawnMoves(b: Board, p: Piece): (r: seq<Pos>)
    ensures OnBoard(p.pos) ==> forall q :: q in r <==> PawnTarget(b, p, q)
  {
    var f := Forward(p.colour);
    var s := p.pos;
    var one := Pos(s.x, s.y + f);
    var two := Pos(s.x, s.y + 2 * f);
    var left := Pos(s.x - 1, s.y + f);
    var right := Pos(s.x + 1, s.y + f);
    var forward :=
      if !HasPieceAt(b, one.x, one.y) && InRange(one.y) then
        [one] + (if AtStart(p) && !HasPieceAt(b, two.x, two.y) then [two] else [])
      else [];
    forward
    + (if HasColouredPieceAt(b, left.x, left.y, Not(p.colour)) then [left] else [])
    + (if HasColouredPieceAt(b, right.x, right.y, Not(p.colour)) then [right] else [])
  }

  // ---------------------------------------------------------------------
  // Castling.
  // ---------------------------------------------------------------------

  /** A live unmoved rook of colour `c`: what `rooks(c).filter { !it.hasMoved }` keeps. */
  predicate CastlingRook(b: Board, c: Colour, id: PieceId) {
    id in b.live && id in b.table && b.table[id].kind == Rook && b.table[id].colour == c && !b.table[id].hasMoved
  }

  /**
   * The castling rooks among the identities below `n`, in ascending order
   * (the order of the `HashSet` is unspecified; ascending identity is the one modelled).
   */
  function CastlingRooks(b: Board, c: Colour, n: nat): (r: seq<PieceId>)
    ensures forall id: nat :: id in r <==> id < n && CastlingRook(b, c, id)
    ensures forall i :: 0 <= i < |r| ==> r[i] < n && CastlingRook(b, c, r[i])
    ensures forall i, j :: 0 <= i < j < |r| ==> r[i] < r[j]
  {
    if n == 0 then []
    else CastlingRooks(b, c, n - 1) + (if CastlingRook(b, c, n - 1) then [n - 1] else [])
  }

  /** `canCastle(rook)` for king `k`: the castling rule `CastleAllowed`. */
  function CanCastle(b: Board, k: Piece, rook: Piece): (r: bool)
    requires Valid(b)
    ensures r <==> CastleAllowed(b, k, rook)
  {
    WestPath(b, k);
    EastPath(b, k);
    if k.hasMoved || rook.hasMoved || IsEndangered(b, k.pos, k.colour) then false
    else if rook.pos.x == 0 then WestClear(b, k)
    else if rook.pos.x == 7 then EastClear(b, k)
    else false
  }

  /** The test `canCastle` makes for a rook on file 0: three squares towards it empty and safe. */
  predicate WestClear(b: Board, k: Piece)
    requires Valid(b)
  {
    var x, y := k.pos.x, k.pos.y;
    !(|| HasPieceAt(b, x - 1, y) || HasPieceAt(b, x - 2, y) || HasPieceAt(b, x - 3, y)
      || IsEndangered(b, Pos(x - 1, y), k.colour) || IsEndangered(b, Pos(x - 2, y), k.colour)
      || IsEndangered(b, Pos(x - 3, y), k.colour))
  }

  /** The test `canCastle` makes for a rook on file 7: two squares towards it empty and safe. */
  predicate EastClear(b: Board, k: Piece)
    requires Valid(b)
  {
    var x, y := k.pos.x, k.pos.y;
    !(|| HasPieceAt(b, x + 1, y) || HasPieceAt(b, x + 2, y)
      || IsEndangered(b, Pos(x + 1, y), k.colour) || IsEndangered(b, Pos(x + 2, y), k.colour))
  }

  /** The square the king castles to: beside the rook, on the rook's rank. */
  function CastleSquare(r: Piece): Pos {
    if r.pos.x == 0 then Pos(r.pos.x + 1, r.pos.y) else Pos(r.pos.x - 1, r.pos.y)
  }

  /** The castling squares contributed by the rooks in `rooks`, in order. */
  function CastleSquares(b: Board, k: Piece, rooks: seq<PieceId>): (r: seq<Pos>)
    requires Valid(b) && forall i :: 0 <= i < |rooks| ==> rooks[i] in b.table
    ensures forall q :: q in r <==>
      exists i :: 0 <= i < |rooks| && CanCastle(b, k, b.table[rooks[i]]) && q == CastleSquare(b.table[rooks[i]])
    ensures forall q :: q in r ==> OnBoard(q)
  {
    if rooks == [] then []
    else
      var rook := b.table[rooks[0]];
      var rest := CastleSquares(b, k, rooks[1..]);
      assert forall i :: 0 < i < |rooks| ==> rooks[i] == rooks[1..][i - 1];
      assert OnBoard(rook.pos);
      if CanCastle(b, k, rook) then CastleSquareOnBoard(b, k, rook); [CastleSquare(rook)] + rest else rest
  }

  /**
   * A king may step to a neighbouring on-board square without a friendly
   * piece, or, unmoved, castle to the square beside a live unmoved rook of
   * its colour for which the castling rule holds.
   */
  ghost predicate KingTarget(b: Board, k: Piece, q: Pos)
    requires Valid(b)
  {
    || (OnBoard(q) && Distance(k.pos, q) == 1 && !HasColouredPieceAt(b, q.x, q.y, k.colour))
    || (!k.hasMoved &&
        exists id :: CastlingRook(b, k.colour, id) && CastleAllowed(b, k, b.table[id]) && q == CastleSquare(b.table[id]))
  }

  /** King `availableMoves`: the filtered steps, then a castling square per eligible rook; exactly the king's targets, all on the board. */
  function KingMoves(b: Board, k: Piece): (r: seq<Pos>)
    requires Valid(b)
    ensures forall q :: q in r <==> KingTarget(b, k, q)
    ensures forall q :: q in r ==> OnBoard(q)
  {
    KingStepMovesSpec(b, k);
    CastleSquaresSpec(b, k);
    var steps := FilterSteps(b, k.colour, KingSteps(k.pos));
    if !k.hasMoved then steps + CastleSquares(b, k, CastlingRooks(b, k.colour, b.nextId))
    else steps
  }

  /** The squares 1 .. n beside the king towards `side` are empty and not endangered. */
  predicate CastlePath(b: Board, k: Piece, side: int, n: nat)
    requires Valid(b)
  {
    && ClearBetween(b, k.pos, side, 0, n + 1)
    && forall j :: 1 <= j <= n ==> !IsEndangered(b, Step(k.pos, side, 0, j), k.colour)
  }

  /**
   * The castling rule as `canCastle` applies it: neither piece has moved, the
   * king is not endangered, and the three squares towards a rook on file 0
   * (two towards a rook on file 7) on the king's rank are empty and safe.
   */
  predicate CastleAllowed(b: Board, k: Piece, r: Piece)
    requires Valid(b)
  {
    && !k.hasMoved && !r.hasMoved && !IsEndangered(b, k.pos, k.colour)
    && ((r.pos.x == 0 && CastlePath(b, k, -1, 3)) || (r.pos.x == 7 && CastlePath(b, k, 1, 2)))
  }

  /** The three squares towards file 0, written out. */
  lemma WestPath(b: Board, k: Piece)
    requires Valid(b)
    ensures CastlePath(b, k, -1, 3) <==> WestClear(b, k)
  {
    WestEmpty(b, k);
    WestSafe(b, k);
  }

  lemma WestEmpty(b: Board, k: Piece)
    ensures var x, y := k.pos.x, k.pos.y;
      ClearBetween(b, k.pos, -1, 0, 4) <==> !HasPieceAt(b, x - 1, y) && !HasPieceAt(b, x - 2, y) && !HasPieceAt(b, x - 3, y)
  {
    var s := k.pos;
    assert Step(s, -1, 0, 1) == Pos(s.x - 1, s.y) && Step(s, -1, 0, 2) == Pos(s.x - 2, s.y)
      && Step(s, -1, 0, 3) == Pos(s.x - 3, s.y);
    if !HasPieceAt(b, s.x - 1, s.y) && !HasPieceAt(b, s.x - 2, s.y) && !HasPieceAt(b, s.x - 3, s.y) {
      forall j | 1 <= j < 4
        ensures !HasPieceAt(b, Step(s, -1, 0, j).x, Step(s, -1, 0, j).y)
      {
        assert j == 1 || j == 2 || j == 3;
      }
    }
  }

  lemma WestSafe(b: Board, k: Piece)
    requires Valid(b)
    ensures var x, y := k.pos.x, k.pos.y;
      (forall j :: 1 <= j <= 3 ==> !IsEndangered(b, Step(k.pos, -1, 0, j), k.colour)) <==>
      !IsEndangered(b, Pos(x - 1, y), k.colour) && !IsEndangered(b, Pos(x - 2, y), k.colour)
      && !IsEndangered(b, Pos(x - 3, y), k.colour)
  {
    var s := k.pos;
    assert Step(s, -1, 0, 1) == Pos(s.x - 1, s.y) && Step(s, -1, 0, 2) == Pos(s.x - 2, s.y)
      && Step(s, -1, 0, 3) == Pos(s.x - 3, s.y);
    if !IsEndangered(b, Pos(s.x - 1, s.y), k.colour) && !IsEndangered(b, Pos(s.x - 2, s.y), k.colour)
      && !IsEndangered(b, Pos(s.x - 3, s.y), k.colour) {
      forall j | 1 <= j <= 3
        ensures !IsEndangered(b, Step(s, -1, 0, j), k.colour)
      {
        assert j == 1 || j == 2 || j == 3;
      }
    }
  }

  /** The two squares towards file 7, written out. */
  lemma EastPath(b: Board, k: Piece)
    requires Valid(b)
    ensures CastlePath(b, k, 1, 2) <==> EastClear(b, k)
  {
    EastEmpty(b, k);
    EastSafe(b, k);
  }

  lemma EastEmpty(b: Board, k: Piece)
    ensures var x, y := k.pos.x, k.pos.y;
      ClearBetween(b, k.pos, 1, 0, 3) <==> !HasPieceAt(b, x + 1, y) && !HasPieceAt(b, x + 2, y)
  {
    var s := k.pos;
    assert Step(s, 1, 0, 1) == Pos(s.x + 1, s.y) && Step(s, 1, 0, 2) == Pos(s.x + 2, s.y);
    if !HasPieceAt(b, s.x + 1, s.y) && !HasPieceAt(b, s.x + 2, s.y) {
      forall j | 1 <= j < 3
        ensures !HasPieceAt(b, Step(s, 1, 0, j).x, Step(s, 1, 0, j).y)
      {
        assert j == 1 || j == 2;
      }
    }
  }

  lemma EastSafe(b: Board, k: Piece)
    requires Valid(b)
    ensures var x, y := k.pos.x, k.pos.y;
      (forall j :: 1 <= j <= 2 ==> !IsEndangered(b, Step(k.pos, 1, 0, j), k.colour)) <==>
      !IsEndangered(b, Pos(x + 1, y), k.colour) && !IsEndangered(b, Pos(x + 2, y), k.colour)
  {
    var s := k.pos;
    assert Step(s, 1, 0, 1) == Pos(s.x + 1, s.y) && Step(s, 1, 0, 2) == Pos(s.x + 2, s.y);
    if !IsEndangered(b, Pos(s.x + 1, s.y), k.colour) && !IsEndangered(b, Pos(s.x + 2, s.y), k.colour) {
      forall j | 1 <= j <= 2
        ensures !IsEndangered(b, Step(s, 1, 0, j), k.colour)
      {
        assert j == 1 || j == 2;
      }
    }
  }

  /** The castling squares of an unmoved king are those of the castling rooks that pass the rule. */
  lemma CastleSquaresSpec(b: Board, k: Piece)
    requires Valid(b)
    ensures forall q :: q in CastleSquares(b, k, CastlingRooks(b, k.colour, b.nextId)) <==>
      exists id :: CastlingRook(b, k.colour, id) && CastleAllowed(b, k, b.table[id]) && q == CastleSquare(b.table[id])
  {
    var rooks := CastlingRooks(b, k.colour, b.nextId);
    forall q ensures q in CastleSquares(b, k, rooks) <==>
      exists id :: CastlingRook(b, k.colour, id) && CastleAllowed(b, k, b.table[id]) && q == CastleSquare(b.table[id])
    {
      if q in CastleSquares(b, k, rooks) {
        var i :| 0 <= i < |rooks| && CanCastle(b, k, b.table[rooks[i]]) && q == CastleSquare(b.table[rooks[i]]);
        assert CastlingRook(b, k.colour, rooks[i]);
      }
      if id :| CastlingRook(b, k.colour, id) && CastleAllowed(b, k, b.table[id]) && q == CastleSquare(b.table[id]) {
        assert id in rooks;
        var i :| 0 <= i < |rooks| && rooks[i] == id;
        assert CanCastle(b, k, b.table[rooks[i]]);
      }
    }
  }

  // ---------------------------------------------------------------------
  // All kinds.
  // ---------------------------------------------------------------------

  /** Queen rays: the four rook directions, then the four bishop directions. */
  const QueenDirs: seq<(int, int)> := RookDirs + BishopDirs

  /** The direction lists of the sliding pieces hold compass directions only. */
  lemma DirsValid()
    ensures AllDirs(RookDirs) && AllDirs(BishopDirs) && AllDirs(QueenDirs)
  {
    assert QueenDirs == [(-1, 0), (1, 0), (0, -1), (0, 1), (-1, 1), (1, 1), (-1, -1), (1, -1)];
  }

  /** The squares the piece `p` may move to, kind by kind, stated without the Kotlin loops. */
  ghost predicate Target(b: Board, p: Piece, q: Pos)
    requires Valid(b)
  {
    match p.kind
    case King => KingTarget(b, p, q)
    case Queen => SlideReaches(b, p.colour, p.pos, QueenDirs, q)
    case Rook => SlideReaches(b, p.colour, p.pos, RookDirs, q)
    case Bishop => SlideReaches(b, p.colour, p.pos, BishopDirs, q)
    case Knight => OnBoard(q) && KnightJump(p.pos, q) && !HasColouredPieceAt(b, q.x, q.y, p.colour)
    case Pawn => PawnTarget(b, p, q)
  }

  /** `r` lists exactly the targets of `p`, all of them on the board. */
  ghost predicate Lists(b: Board, p: Piece, r: seq<Pos>)
    requires Valid(b)
  {
    && (forall q :: q in r <==> Target(b, p, q))
    && (forall q :: q in r ==> OnBoard(q))
  }

  /**
   * `availableMoves()` of the piece object `id`, computed from its recorded
   * position: exactly the squares of `Target`, every one on the board, so
   * indexing the grid with them is safe.
   */
  function AvailableMoves(b: Board, id: PieceId): (r: seq<Pos>)
    requires Valid(b) && id in b.table
    ensures forall q :: q in r <==> Target(b, b.table[id], q)
    ensures forall q :: q in r ==> OnBoard(q)
  {
    var p := b.table[id];
    DirsValid();
    match p.kind
    case King => KingLists(b, p); KingMoves(b, p)
    case Queen => SlideLists(b, p, QueenDirs); Slide(b, p.colour, p.pos, QueenDirs)
    case Rook => SlideLists(b, p, RookDirs); Slide(b, p.colour, p.pos, RookDirs)
    case Bishop => SlideLists(b, p, BishopDirs); Slide(b, p.colour, p.pos, BishopDirs)
    case Knight => KnightLists(b, p); FilterSteps(b, p.colour, KnightJumps(p.pos))
    case Pawn => PawnLists(b, p); PawnMoves(b, p)
  }

  lemma KingLists(b: Board, p: Piece)
    requires Valid(b) && p.kind == King
    ensures Lists(b, p, KingMoves(b, p))
  {
  }

  lemma SlideLists(b: Board, p: Piece, dirs: seq<(int, int)>)
    requires Valid(b) && OnBoard(p.pos) && AllDirs(dirs)
    requires p.kind in {Queen, Rook, Bishop}
    requires dirs == (if p.kind == Queen then QueenDirs else if p.kind == Rook then RookDirs else BishopDirs)
    ensures Lists(b, p, Slide(b, p.colour, p.pos, dirs))
  {
    var r := Slide(b, p.colour, p.pos, dirs);
    forall q | q in r
      ensures OnBoard(q)
    {
      var i, k :| 0 <= i < |dirs| && q == Step(p.pos, dirs[i].0, dirs[i].1, k)
        && Reaches(b, p.colour, p.pos, dirs[i].0, dirs[i].1, k);
    }
  }

  lemma KnightLists(b: Board, p: Piece)
    requires Valid(b) && p.kind == Knight
    ensures Lists(b, p, FilterSteps(b, p.colour, KnightJumps(p.pos)))
  {
    KnightMovesSpec(b, p);
    forall q ensures Target(b, p, q) <==> OnBoard(q) && KnightJump(p.pos, q) && !HasColouredPieceAt(b, q.x, q.y, p.colour) {
    }
  }

  lemma PawnLists(b: Board, p: Piece)
    requires Valid(b) && OnBoard(p.pos) && p.kind == Pawn
    ensures Lists(b, p, PawnMoves(b, p))
  {
  }

  /** A castling square lies beside a rook on file 0 or 7, so on the board. */
  lemma CastleSquareOnBoard(b: Board, k: Piece, r: Piece)
    requires Valid(b) && CanCastle(b, k, r) && OnBoard(r.pos)
    ensures OnBoard(CastleSquare(r))
  {
  }
}

=== FILE: mutation.dfy ===
/**
 * The board-mutating operations of ChessBoard.kt: `movePiece`, the
 * simulate/revert pair behind `isMoveForbidden`, and `isMate`. Each mutation
 * is a function from a board to a new board; a Kotlin exception becomes an
 * `Err` carrying the kind of fault.
 */
module ChessMutation {
  import opened Results
  import opened ChessGeometry
  import opened ChessBoard

  /**
   * `LogicError` is a `throw Error(..)` in `ChessBoard` (caught by
   * `isMoveForbidden`); `NullPiece` a failing `!!` and `IndexOutOfRange` an
   * array index outside 0..7, both of which no `catch (e: Error)` catches.
   */
  datatype Fault = LogicError | NullPiece | IndexOutOfRange

  /** Reading `this[x][y]`: an index outside 0..7 is out of range. */
  function Get(b: Board, x: int, y: int): (r: Result<Option<PieceId>, Fault>)
    ensures r.Err? <==> !(InRange(x) && InRange(y))
    ensures r.Ok? ==> (r.value.Some? <==> Pos(x, y) in b.cells)
    ensures r.Ok? && r.value.Some? ==> r.value.value == b.cells[Pos(x, y)]
    ensures r.Ok? ==> r.value == PieceAt(b, x, y)
  {
    if !(InRange(x) && InRange(y)) then Err(IndexOutOfRange)
    else if Pos(x, y) in b.cells then Ok(Some(b.cells[Pos(x, y)]))
    else Ok(None)
  }

  /** Writing `this[p] = v` into the grid; null empties the square. */
  function Assign(cells: map<Pos, PieceId>, p: Pos, v: Option<PieceId>): (r: map<Pos, PieceId>)
    ensures v.Some? ==> p in r && r[p] == v.value
    ensures v.None? ==> p !in r
    ensures forall q :: q != p ==> (q in r <==> q in cells) && (q in cells ==> r[q] == cells[q])
  {
    if v.Some? then cells[p := v.value] else cells - {p}
  }

  /** The kind of the piece on a grid square, if any. */
  function KindAt(b: Board, v: Option<PieceId>): Option<Kind> {
    if v.Some? && v.value in b.table then Some(b.table[v.value].kind) else None
  }

  /** The colour of the piece on a grid square, if any. */
  function ColourOf(b: Board, v: Option<PieceId>): Option<Colour> {
    if v.Some? && v.value in b.table then Some(b.table[v.value].colour) else None
  }

  /** The castling rook's file offset from the king's destination: `if (nx == 6) 1 else -1`. */
  function CastleMul(nx: int): int {
    if nx == 6 then 1 else -1
  }

  /**
   * The castling branch shared by `movePiece` and `simulateMove`: the king
   * `id` goes to (nx, ny), whatever stands beside it at `nx+mul` (`!!`) goes
   * to `nx-mul`, and both are marked as moved. Nothing is removed from the
   * live set, not even a piece the king or the rook lands on.
   */
  function Castle(b: Board, id: PieceId, x: int, y: int, nx: int, ny: int): (r: Result<Board, Fault>)
    requires Valid(b) && id in b.table && OnBoard(Pos(nx, ny)) && OnBoard(Pos(x, y))
  {
    var king := b.table[id];
    var t1 := b.table[id := king.(pos := Pos(nx, ny))];
    var c1 := b.cells[Pos(nx, ny) := id] - {Pos(x, y)};
    var mul := CastleMul(nx);
    var b1 := b.(cells := c1, table := t1);
    var found :- Get(b1, nx + mul, ny);
    if found.None? then Err(NullPiece)
    else
      var rid := found.value;
      if !InRange(nx - mul) then Err(IndexOutOfRange)
      else
        var c2 := c1[Pos(nx - mul, ny) := rid] - {Pos(nx + mul, ny)};
        var t2 := t1[rid := t1[rid].(pos := Pos(nx - mul, ny))];
        var t3 := t2[id := t2[id].(hasMoved := true)];
        var t4 := t3[rid := t3[rid].(hasMoved := true)];
        Ok(b.(cells := c2, table := t4))
  }

  /** The guards `movePiece` and `simulateMove` share: a piece on the source, no king and no friend on the destination. */
  function MoveGuard(b: Board, x: int, y: int, nx: int, ny: int): (r: Result<(PieceId, Option<PieceId>), Fault>)
    requires Valid(b)
    ensures r.Ok? ==> GuardPassed(b, x, y, nx, ny, r.value.0, r.value.1)
    ensures !OnBoard(Pos(x, y)) ==> r == Err(IndexOutOfRange)
    ensures OnBoard(Pos(x, y)) && OnBoard(Pos(nx, ny)) ==>
      (r == Err(LogicError) <==> GuardFails(b, x, y, nx, ny)) && (r.Ok? <==> !GuardFails(b, x, y, nx, ny))
  {
    var src :- Get(b, x, y);
    if src.None? then Err(LogicError)
    else
      var dst :- Get(b, nx, ny);
      if KindAt(b, dst) == Some(King) then Err(LogicError)
      else if ColourOf(b, dst) == Some(b.table[src.value].colour) then Err(LogicError)
      else Ok((src.value, dst))
  }

  /**
   * `movePiece(x, y, nx, ny)`: a pawn reaching rank 0 or 7 is replaced by a
   * new Queen, a king moving more than one file castles, any other piece
   * moves and captures.
   */
  function MovePiece(b: Board, x: int, y: int, nx: int, ny: int): (r: Result<Board, Fault>)
    requires Valid(b)
    ensures r.Ok? ==> Valid(r.value) && Extends(b, r.value)
    ensures OnBoard(Pos(x, y)) && OnBoard(Pos(nx, ny)) ==> (r == Err(LogicError) <==> GuardFails(b, x, y, nx, ny))
    ensures !OnBoard(Pos(x, y)) ==> r == Err(IndexOutOfRange)
  {
    var (id, dst) :- MoveGuard(b, x, y, nx, ny);
    var piece := b.table[id];
    if piece.kind == Pawn && (ny == 7 || ny == 0) then
      var q := b.nextId;
      var b1 := Board(
        b.cells - {Pos(x, y)} + map[Pos(nx, ny) := q],
        b.table[q := Spawn(Queen, piece.colour, Pos(nx, ny), false)],
        b.live - {id} + {q},
        b.whiteKing, b.blackKing, q + 1);
      PromoteValid(b, x, y, nx, ny, id, dst);
      Ok(b1)
    else if piece.kind == King && Abs(piece.pos.x - nx) > 1 then
      var c := Castle(b, id, x, y, nx, ny);
      if c.Err? then c else (CastleValid(b, id, x, y, nx, ny); c)
    else
      var b1 := b.(
        cells := b.cells[Pos(nx, ny) := id] - {Pos(x, y)},
        table := b.table[id := piece.(pos := Pos(nx, ny), hasMoved := true)],
        live := if dst.Some? then b.live - {dst.value} else b.live);
      AdvanceValid(b, x, y, nx, ny, id, dst);
      Ok(b1)
  }

  /** The promotion branch of `movePiece` keeps a board valid. */
  lemma PromoteValid(b: Board, x: int, y: int, nx: int, ny: int, id: PieceId, killed: Option<PieceId>)
    requires Valid(b) && GuardPassed(b, x, y, nx, ny, id, killed)
    ensures var r := Board(
        b.cells - {Pos(x, y)} + map[Pos(nx, ny) := b.nextId],
        b.table[b.nextId := Spawn(Queen, b.table[id].colour, Pos(nx, ny), false)],
        b.live - {id} + {b.nextId},
        b.whiteKing, b.blackKing, b.nextId + 1);
      Valid(r) && Extends(b, r)
  {
  }

  /** The ordinary branch of `movePiece` keeps a board valid. */
  lemma AdvanceValid(b: Board, x: int, y: int, nx: int, ny: int, id: PieceId, killed: Option<PieceId>)
    requires Valid(b) && GuardPassed(b, x, y, nx, ny, id, killed)
    ensures var r := b.(
        cells := b.cells[Pos(nx, ny) := id] - {Pos(x, y)},
        table := b.table[id := b.table[id].(pos := Pos(nx, ny), hasMoved := true)],
        live := if killed.Some? then b.live - {killed.value} else b.live);
      Valid(r) && Extends(b, r)
  {
  }

  /**
   * What a passed guard tells: both squares are on the board, `id` stands on
   * the source, and `killed` is what stands on the destination, neither a
   * king nor a piece of the mover's colour.
   */
  predicate GuardPassed(b: Board, x: int, y: int, nx: int, ny: int, id: PieceId, killed: Option<PieceId>)
    requires Valid(b)
  {
    && OnBoard(Pos(x, y)) && OnBoard(Pos(nx, ny)) && Pos(x, y) in b.cells
    && id == b.cells[Pos(x, y)]
    && (killed.Some? <==> Pos(nx, ny) in b.cells)
    && (killed.Some? ==>
          && killed.value == b.cells[Pos(nx, ny)]
          && b.table[killed.value].kind != King
          && b.table[killed.value].colour != b.table[id].colour)
  }

  /** Predicates naming the three branches of `movePiece` for a guarded move of piece `id`. */
  predicate IsPromotion(b: Board, id: PieceId, ny: int)
    requires id in b.table
  {
    b.table[id].kind == Pawn && (ny == 7 || ny == 0)
  }

  predicate IsCastling(b: Board, id: PieceId, nx: int)
    requires id in b.table
  {
    b.table[id].kind == King && Abs(b.table[id].pos.x - nx) > 1
  }

  lemma CastleValid(b: Board, id: PieceId, x: int, y: int, nx: int, ny: int)
    requires Valid(b) && id in b.table && OnBoard(Pos(nx, ny)) && OnBoard(Pos(x, y))
    requires Pos(x, y) in b.cells && b.cells[Pos(x, y)] == id
    requires Castle(b, id, x, y, nx, ny).Ok? && x != nx
    ensures Valid(Castle(b, id, x, y, nx, ny).value) && Extends(b, Castle(b, id, x, y, nx, ny).value)
    ensures forall k :: k in b.table && b.table[k].pos != Pos(x, y) && b.table[k].pos != Pos(nx + CastleMul(nx), ny) ==>
      Castle(b, id, x, y, nx, ny).value.table[k] == b.table[k]
  {
    var mul := CastleMul(nx);
    var b1 := b.(cells := b.cells[Pos(nx, ny) := id] - {Pos(x, y)}, table := b.table[id := b.table[id].(pos := Pos(nx, ny))]);
    RelocateValid(b, Pos(x, y), Pos(nx, ny));
    assert Pos(nx + mul, ny) in b1.cells;
    RookShiftValid(b1, id, Pos(nx + mul, ny), Pos(nx - mul, ny), true);
    ExtendsTrans(b, b1, Castle(b, id, x, y, nx, ny).value);
  }

  /** On the board, the guard fails exactly when the source is empty or the destination holds a king or a friend. */
  predicate GuardFails(b: Board, x: int, y: int, nx: int, ny: int)
    requires Valid(b)
  {
    || Pos(x, y) !in b.cells
    || (Pos(nx, ny) in b.cells
        && (|| b.table[b.cells[Pos(nx, ny)]].kind == King
            || b.table[b.cells[Pos(nx, ny)]].colour == b.table[b.cells[Pos(x, y)]].colour))
  }

  /**
   * An ordinary move puts the mover on the destination, empties the source,
   * drops the captured piece from the live set and records the new position
   * and `hasMoved`; no other square and no other piece record changes.
   */
  lemma MovePieceOrdinary(b: Board, x: int, y: int, nx: int, ny: int)
    requires Valid(b) && MoveGuard(b, x, y, nx, ny).Ok?
    requires var id := b.cells[Pos(x, y)]; !IsPromotion(b, id, ny) && !IsCastling(b, id, nx)
    ensures var id := b.cells[Pos(x, y)];
      var r := MovePiece(b, x, y, nx, ny);
      && r.Ok?
      && r.value.cells[Pos(nx, ny)] == id && Pos(x, y) !in r.value.cells
      && (forall p :: p != Pos(x, y) && p != Pos(nx, ny) ==>
            (p in r.value.cells <==> p in b.cells) && (p in b.cells ==> r.value.cells[p] == b.cells[p]))
      && r.value.table[id] == b.table[id].(pos := Pos(nx, ny), hasMoved := true)
      && (forall k :: k in b.table && k != id ==> k in r.value.table && r.value.table[k] == b.table[k])
      && r.value.live == (if Pos(nx, ny) in b.cells then b.live - {b.cells[Pos(nx, ny)]} else b.live)
  {
  }

  /**
   * A pawn reaching rank 0 or 7 leaves the live set and a new unmoved Queen
   * of its colour takes the destination; a piece it captures stays live.
   */
  lemma MovePiecePromotion(b: Board, x: int, y: int, nx: int, ny: int)
    requires Valid(b) && MoveGuard(b, x, y, nx, ny).Ok?
    requires IsPromotion(b, b.cells[Pos(x, y)], ny)
    ensures var id := b.cells[Pos(x, y)];
      var r := MovePiece(b, x, y, nx, ny);
      && r.Ok?
      && Pos(x, y) !in r.value.cells && Pos(nx, ny) in r.value.cells
      && var q := r.value.cells[Pos(nx, ny)];
      && q !in b.table
      && r.value.table[q] == Spawn(Queen, b.table[id].colour, Pos(nx, ny), false)
      && id !in r.value.live && q in r.value.live
      && (Pos(nx, ny) in b.cells ==> (b.cells[Pos(nx, ny)] in r.value.live <==> b.cells[Pos(nx, ny)] in b.live))
  {
  }

  /**
   * A king moving more than one file castles: the king lands on `nx`, the
   * piece on `nx+mul` moves to `nx-mul` (file 7 to 5 when `nx == 6`), both
   * are marked as moved and the live set is untouched; with no piece on
   * `nx+mul` the `!!` fails.
   */
  lemma MovePieceCastle(b: Board, x: int, y: int, nx: int, ny: int)
    requires Valid(b) && MoveGuard(b, x, y, nx, ny).Ok?
    requires IsCastling(b, b.cells[Pos(x, y)], nx) && !IsPromotion(b, b.cells[Pos(x, y)], ny)
    requires InRange(nx + CastleMul(nx)) && InRange(nx - CastleMul(nx))
    ensures CastledAs(b, b.cells[Pos(x, y)], x, y, nx, ny, MovePiece(b, x, y, nx, ny))
  {
    var id := b.cells[Pos(x, y)];
    assert MovePiece(b, x, y, nx, ny) == Castle(b, id, x, y, nx, ny);
    CastleShape(b, id, x, y, nx, ny);
  }

  /**
   * The outcome of castling king `id` from (x, y) to (nx, ny): the `!!` fails
   * exactly when no other piece stands on `nx+mul`; otherwise the king and
   * that piece land on `nx` and `nx-mul`, both marked as moved, both source
   * squares are empty and the live set is untouched.
   */
  predicate CastledAs(b: Board, id: PieceId, x: int, y: int, nx: int, ny: int, r: Result<Board, Fault>)
    requires Valid(b) && id in b.table
  {
    var mul := CastleMul(nx);
    var from := Pos(nx + mul, ny);
    && (from !in b.cells || from == Pos(x, y) <==> r == Err(NullPiece))
    && (from in b.cells && from != Pos(x, y) ==>
          var rid := b.cells[from];
          && r.Ok?
          && Pos(nx, ny) in r.value.cells && r.value.cells[Pos(nx, ny)] == id
          && Pos(nx - mul, ny) in r.value.cells && r.value.cells[Pos(nx - mul, ny)] == rid
          && from !in r.value.cells && Pos(x, y) !in r.value.cells
          && id in r.value.table && r.value.table[id] == b.table[id].(pos := Pos(nx, ny), hasMoved := true)
          && rid in r.value.table && r.value.table[rid] == b.table[rid].(pos := Pos(nx - mul, ny), hasMoved := true)
          && r.value.live == b.live)
  }

  /** The shape of a castling board, stated on `Castle` itself. */
  lemma CastleShape(b: Board, id: PieceId, x: int, y: int, nx: int, ny: int)
    requires Valid(b) && OnBoard(Pos(x, y)) && OnBoard(Pos(nx, ny)) && Abs(x - nx) > 1
    requires Pos(x, y) in b.cells && b.cells[Pos(x, y)] == id
    requires InRange(nx + CastleMul(nx)) && InRange(nx - CastleMul(nx))
    ensures CastledAs(b, id, x, y, nx, ny, Castle(b, id, x, y, nx, ny))
  {
    var mul := CastleMul(nx);
    var from := Pos(nx + mul, ny);
    var c1 := b.cells[Pos(nx, ny) := id] - {Pos(x, y)};
    assert from in c1 <==> from in b.cells && from != Pos(x, y);
    if from in c1 {
      var rid := b.cells[from];
      assert c1[from] == rid;
      assert rid != id;
    }
  }

  // ---------------------------------------------------------------------
  // Simulation and revert (`simulateMove`, `revertMove`).
  // ---------------------------------------------------------------------

  /** The record `simulateMove` returns so that `revertMove` can undo the move. */
  datatype SimMove = SimMove(
    x: int, y: int, nx: int, ny: int,
    killed: Option<PieceId>,
    hasNotMoved: bool,
    hasPromoted: bool,
    castle: bool)

  /**
   * `simulateMove(x, y, nx, ny)`: the captured piece leaves the live set first;
   * then a promotion puts a new Queen on the destination, a castling moves
   * king and rook as `movePiece` does, and any other move relocates the
   * piece and sets its `hasMoved` to false.
   */
  function SimulateMove(b: Board, x: int, y: int, nx: int, ny: int): (r: Result<(Board, SimMove), Fault>)
    requires Valid(b)
    ensures r.Ok? ==> SimulatedValid(b, r.value.0, r.value.1)
  {
    var (id, killed) :- MoveGuard(b, x, y, nx, ny);
    var piece := b.table[id];
    var live1 := if killed.Some? then b.live - {killed.value} else b.live;
    if IsPromotion(b, id, ny) then
      var q := b.nextId;
      var b1 := Board(
        b.cells[Pos(nx, ny) := q] - {Pos(x, y)},
        b.table[q := Spawn(Queen, piece.colour, Pos(nx, ny), false)],
        live1 - {id} + {q},
        b.whiteKing, b.blackKing, q + 1);
      PromotedValid(b, b1, x, y, nx, ny, id, killed);
      Ok((b1, SimMove(x, y, nx, ny, killed, false, true, false)))
    else if IsCastling(b, id, nx) then
      var b1 :- Castle(b.(live := live1), id, x, y, nx, ny);
      CastledValid(b, b1, x, y, nx, ny, id, killed);
      Ok((b1, SimMove(x, y, nx, ny, killed, true, false, true)))
    else
      var b1 := b.(cells := b.cells[Pos(nx, ny) := id] - {Pos(x, y)},
                   table := b.table[id := piece.(pos := Pos(nx, ny), hasMoved := false)],
                   live := live1);
      RelocatedValid(b, b1, x, y, nx, ny, id, killed);
      Ok((b1, SimMove(x, y, nx, ny, killed, true, false, false)))
  }

  lemma PromotedValid(b: Board, b1: Board, x: int, y: int, nx: int, ny: int, id: PieceId, killed: Option<PieceId>)
    requires Valid(b) && GuardPassed(b, x, y, nx, ny, id, killed)
    requires b1 == Board(
        b.cells[Pos(nx, ny) := b.nextId] - {Pos(x, y)},
        b.table[b.nextId := Spawn(Queen, b.table[id].colour, Pos(nx, ny), false)],
        (if killed.Some? then b.live - {killed.value} else b.live) - {id} + {b.nextId},
        b.whiteKing, b.blackKing, b.nextId + 1)
    ensures SimulatedValid(b, b1, SimMove(x, y, nx, ny, killed, false, true, false))
  {
  }

  lemma CastledValid(b: Board, b1: Board, x: int, y: int, nx: int, ny: int, id: PieceId, killed: Option<PieceId>)
    requires Valid(b) && GuardPassed(b, x, y, nx, ny, id, killed) && IsCastling(b, id, nx)
    requires var b0 := b.(live := if killed.Some? then b.live - {killed.value} else b.live);
      Castle(b0, id, x, y, nx, ny) == Ok(b1)
    ensures SimulatedValid(b, b1, SimMove(x, y, nx, ny, killed, true, false, true))
  {
    var b0 := b.(live := if killed.Some? then b.live - {killed.value} else b.live);
    CastleValid(b0, id, x, y, nx, ny);
  }

  lemma RelocatedValid(b: Board, b1: Board, x: int, y: int, nx: int, ny: int, id: PieceId, killed: Option<PieceId>)
    requires Valid(b) && GuardPassed(b, x, y, nx, ny, id, killed)
    requires b1 == b.(cells := b.cells[Pos(nx, ny) := id] - {Pos(x, y)},
                      table := b.table[id := b.table[id].(pos := Pos(nx, ny), hasMoved := false)],
                      live := if killed.Some? then b.live - {killed.value} else b.live)
    ensures SimulatedValid(b, b1, SimMove(x, y, nx, ny, killed, true, false, false))
  {
  }

  /**
   * A simulated board is valid, keeps every piece object with its kind and
   * colour, and still records the captured piece on the destination, so
   * that the record can be reverted.
   */
  predicate SimulatedValid(b: Board, b1: Board, sim: SimMove) {
    && Revertible(b1, sim) && Extends(b, b1)
    && OnBoard(Pos(sim.x, sim.y)) && OnBoard(Pos(sim.nx, sim.ny))
  }

  /** A valid board on which the captured piece of `sim` is off the grid but still records the destination square. */
  predicate Revertible(b: Board, sim: SimMove) {
    && Valid(b) && Pos(sim.x, sim.y) != Pos(sim.nx, sim.ny)
    && (sim.killed.Some? ==>
          && sim.killed.value in b.table && b.table[sim.killed.value].pos == Pos(sim.nx, sim.ny)
          && (Pos(sim.nx, sim.ny) in b.cells ==> b.cells[Pos(sim.nx, sim.ny)] != sim.killed.value))
  }

  /** `b1` keeps every piece object of `b`, each with its kind and colour. */
  predicate Extends(b: Board, b1: Board) {
    && b.table.Keys <= b1.table.Keys
    && (forall id :: id in b.table ==> b1.table[id].kind == b.table[id].kind && b1.table[id].colour == b.table[id].colour)
  }

  /** `Extends` is transitive. */
  lemma ExtendsTrans(b0: Board, b1: Board, b2: Board)
    requires Extends(b0, b1) && Extends(b1, b2)
    ensures Extends(b0, b2)
  {
  }

  /** A revert on a revertible board yields a valid board that keeps every piece object. */
  lemma RevertValid(b: Board, sim: SimMove)
    requires Revertible(b, sim) && RevertMove(b, sim).Ok?
    ensures Valid(RevertMove(b, sim).value) && Extends(b, RevertMove(b, sim).value)
  {
    if sim.castle {
      RevertCastleValid(b, sim);
    } else if sim.hasPromoted {
      RevertPromotedValid(b, sim);
    } else {
      RevertPlainValid(b, sim);
    }
  }

  lemma RevertCastleValid(b: Board, sim: SimMove)
    requires Revertible(b, sim) && RevertMove(b, sim).Ok? && sim.castle
    ensures Valid(RevertMove(b, sim).value) && Extends(b, RevertMove(b, sim).value)
  {
    var mul := CastleMul(sim.nx);
    RevertCastleShape(b, sim);
    CastleBackValid(b, Pos(sim.x, sim.y), Pos(sim.nx, sim.ny), sim.killed, Pos(sim.nx - mul, sim.ny), Pos(sim.nx + mul, sim.ny));
  }

  /**
   * Undoing a castle square by square: the king from `d` back to `p0` with
   * the captured piece restored on `d`, the rook from `l` back to `f`, and
   * both flags cleared, keeps a board valid.
   */
  lemma CastleBackValid(b: Board, p0: Pos, d: Pos, killed: Option<PieceId>, l: Pos, f: Pos)
    requires Valid(b) && d in b.cells && OnBoard(p0) && p0 != d
    requires killed.Some? ==> killed.value in b.table && b.table[killed.value].pos == d && killed.value != b.cells[d]
    requires l in Assign(b.cells[p0 := b.cells[d]], d, killed) && OnBoard(f) && l != f
    ensures var id := b.cells[d];
      var t1 := b.table[id := b.table[id].(pos := p0)];
      var c1 := Assign(b.cells[p0 := id], d, killed);
      var rid := c1[l];
      rid in t1 &&
      var c2 := c1[f := rid] - {l};
      var t2 := t1[rid := t1[rid].(pos := f)];
      var t3 := t2[id := t2[id].(hasMoved := false)];
      var r := b.(cells := c2, table := t3[rid := t3[rid].(hasMoved := false)]);
      Valid(r) && Extends(b, r)
  {
    var id := b.cells[d];
    KingBackValid(b, d, p0, killed);
    var b1 := b.(cells := Assign(b.cells[p0 := id], d, killed), table := b.table[id := b.table[id].(pos := p0)]);
    RookShiftValid(b1, id, l, f, false);
    var rid := b1.cells[l];
    var b2 := b1.(cells := b1.cells[f := rid] - {l}, table := b1.table[rid := b1.table[rid].(pos := f)]);
    var t3 := b2.table[id := b2.table[id].(hasMoved := false)];
    ExtendsTrans(b, b1, b2.(table := t3[rid := t3[rid].(hasMoved := false)]));
  }

  /** Moving the rook on `l` to `f` and setting both flags to `moved` keeps a board valid. */
  lemma RookShiftValid(b: Board, id: PieceId, l: Pos, f: Pos, moved: bool)
    requires Valid(b) && l in b.cells && OnBoard(f) && l != f && id in b.table
    ensures var rid := b.cells[l];
      var b2 := b.(cells := b.cells[f := rid] - {l}, table := b.table[rid := b.table[rid].(pos := f)]);
      var t3 := b2.table[id := b2.table[id].(hasMoved := moved)];
      var r := b2.(table := t3[rid := t3[rid].(hasMoved := moved)]);
      Valid(r) && Extends(b, r)
  {
    var rid := b.cells[l];
    RelocateValid(b, l, f);
    var b2 := b.(cells := b.cells[f := rid] - {l}, table := b.table[rid := b.table[rid].(pos := f)]);
    FlagsValid(b2, id, moved);
    var b3 := b2.(table := b2.table[id := b2.table[id].(hasMoved := moved)]);
    FlagsValid(b3, rid, moved);
    ExtendsTrans(b, b2, b3);
    ExtendsTrans(b, b3, b3.(table := b3.table[rid := b3.table[rid].(hasMoved := moved)]));
  }

  /**
   * Moving the piece on `d` back to `p0` and returning the captured piece,
   * which records `d` and is off the grid, to `d` keeps a board valid.
   */
  lemma KingBackValid(b: Board, d: Pos, p0: Pos, killed: Option<PieceId>)
    requires Valid(b) && d in b.cells && OnBoard(p0) && p0 != d
    requires killed.Some? ==> killed.value in b.table && b.table[killed.value].pos == d && killed.value != b.cells[d]
    ensures var id := b.cells[d];
      var r := b.(cells := Assign(b.cells[p0 := id], d, killed), table := b.table[id := b.table[id].(pos := p0)]);
      Valid(r) && Extends(b, r)
  {
    var id := b.cells[d];
    RelocateValid(b, d, p0);
    var b1 := b.(cells := b.cells[p0 := id] - {d}, table := b.table[id := b.table[id].(pos := p0)]);
    if killed.Some? {
      RestoreValid(b1, killed.value, d);
      assert b1.cells[d := killed.value] == Assign(b.cells[p0 := id], d, killed);
    } else {
      assert b1.cells == Assign(b.cells[p0 := id], d, killed);
    }
  }

  /** Moving the piece on `from` to an on-board square `to` keeps a board valid. */
  lemma RelocateValid(b: Board, from: Pos, to: Pos)
    requires Valid(b) && from in b.cells && OnBoard(to) && from != to
    ensures var id := b.cells[from];
      var r := b.(cells := b.cells[to := id] - {from}, table := b.table[id := b.table[id].(pos := to)]);
      Valid(r) && Extends(b, r)
  {
  }

  /** Putting back on an empty square `p` a piece object that records `p` and is not on the grid keeps a board valid. */
  lemma RestoreValid(b: Board, k: PieceId, p: Pos)
    requires Valid(b) && p !in b.cells && k in b.table && b.table[k].pos == p
    ensures Valid(b.(cells := b.cells[p := k]))
  {
  }

  /** Setting the `hasMoved` flag of a known piece keeps a board valid. */
  lemma FlagsValid(b: Board, k: PieceId, moved: bool)
    requires Valid(b) && k in b.table
    ensures var r := b.(table := b.table[k := b.table[k].(hasMoved := moved)]);
      Valid(r) && Extends(b, r)
  {
  }

  lemma RevertPromotedValid(b: Board, sim: SimMove)
    requires Revertible(b, sim) && RevertMove(b, sim).Ok? && !sim.castle && sim.hasPromoted
    ensures Valid(RevertMove(b, sim).value) && Extends(b, RevertMove(b, sim).value)
  {
  }

  lemma RevertPlainValid(b: Board, sim: SimMove)
    requires Revertible(b, sim) && RevertMove(b, sim).Ok? && Plain(sim)
    ensures Valid(RevertMove(b, sim).value) && Extends(b, RevertMove(b, sim).value)
  {
    RevertPlainShape(b, sim);
    PlainBackValid(b, Pos(sim.nx, sim.ny), Pos(sim.x, sim.y), sim.killed, !sim.hasNotMoved);
  }

  /**
   * Moving the piece on `d` back to `p0` with its flag set to `moved`, and
   * returning the captured piece to `d` and to the live set, keeps a board valid.
   */
  lemma PlainBackValid(b: Board, d: Pos, p0: Pos, killed: Option<PieceId>, moved: bool)
    requires Valid(b) && d in b.cells && OnBoard(p0) && p0 != d
    requires killed.Some? ==> killed.value in b.table && b.table[killed.value].pos == d && killed.value != b.cells[d]
    ensures var id := b.cells[d];
      var r := b.(cells := Assign(b.cells[p0 := id], d, killed),
                  table := b.table[id := b.table[id].(pos := p0, hasMoved := moved)],
                  live := if killed.Some? then b.live + {killed.value} else b.live);
      Valid(r) && Extends(b, r)
  {
    var id := b.cells[d];
    KingBackValid(b, d, p0, killed);
    var b1 := b.(cells := Assign(b.cells[p0 := id], d, killed), table := b.table[id := b.table[id].(pos := p0)]);
    FlagsValid(b1, id, moved);
    var b2 := b1.(table := b1.table[id := b1.table[id].(hasMoved := moved)]);
    UpdateTwice(b.table, id, p0, moved);
    ExtendsTrans(b, b1, b2);
    if killed.Some? {
      LiveAddValid(b2, killed.value);
    }
  }

  /** Two updates of one piece record are one update of both fields. */
  lemma UpdateTwice(t: map<PieceId, Piece>, id: PieceId, p: Pos, moved: bool)
    requires id in t
    ensures var t1 := t[id := t[id].(pos := p)];
      t1[id := t1[id].(hasMoved := moved)] == t[id := t[id].(pos := p, hasMoved := moved)]
  {
  }

  /** Adding a known piece object to the live set keeps a board valid. */
  lemma LiveAddValid(b: Board, k: PieceId)
    requires Valid(b) && k in b.table
    ensures Valid(b.(live := b.live + {k}))
  {
  }

  /** An index check for a write `this[x][y] = ..`. */
  function CheckIndex(x: int, y: int): (r: Result<(), Fault>)
    ensures r.Ok? <==> InRange(x) && InRange(y)
  {
    if InRange(x) && InRange(y) then Ok(()) else Err(IndexOutOfRange)
  }

  /**
   * `revertMove(sim)`: the piece on the destination goes back and the killed
   * piece returns to the destination. A castling moves the rook back and
   * clears both `hasMoved` flags without returning the killed piece to the
   * live set; a promotion puts a new moved Pawn on the source that is never
   * added to the live set and drops the Queen from it; any other move
   * restores `hasMoved` from the record.
   */
  function RevertMove(b: Board, sim: SimMove): (r: Result<Board, Fault>)
    requires Valid(b) && (sim.killed.Some? ==> sim.killed.value in b.table)
  {
    var found :- Get(b, sim.nx, sim.ny);
    if found.None? then Err(NullPiece)
    else
      var id := found.value;
      var piece := b.table[id];
      var _ :- CheckIndex(sim.x, sim.y);
      if sim.castle then
        var t1 := b.table[id := piece.(pos := Pos(sim.x, sim.y))];
        var c1 := Assign(b.cells[Pos(sim.x, sim.y) := id], Pos(sim.nx, sim.ny), sim.killed);
        var mul := CastleMul(sim.nx);
        var rook :- Get(b.(cells := c1), sim.nx - mul, sim.ny);
        if rook.None? then Err(NullPiece)
        else
          var rid := rook.value;
          var _ :- CheckIndex(sim.nx + mul, sim.ny);
          var c2 := c1[Pos(sim.nx + mul, sim.ny) := rid] - {Pos(sim.nx - mul, sim.ny)};
          var t2 := t1[rid := t1[rid].(pos := Pos(sim.nx + mul, sim.ny))];
          var t3 := t2[id := t2[id].(hasMoved := false)];
          var t4 := t3[rid := t3[rid].(hasMoved := false)];
          Ok(b.(cells := c2, table := t4))
      else if sim.hasPromoted then
        var p := b.nextId;
        var c := Assign(b.cells[Pos(sim.x, sim.y) := p], Pos(sim.nx, sim.ny), sim.killed);
        var live := (if sim.killed.Some? then b.live + {sim.killed.value} else b.live) - {id};
        Ok(Board(c, b.table[p := Spawn(Pawn, piece.colour, Pos(sim.x, sim.y), true)], live,
                 b.whiteKing, b.blackKing, p + 1))
      else
        Ok(b.(
          cells := Assign(b.cells[Pos(sim.x, sim.y) := id], Pos(sim.nx, sim.ny), sim.killed),
          table := b.table[id := piece.(pos := Pos(sim.x, sim.y), hasMoved := !sim.hasNotMoved)],
          live := if sim.killed.Some? then b.live + {sim.killed.value} else b.live))
  }

  /** The three kinds of simulation, read off the record. */
  predicate Plain(sim: SimMove) { !sim.castle && !sim.hasPromoted }

  /**
   * Simulating and reverting a plain move restores the grid exactly, returns
   * a captured piece to the live set and leaves the mover with
   * `hasMoved == false`, whatever it was before.
   */
  lemma PlainRoundTrip(b: Board, x: int, y: int, nx: int, ny: int)
    requires Valid(b) && SimulateMove(b, x, y, nx, ny).Ok?
    requires Plain(SimulateMove(b, x, y, nx, ny).value.1)
    ensures var (b1, sim) := SimulateMove(b, x, y, nx, ny).value;
      var id := b.cells[Pos(x, y)];
      RevertMove(b1, sim) == Ok(b.(
        table := b.table[id := b.table[id].(hasMoved := false)],
        live := if Pos(nx, ny) in b.cells then b.live + {b.cells[Pos(nx, ny)]} else b.live))
  {
    var (id, killed) := MoveGuard(b, x, y, nx, ny).value;
    var piece := b.table[id];
    SimulatePlainShape(b, x, y, nx, ny);
    var (b1, sim) := SimulateMove(b, x, y, nx, ny).value;
    assert b1.cells[Pos(nx, ny)] == id;
    RevertPlainShape(b1, sim);
    AssignRestores(b.cells, Pos(x, y), Pos(nx, ny), id, id, killed);
    assert b.cells[Pos(x, y) := id] == b.cells;
    assert piece.pos == Pos(x, y);
    assert b1.table[id := piece.(pos := Pos(x, y), hasMoved := false)] == b.table[id := piece.(hasMoved := false)];
    assert RevertMove(b1, sim).value.cells == b.cells;
    assert RevertMove(b1, sim).value.table == b.table[id := piece.(hasMoved := false)];
    assert RevertMove(b1, sim).value.live == (if Pos(nx, ny) in b.cells then b.live + {b.cells[Pos(nx, ny)]} else b.live);
  }


  /** The board and record `simulateMove` builds for a plain move. */
  lemma SimulatePlainShape(b: Board, x: int, y: int, nx: int, ny: int)
    requires Valid(b) && SimulateMove(b, x, y, nx, ny).Ok?
    requires Plain(SimulateMove(b, x, y, nx, ny).value.1)
    ensures var (id, killed) := MoveGuard(b, x, y, nx, ny).value;
      SimulateMove(b, x, y, nx, ny) == Ok((
        b.(cells := b.cells[Pos(nx, ny) := id] - {Pos(x, y)},
           table := b.table[id := b.table[id].(pos := Pos(nx, ny), hasMoved := false)],
           live := if killed.Some? then b.live - {killed.value} else b.live),
        SimMove(x, y, nx, ny, killed, true, false, false)))
  {
  }

  /** The board `revertMove` builds for a plain record. */
  lemma RevertPlainShape(b: Board, sim: SimMove)
    requires Valid(b) && (sim.killed.Some? ==> sim.killed.value in b.table)
    requires Plain(sim) && Pos(sim.nx, sim.ny) in b.cells
    requires InRange(sim.nx) && InRange(sim.ny) && InRange(sim.x) && InRange(sim.y)
    ensures var id := b.cells[Pos(sim.nx, sim.ny)];
      RevertMove(b, sim) == Ok(b.(
        cells := Assign(b.cells[Pos(sim.x, sim.y) := id], Pos(sim.nx, sim.ny), sim.killed),
        table := b.table[id := b.table[id].(pos := Pos(sim.x, sim.y), hasMoved := !sim.hasNotMoved)],
        live := if sim.killed.Some? then b.live + {sim.killed.value} else b.live))
  {
  }


  /**
   * Moving the occupant of `p` to `q`, putting `n` on `p` and restoring what
   * stood on `q` only changes square `p`.
   */
  lemma AssignRestores(cells: map<Pos, PieceId>, p: Pos, q: Pos, v: PieceId, n: PieceId, old_q: Option<PieceId>)
    requires p != q
    requires (old_q.Some? <==> q in cells) && (old_q.Some? ==> cells[q] == old_q.value)
    ensures Assign((cells[q := v] - {p})[p := n], q, old_q) == cells[p := n]
  {
  }

  /**
   * Simulating and reverting a promotion puts a new, moved Pawn object of the
   * same colour back on the source: the kinds and colours on every square
   * are restored, but neither the old pawn nor the new one is live.
   */
  lemma PromotionRoundTrip(b: Board, x: int, y: int, nx: int, ny: int)
    requires Valid(b) && SimulateMove(b, x, y, nx, ny).Ok?
    requires SimulateMove(b, x, y, nx, ny).value.1.hasPromoted
    ensures var (b1, sim) := SimulateMove(b, x, y, nx, ny).value;
      var r := RevertMove(b1, sim);
      var id := b.cells[Pos(x, y)];
      && r.Ok?
      && Occupancy(r.value) == Occupancy(b)
      && var pawn := r.value.cells[Pos(x, y)];
      && pawn !in b.table
      && r.value.table[pawn] == Spawn(Pawn, b.table[id].colour, Pos(x, y), true)
      && pawn !in r.value.live && id !in r.value.live
      && r.value.cells == b.cells[Pos(x, y) := pawn]
  {
    var (id, killed) := MoveGuard(b, x, y, nx, ny).value;
    SimulatePromotedShape(b, x, y, nx, ny);
    var (b1, sim) := SimulateMove(b, x, y, nx, ny).value;
    PromotionUndone(b, b1, sim, id);
    var r := RevertMove(b1, sim).value;
    PromotedOccupancy(b, r, x, y, nx, ny, id);
    assert b.nextId + 1 !in b.table;
  }

  /** Reverting a promotion record on the promoted board, with an explicit board. */
  lemma PromotionUndone(b: Board, b1: Board, sim: SimMove, id: PieceId)
    requires Valid(b) && GuardPassed(b, sim.x, sim.y, sim.nx, sim.ny, id, sim.killed) && SimulatedValid(b, b1, sim)
    requires b.table[id].kind == Pawn && sim == SimMove(sim.x, sim.y, sim.nx, sim.ny, sim.killed, false, true, false)
    requires var q := b.nextId;
      b1 == Board(
        b.cells[Pos(sim.nx, sim.ny) := q] - {Pos(sim.x, sim.y)},
        b.table[q := Spawn(Queen, b.table[id].colour, Pos(sim.nx, sim.ny), false)],
        (if sim.killed.Some? then b.live - {sim.killed.value} else b.live) - {id} + {q},
        b.whiteKing, b.blackKing, q + 1)
    ensures var r := RevertMove(b1, sim);
      var q := b.nextId;
      && r.Ok?
      && r.value.cells == b.cells[Pos(sim.x, sim.y) := q + 1]
      && r.value.table == b.table[q := Spawn(Queen, b.table[id].colour, Pos(sim.nx, sim.ny), false)]
                                 [q + 1 := Spawn(Pawn, b.table[id].colour, Pos(sim.x, sim.y), true)]
      && q + 1 !in r.value.live && id !in r.value.live
  {
    var (x, y, nx, ny, killed) := (sim.x, sim.y, sim.nx, sim.ny, sim.killed);
    var piece := b.table[id];
    var q := b.nextId;
    assert b1.cells[Pos(nx, ny)] == q;
    RevertPromotedShape(b1, sim);
    AssignRestores(b.cells, Pos(x, y), Pos(nx, ny), q, q + 1, killed);
  }

  /** Swapping the pawn on the source for a new Pawn object, with a Queen added to the table, keeps the occupancy. */
  lemma PromotedOccupancy(b: Board, r: Board, x: int, y: int, nx: int, ny: int, id: PieceId)
    requires forall id :: id in b.table ==> id < b.nextId
    requires forall p :: p in b.cells ==> b.cells[p] in b.table
    requires Pos(x, y) in b.cells && b.cells[Pos(x, y)] == id && b.table[id].kind == Pawn
    requires var q := b.nextId;
      && r.cells == b.cells[Pos(x, y) := q + 1]
      && r.table == b.table[q := Spawn(Queen, b.table[id].colour, Pos(nx, ny), false)][q + 1 := Spawn(Pawn, b.table[id].colour, Pos(x, y), true)]
    ensures Occupancy(r) == Occupancy(b)
  {
    var q := b.nextId;
    assert q !in b.table && q + 1 !in b.table;
    OccupancyReplace(b, r, Pos(x, y), q + 1);
  }

  /** The board and record `simulateMove` builds for a promotion. */
  lemma SimulatePromotedShape(b: Board, x: int, y: int, nx: int, ny: int)
    requires Valid(b) && SimulateMove(b, x, y, nx, ny).Ok?
    requires SimulateMove(b, x, y, nx, ny).value.1.hasPromoted
    ensures var (id, killed) := MoveGuard(b, x, y, nx, ny).value;
      var q := b.nextId;
      SimulateMove(b, x, y, nx, ny) == Ok((
        Board(
          b.cells[Pos(nx, ny) := q] - {Pos(x, y)},
          b.table[q := Spawn(Queen, b.table[id].colour, Pos(nx, ny), false)],
          (if killed.Some? then b.live - {killed.value} else b.live) - {id} + {q},
          b.whiteKing, b.blackKing, q + 1),
        SimMove(x, y, nx, ny, killed, false, true, false)))
  {
    var (id, killed) := MoveGuard(b, x, y, nx, ny).value;
    assert IsPromotion(b, id, ny);
  }


  /** Replacing the object on one square by one of the same kind and colour keeps the occupancy. */
  lemma OccupancyReplace(b: Board, r: Board, p: Pos, n: PieceId)
    requires forall q :: q in b.cells ==> b.cells[q] in b.table
    requires p in b.cells && r.cells == b.cells[p := n]
    requires n in r.table && r.table[n].kind == b.table[b.cells[p]].kind && r.table[n].colour == b.table[b.cells[p]].colour
    requires forall id :: id in b.table ==> id in r.table && r.table[id].kind == b.table[id].kind && r.table[id].colour == b.table[id].colour
    ensures Occupancy(r) == Occupancy(b)
  {
  }

  /** The board `revertMove` builds for a promotion record. */
  lemma RevertPromotedShape(b: Board, sim: SimMove)
    requires Valid(b) && (sim.killed.Some? ==> sim.killed.value in b.table)
    requires !sim.castle && sim.hasPromoted && Pos(sim.nx, sim.ny) in b.cells
    requires InRange(sim.nx) && InRange(sim.ny) && InRange(sim.x) && InRange(sim.y)
    ensures var id := b.cells[Pos(sim.nx, sim.ny)];
      var p := b.nextId;
      RevertMove(b, sim) == Ok(Board(
        Assign(b.cells[Pos(sim.x, sim.y) := p], Pos(sim.nx, sim.ny), sim.killed),
        b.table[p := Spawn(Pawn, b.table[id].colour, Pos(sim.x, sim.y), true)],
        (if sim.killed.Some? then b.live + {sim.killed.value} else b.live) - {id},
        b.whiteKing, b.blackKing, p + 1))
  {
  }

  /**
   * The board a castling produces from `b`, when the piece beside the
   * destination is `rid`.
   */
  function CastledBoard(b: Board, id: PieceId, rid: PieceId, x: int, y: int, nx: int, ny: int): Board
    requires id in b.table && rid in b.table
  {
    var mul := CastleMul(nx);
    var t1 := b.table[id := b.table[id].(pos := Pos(nx, ny))];
    var c1 := b.cells[Pos(nx, ny) := id] - {Pos(x, y)};
    var c2 := c1[Pos(nx - mul, ny) := rid] - {Pos(nx + mul, ny)};
    var t2 := t1[rid := t1[rid].(pos := Pos(nx - mul, ny))];
    var t3 := t2[id := t2[id].(hasMoved := true)];
    b.(cells := c2, table := t3[rid := t3[rid].(hasMoved := true)])
  }

  /** The board and record `simulateMove` builds for a castling. */
  lemma SimulateCastleShape(b: Board, x: int, y: int, nx: int, ny: int)
    requires Valid(b) && SimulateMove(b, x, y, nx, ny).Ok?
    requires SimulateMove(b, x, y, nx, ny).value.1.castle
    ensures var (id, killed) := MoveGuard(b, x, y, nx, ny).value;
      var from := Pos(nx + CastleMul(nx), ny);
      && from in b.cells && from != Pos(x, y) && b.cells[from] != id
      && InRange(nx - CastleMul(nx))
      && SimulateMove(b, x, y, nx, ny) == Ok((
           CastledBoard(b.(live := if killed.Some? then b.live - {killed.value} else b.live),
                        id, b.cells[from], x, y, nx, ny),
           SimMove(x, y, nx, ny, killed, true, false, true)))
  {
    var (id, killed) := MoveGuard(b, x, y, nx, ny).value;
    var b0 := b.(live := if killed.Some? then b.live - {killed.value} else b.live);
    SimulateIsCastle(b, x, y, nx, ny);
    CastleOkShape(b0, id, x, y, nx, ny);
  }

  /** A castling record comes from the `Castle` branch of `simulateMove`, on the board without the captured piece. */
  lemma SimulateIsCastle(b: Board, x: int, y: int, nx: int, ny: int)
    requires Valid(b) && SimulateMove(b, x, y, nx, ny).Ok?
    requires SimulateMove(b, x, y, nx, ny).value.1.castle
    ensures var (id, killed) := MoveGuard(b, x, y, nx, ny).value;
      var b0 := b.(live := if killed.Some? then b.live - {killed.value} else b.live);
      && GuardPassed(b, x, y, nx, ny, id, killed)
      && Castle(b0, id, x, y, nx, ny).Ok?
      && SimulateMove(b, x, y, nx, ny) == Ok((Castle(b0, id, x, y, nx, ny).value, SimMove(x, y, nx, ny, killed, true, false, true)))
  {
    var (id, killed) := MoveGuard(b, x, y, nx, ny).value;
    assert IsCastling(b, id, nx) && !IsPromotion(b, id, ny);
  }

  /** A castling that succeeds found a second piece beside the destination and built `CastledBoard`. */
  lemma CastleOkShape(b: Board, id: PieceId, x: int, y: int, nx: int, ny: int)
    requires Valid(b) && OnBoard(Pos(nx, ny)) && OnBoard(Pos(x, y))
    requires Pos(x, y) in b.cells && b.cells[Pos(x, y)] == id
    requires Castle(b, id, x, y, nx, ny).Ok?
    ensures var from := Pos(nx + CastleMul(nx), ny);
      && from in b.cells && from != Pos(x, y) && b.cells[from] != id && InRange(nx - CastleMul(nx))
      && Castle(b, id, x, y, nx, ny).value == CastledBoard(b, id, b.cells[from], x, y, nx, ny)
  {
    var mul := CastleMul(nx);
    var from := Pos(nx + mul, ny);
    var c1 := b.cells[Pos(nx, ny) := id] - {Pos(x, y)};
    assert from in c1 <==> from in b.cells && from != Pos(x, y);
    var rid := b.cells[from];
    assert c1[from] == rid;
  }

  /** The board `revertMove` builds for a castling record. */
  lemma RevertCastleShape(b: Board, sim: SimMove)
    requires Valid(b) && (sim.killed.Some? ==> sim.killed.value in b.table)
    requires sim.castle && Pos(sim.nx, sim.ny) in b.cells
    requires InRange(sim.nx) && InRange(sim.ny) && InRange(sim.x) && InRange(sim.y)
    requires var mul := CastleMul(sim.nx);
      var c1 := Assign(b.cells[Pos(sim.x, sim.y) := b.cells[Pos(sim.nx, sim.ny)]], Pos(sim.nx, sim.ny), sim.killed);
      Pos(sim.nx - mul, sim.ny) in c1 && InRange(sim.nx + mul)
    ensures var id := b.cells[Pos(sim.nx, sim.ny)];
      var mul := CastleMul(sim.nx);
      var t1 := b.table[id := b.table[id].(pos := Pos(sim.x, sim.y))];
      var c1 := Assign(b.cells[Pos(sim.x, sim.y) := id], Pos(sim.nx, sim.ny), sim.killed);
      var rid := c1[Pos(sim.nx - mul, sim.ny)];
      rid in t1 &&
      var c2 := c1[Pos(sim.nx + mul, sim.ny) := rid] - {Pos(sim.nx - mul, sim.ny)};
      var t2 := t1[rid := t1[rid].(pos := Pos(sim.nx + mul, sim.ny))];
      var t3 := t2[id := t2[id].(hasMoved := false)];
      RevertMove(b, sim) == Ok(b.(cells := c2, table := t3[rid := t3[rid].(hasMoved := false)]))
  {
  }

  /**
   * Simulating and reverting a castling restores the king and the rook to
   * their squares, clears both `hasMoved` flags and keeps a captured piece
   * out of the live set; whatever stood on the square the rook was moved to
   * is gone from the grid.
   */
  lemma CastleRoundTrip(b: Board, x: int, y: int, nx: int, ny: int)
    requires Valid(b) && SimulateMove(b, x, y, nx, ny).Ok?
    requires SimulateMove(b, x, y, nx, ny).value.1.castle
    ensures var (b1, sim) := SimulateMove(b, x, y, nx, ny).value;
      var r := RevertMove(b1, sim);
      var id := b.cells[Pos(x, y)];
      var from := Pos(nx + CastleMul(nx), ny);
      && r.Ok?
      && from in b.cells
      && r.value.cells == b.cells - {Pos(nx - CastleMul(nx), ny)}
      && var rid := b.cells[from];
      && r.value.table == b.table[id := b.table[id].(hasMoved := false)][rid := b.table[rid].(hasMoved := false)]
      && r.value.live == (if Pos(nx, ny) in b.cells then b.live - {b.cells[Pos(nx, ny)]} else b.live)
  {
    var (id, killed) := MoveGuard(b, x, y, nx, ny).value;
    var mul := CastleMul(nx);
    var from := Pos(nx + mul, ny);
    SimulateCastleShape(b, x, y, nx, ny);
    var rid := b.cells[from];
    var (b1, sim) := SimulateMove(b, x, y, nx, ny).value;
    assert Pos(x, y) != Pos(nx - mul, ny) && Pos(x, y) != from;
    var b0 := b.(live := if killed.Some? then b.live - {killed.value} else b.live);
    assert b1 == CastledBoard(b0, id, rid, x, y, nx, ny);
    assert sim == SimMove(x, y, nx, ny, killed, true, false, true);
    CastleUndone(b0, id, rid, x, y, nx, ny, killed);
    assert killed.Some? <==> Pos(nx, ny) in b.cells;
  }

  /** Reverting a castling record on the castled board, with explicit boards. */
  lemma CastleUndone(b: Board, id: PieceId, rid: PieceId, x: int, y: int, nx: int, ny: int, killed: Option<PieceId>)
    requires Valid(b)
    requires OnBoard(Pos(x, y)) && OnBoard(Pos(nx, ny)) && InRange(nx - CastleMul(nx)) && InRange(nx + CastleMul(nx))
    requires var mul := CastleMul(nx);
      && Pos(x, y) != Pos(nx, ny) && Pos(x, y) != Pos(nx - mul, ny) && Pos(x, y) != Pos(nx + mul, ny)
    requires Pos(x, y) in b.cells && b.cells[Pos(x, y)] == id
    requires Pos(nx + CastleMul(nx), ny) in b.cells && b.cells[Pos(nx + CastleMul(nx), ny)] == rid
    requires (killed.Some? <==> Pos(nx, ny) in b.cells) && (killed.Some? ==> b.cells[Pos(nx, ny)] == killed.value)
    requires Valid(CastledBoard(b, id, rid, x, y, nx, ny))
    ensures var r := RevertMove(CastledBoard(b, id, rid, x, y, nx, ny), SimMove(x, y, nx, ny, killed, true, false, true));
      && r.Ok?
      && r.value.cells == b.cells - {Pos(nx - CastleMul(nx), ny)}
      && r.value.table == b.table[id := b.table[id].(hasMoved := false)][rid := b.table[rid].(hasMoved := false)]
      && r.value.live == b.live
  {
    var mul := CastleMul(nx);
    var b1 := CastledBoard(b, id, rid, x, y, nx, ny);
    var sim := SimMove(x, y, nx, ny, killed, true, false, true);
    assert b1.cells[Pos(nx, ny)] == id;
    CastleCellsRestore(b.cells, id, rid, Pos(x, y), Pos(nx, ny), Pos(nx + mul, ny), Pos(nx - mul, ny), killed);
    CastleTableRestore(b.table, id, rid, Pos(x, y), Pos(nx, ny), Pos(nx - mul, ny), Pos(nx + mul, ny));
    RevertCastleShape(b1, sim);
  }

  /** The piece table after castling and reverting, as a pure map identity. */
  lemma CastleTableRestore(table: map<PieceId, Piece>, id: PieceId, rid: PieceId, p0: Pos, d: Pos, l: Pos, f: Pos)
    requires id in table && rid in table && id != rid
    requires table[id].pos == p0 && table[rid].pos == f
    ensures var t1 := table[id := table[id].(pos := d)];
      var t2 := t1[rid := t1[rid].(pos := l)];
      var t3 := t2[id := t2[id].(hasMoved := true)];
      var m := t3[rid := t3[rid].(hasMoved := true)];
      var u1 := m[id := m[id].(pos := p0)];
      var u2 := u1[rid := u1[rid].(pos := f)];
      var u3 := u2[id := u2[id].(hasMoved := false)];
      u3[rid := u3[rid].(hasMoved := false)] == table[id := table[id].(hasMoved := false)][rid := table[rid].(hasMoved := false)]
  {
  }

  /** The grid after castling king `id` from `p0` to `d` with rook `rid` from `f` to `l`, and back. */
  lemma CastleCellsRestore(cells: map<Pos, PieceId>, id: PieceId, rid: PieceId, p0: Pos, d: Pos, f: Pos, l: Pos, killed: Option<PieceId>)
    requires p0 in cells && cells[p0] == id && f in cells && cells[f] == rid
    requires (killed.Some? <==> d in cells) && (killed.Some? ==> cells[d] == killed.value)
    requires p0 != d && p0 != f && p0 != l && d != f && d != l && f != l
    ensures var c1 := (cells[d := id] - {p0})[l := rid] - {f};
      var c2 := Assign(c1[p0 := id], d, killed);
      && l in c2 && c2[l] == rid
      && c2[f := rid] - {l} == cells - {l}
  {
  }
}

=== FILE: opening.dfy ===
/**
 * The move lists of a freshly set-up board: every pawn may push one or two
 * squares, every knight has its two jumps in front of the pawns, and the
 * rooks, bishops, queens and kings, hemmed in by their own pieces, have none.
 */
module ChessOpening {
  import opened ChessGeometry
  import opened ChessBoard
  import opened ChessRays
  import opened ChessAttacks
  import opened ChessMoves

  /** Every on-board square next to `p` holds a piece of its own colour. */
  predicate Boxed(b: Board, p: Piece) {
    forall dx, dy :: -1 <= dx <= 1 && -1 <= dy <= 1 && IsDir(dx, dy) && OnBoard(Step(p.pos, dx, dy, 1)) ==>
      HasColouredPieceAt(b, Step(p.pos, dx, dy, 1).x, Step(p.pos, dx, dy, 1).y, p.colour)
  }

  /** A boxed piece cannot slide any distance in any direction. */
  lemma BoxedCannotSlide(b: Board, p: Piece, dx: int, dy: int, k: int)
    requires OnBoard(p.pos) && IsDir(dx, dy) && Boxed(b, p)
    ensures !Reaches(b, p.colour, p.pos, dx, dy, k)
  {
    var s := Step(p.pos, dx, dy, 1);
    if k >= 1 && OnBoard(s) {
      assert HasColouredPieceAt(b, s.x, s.y, p.colour);
      assert HasPieceAt(b, s.x, s.y);
    } else if k >= 1 && OnBoard(Step(p.pos, dx, dy, k)) {
      StepBetweenOnBoard(p.pos, dx, dy, 1, k);
    }
  }

  /** A boxed sliding piece has no targets along any of its directions. */
  lemma BoxedSlideEmpty(b: Board, p: Piece, dirs: seq<(int, int)>, q: Pos)
    requires OnBoard(p.pos) && AllDirs(dirs) && Boxed(b, p)
    ensures !SlideReaches(b, p.colour, p.pos, dirs, q)
  {
    if SlideReaches(b, p.colour, p.pos, dirs, q) {
      var i, k :| 0 <= i < |dirs| && q == Step(p.pos, dirs[i].0, dirs[i].1, k)
        && Reaches(b, p.colour, p.pos, dirs[i].0, dirs[i].1, k);
      BoxedCannotSlide(b, p, dirs[i].0, dirs[i].1, k);
    }
  }

  /** A boxed king away from the corner files can neither step nor castle. */
  lemma BoxedKingEmpty(b: Board, k: Piece, q: Pos)
    requires Valid(b) && OnBoard(k.pos) && 0 < k.pos.x < 7 && Boxed(b, k)
    ensures !KingTarget(b, k, q)
  {
    if OnBoard(q) && Distance(k.pos, q) == 1 {
      var dx, dy := q.x - k.pos.x, q.y - k.pos.y;
      assert IsDir(dx, dy) && q == Step(k.pos, dx, dy, 1);
    }
    var w := Step(k.pos, -1, 0, 1);
    var e := Step(k.pos, 1, 0, 1);
    assert IsDir(-1, 0) && OnBoard(w) && HasPieceAt(b, w.x, w.y);
    assert IsDir(1, 0) && OnBoard(e) && HasPieceAt(b, e.x, e.y);
    assert !CastlePath(b, k, -1, 3) && !CastlePath(b, k, 1, 2);
  }

  /**
   * A king, queen, rook or bishop surrounded by its own pieces has an empty
   * move list (a king only when it stands between files 0 and 7).
   */
  lemma BoxedHasNoMoves(b: Board, id: PieceId)
    requires Valid(b) && id in b.table && Boxed(b, b.table[id])
    requires b.table[id].kind in {King, Queen, Rook, Bishop}
    requires b.table[id].kind == King ==> 0 < b.table[id].pos.x < 7
    ensures AvailableMoves(b, id) == []
  {
    var p := b.table[id];
    var r := AvailableMoves(b, id);
    DirsValid();
    if r != [] {
      var q := r[0];
      assert Target(b, p, q);
      match p.kind
      case King => BoxedKingEmpty(b, p, q);
      case Queen => BoxedSlideEmpty(b, p, QueenDirs, q);
      case Rook => BoxedSlideEmpty(b, p, RookDirs, q);
      case Bishop => BoxedSlideEmpty(b, p, BishopDirs, q);
    }
  }

  /** The colour of the pieces on rank `y` of the initial position. */
  function HomeColour(y: int): Colour {
    if y <= 1 then White else Black
  }

  /** The initial piece standing on (x, y). */
  lemma InitialAt(x: int, y: int)
    requires InRange(x) && InRange(y) && HomeRank(y)
    ensures var b := Initial();
      var p := b.table[InitialId(Pos(x, y))];
      && Pos(x, y) in b.cells && b.cells[Pos(x, y)] == InitialId(Pos(x, y))
      && p.pos == Pos(x, y) && p.colour == HomeColour(y)
      && p.kind == (if y == 1 || y == 6 then Pawn else BackRank(x))
      && HasColouredPieceAt(b, x, y, HomeColour(y))
  {
    InitialIdInverse(Pos(x, y));
    InitialSquare(x, y);
  }

  /** Every back-rank piece of the initial position is boxed in by its own pieces. */
  lemma InitialBackRankBoxed(x: int, y: int)
    requires InRange(x) && (y == 0 || y == 7)
    ensures Boxed(Initial(), Initial().table[InitialId(Pos(x, y))])
  {
    var b := Initial();
    var p := b.table[InitialId(Pos(x, y))];
    InitialAt(x, y);
    forall dx, dy | IsDir(dx, dy) && OnBoard(Step(p.pos, dx, dy, 1))
      ensures HasColouredPieceAt(b, Step(p.pos, dx, dy, 1).x, Step(p.pos, dx, dy, 1).y, p.colour)
    {
      var s := Step(p.pos, dx, dy, 1);
      InitialAt(s.x, s.y);
    }
  }

  /** The rooks, bishops, queens and kings of the initial position have no moves. */
  lemma InitialBackRankStill(x: int, y: int)
    requires InRange(x) && (y == 0 || y == 7) && BackRank(x) != Knight
    ensures AvailableMoves(Initial(), InitialId(Pos(x, y))) == []
  {
    InitialAt(x, y);
    InitialBackRankBoxed(x, y);
    BoxedHasNoMoves(Initial(), InitialId(Pos(x, y)));
  }

  /** Rank `y` holds a piece of colour `c` on every file. */
  predicate RankHeld(b: Board, y: int, c: Colour) {
    forall x :: 0 <= x <= 7 ==> HasColouredPieceAt(b, x, y, c)
  }

  /** Rank `y` is empty. */
  predicate RankEmpty(b: Board, y: int) {
    forall x :: 0 <= x <= 7 ==> !HasPieceAt(b, x, y)
  }

  /** In the initial position ranks 1, 2, 7 and 8 are full of their own colour. */
  lemma InitialRankHeld(y: int)
    requires InRange(y) && HomeRank(y)
    ensures RankHeld(Initial(), y, HomeColour(y))
  {
    forall x | 0 <= x <= 7 ensures HasColouredPieceAt(Initial(), x, y, HomeColour(y)) {
      InitialAt(x, y);
    }
  }

  /** In the initial position ranks 3 to 6 are empty. */
  lemma InitialRankEmpty(y: int)
    requires 2 <= y <= 5
    ensures RankEmpty(Initial(), y)
  {
    forall x | 0 <= x <= 7 ensures !HasPieceAt(Initial(), x, y) {
      InitialOccupied(x, y);
    }
  }

  /**
   * A knight on its home rank, with its own colour filling the rank in
   * front and the rank after that empty, may jump to exactly the two
   * squares two ranks ahead beside its file.
   */
  lemma KnightBehindPawns(b: Board, id: PieceId, f: int)
    requires Valid(b) && id in b.table && b.table[id].kind == Knight
    requires var p := b.table[id]; OnBoard(p.pos) && (f == 1 || f == -1) && 1 <= p.pos.x <= 6
    requires var p := b.table[id];
      !InRange(p.pos.y - f) && RankHeld(b, p.pos.y + f, p.colour) && RankEmpty(b, p.pos.y + 2 * f)
    ensures var p := b.table[id];
      forall q :: q in AvailableMoves(b, id) <==>
        q == Pos(p.pos.x - 1, p.pos.y + 2 * f) || q == Pos(p.pos.x + 1, p.pos.y + 2 * f)
  {
    var p := b.table[id];
    var (x, y) := (p.pos.x, p.pos.y);
    forall q ensures Target(b, p, q) <==> q == Pos(x - 1, y + 2 * f) || q == Pos(x + 1, y + 2 * f) {
      if q == Pos(x - 1, y + 2 * f) || q == Pos(x + 1, y + 2 * f) {
        assert !HasPieceAt(b, q.x, q.y);
      } else if OnBoard(q) && KnightJump(p.pos, q) {
        assert q.y == y + f;
        assert HasColouredPieceAt(b, q.x, q.y, p.colour);
      }
    }
  }

  /** Each initial knight may jump to exactly the two squares two ranks in front of it. */
  lemma InitialKnightJumps(x: int, y: int)
    requires (x == 1 || x == 6) && (y == 0 || y == 7)
    ensures var f := Forward(HomeColour(y));
      forall q :: q in AvailableMoves(Initial(), InitialId(Pos(x, y))) <==>
        q == Pos(x - 1, y + 2 * f) || q == Pos(x + 1, y + 2 * f)
  {
    var f := Forward(HomeColour(y));
    InitialAt(x, y);
    InitialRankHeld(y + f);
    InitialRankEmpty(y + 2 * f);
    KnightBehindPawns(Initial(), InitialId(Pos(x, y)), f);
  }

  /**
   * A pawn on its starting rank, with the rank in front empty and the square
   * two ahead empty, may push exactly one or two squares.
   */
  lemma PawnOnOpenFile(b: Board, id: PieceId)
    requires Valid(b) && id in b.table && b.table[id].kind == Pawn
    requires var p := b.table[id]; var f := Forward(p.colour);
      OnBoard(p.pos) && AtStart(p) && RankEmpty(b, p.pos.y + f) && !HasPieceAt(b, p.pos.x, p.pos.y + 2 * f)
    ensures var p := b.table[id]; var f := Forward(p.colour);
      forall q :: q in AvailableMoves(b, id) <==> q == Pos(p.pos.x, p.pos.y + f) || q == Pos(p.pos.x, p.pos.y + 2 * f)
  {
    var p := b.table[id];
    var f := Forward(p.colour);
    forall q ensures Target(b, p, q) <==> q == Pos(p.pos.x, p.pos.y + f) || q == Pos(p.pos.x, p.pos.y + 2 * f) {
      if q.y == p.pos.y + f && InRange(q.x) {
        assert !HasPieceAt(b, q.x, q.y);
      }
    }
  }

  /** Each initial pawn may push exactly one or two squares forward. */
  lemma InitialPawnPushes(x: int, y: int)
    requires InRange(x) && (y == 1 || y == 6)
    ensures var f := Forward(HomeColour(y));
      forall q :: q in AvailableMoves(Initial(), InitialId(Pos(x, y))) <==>
        q == Pos(x, y + f) || q == Pos(x, y + 2 * f)
  {
    var f := Forward(HomeColour(y));
    InitialAt(x, y);
    InitialRankEmpty(y + f);
    InitialRankEmpty(y + 2 * f);
    PawnOnOpenFile(Initial(), InitialId(Pos(x, y)));
  }
}

=== FILE: oracle.dfy ===
/**
 * The legality oracle of ChessBoard.kt: `isMoveForbidden`, which plays a move
 * on the board, asks `isCheck` and takes it back, and `isMate`, which asks
 * the oracle about every available move of every piece of one colour. Both
 * mutate the board as they go, so each returns the board it leaves behind.
 */
module ChessOracle {
  import opened Results
  import opened ChessGeometry
  import opened ChessBoard
  import opened ChessAttacks
  import opened ChessMoves
  import opened ChessMutation

  /**
   * `isMoveForbidden(piece, nx, ny)`: a king on the destination forbids the
   * move; otherwise the move of whatever stands on the piece's square is
   * simulated, and a logic error of the simulation forbids it too. After a
   * successful simulation the verdict is `isCheck` of the piece's colour,
   * and the move is reverted. Faults other than logic errors propagate.
   */
  function IsMoveForbidden(b: Board, id: PieceId, nx: int, ny: int): (r: Result<(bool, Board), Fault>)
    requires Valid(b) && id in b.table
    ensures r.Ok? ==> Valid(r.value.1) && Extends(b, r.value.1)
  {
    var dst :- Get(b, nx, ny);
    if KindAt(b, dst) == Some(King) then Ok((true, b))
    else
      var p := b.table[id];
      var sim := SimulateMove(b, p.pos.x, p.pos.y, nx, ny);
      if sim == Err(LogicError) then Ok((true, b))
      else
        var (b1, s) :- sim;
        var checked := IsCheck(b1, p.colour);
        var b2 :- RevertMove(b1, s);
        RevertValid(b1, s);
        ExtendsTrans(b, b1, b2);
        Ok((checked, b2))
  }

  /** The position of a piece, as the coordinates `simulateMove` is called with. */
  function From(b: Board, id: PieceId): Pos
    requires id in b.table
  {
    b.table[id].pos
  }

  /** A king on an on-board destination forbids the move and leaves the board untouched. */
  lemma ForbiddenOnKing(b: Board, id: PieceId, nx: int, ny: int)
    requires Valid(b) && id in b.table && OnBoard(Pos(nx, ny))
    requires Pos(nx, ny) in b.cells && b.table[b.cells[Pos(nx, ny)]].kind == King
    ensures IsMoveForbidden(b, id, nx, ny) == Ok((true, b))
  {
  }

  /**
   * A move the guards of `simulateMove` reject (an empty source square, a
   * friendly piece on the destination) is forbidden, and the board is left
   * untouched.
   */
  lemma ForbiddenWhenGuardFails(b: Board, id: PieceId, nx: int, ny: int)
    requires Valid(b) && id in b.table && OnBoard(Pos(nx, ny))
    requires GuardFails(b, From(b, id).x, From(b, id).y, nx, ny)
    ensures IsMoveForbidden(b, id, nx, ny) == Ok((true, b))
  {
  }

  /**
   * A successfully simulated move is forbidden exactly when, on the board
   * the simulation produces, a live piece of the other colour attacks the
   * mover's king.
   */
  lemma ForbiddenMeansCheck(b: Board, id: PieceId, nx: int, ny: int)
    requires Valid(b) && id in b.table
    requires SimulateMove(b, From(b, id).x, From(b, id).y, nx, ny).Ok?
    requires IsMoveForbidden(b, id, nx, ny).Ok?
    ensures var c := b.table[id].colour;
      var b1 := SimulateMove(b, From(b, id).x, From(b, id).y, nx, ny).value.0;
      IsMoveForbidden(b, id, nx, ny).value.0 <==>
        exists a :: a in b1.live && b1.table[a].colour == Not(c) && Attacks(b1, b1.table[a], b1.table[KingOf(b1, c)].pos)
  {
  }

  /**
   * Asking about a plain move leaves the grid as it was, returns a captured
   * piece to the live set and leaves the moved piece with `hasMoved` false.
   */
  lemma ForbiddenPlainRestores(b: Board, id: PieceId, nx: int, ny: int)
    requires Valid(b) && id in b.table
    requires SimulateMove(b, From(b, id).x, From(b, id).y, nx, ny).Ok?
    requires Plain(SimulateMove(b, From(b, id).x, From(b, id).y, nx, ny).value.1)
    ensures var r := IsMoveForbidden(b, id, nx, ny);
      && r.Ok?
      && From(b, id) in b.cells
      && var m := b.cells[From(b, id)];
      && r.value.1 == b.(
           table := b.table[m := b.table[m].(hasMoved := false)],
           live := if Pos(nx, ny) in b.cells then b.live + {b.cells[Pos(nx, ny)]} else b.live)
  {
    PlainRoundTrip(b, From(b, id).x, From(b, id).y, nx, ny);
  }

  /**
   * Asking about a promotion leaves every square with a piece of the same
   * kind and colour, but the pawn on the source is a new object outside the
   * live set, and the original pawn has left the live set too.
   */
  lemma ForbiddenPromotionReplacesPawn(b: Board, id: PieceId, nx: int, ny: int)
    requires Valid(b) && id in b.table
    requires SimulateMove(b, From(b, id).x, From(b, id).y, nx, ny).Ok?
    requires SimulateMove(b, From(b, id).x, From(b, id).y, nx, ny).value.1.hasPromoted
    ensures var r := IsMoveForbidden(b, id, nx, ny);
      && r.Ok?
      && Occupancy(r.value.1) == Occupancy(b)
      && From(b, id) in b.cells && From(b, id) in r.value.1.cells
      && var pawn := r.value.1.cells[From(b, id)];
      && pawn !in b.table && pawn !in r.value.1.live
      && b.cells[From(b, id)] !in r.value.1.live
  {
    PromotionRoundTrip(b, From(b, id).x, From(b, id).y, nx, ny);
  }

  /**
   * Asking about a castling puts king and rook back with both `hasMoved`
   * flags cleared, but empties the square the rook was moved to.
   */
  lemma ForbiddenCastleRestores(b: Board, id: PieceId, nx: int, ny: int)
    requires Valid(b) && id in b.table
    requires SimulateMove(b, From(b, id).x, From(b, id).y, nx, ny).Ok?
    requires SimulateMove(b, From(b, id).x, From(b, id).y, nx, ny).value.1.castle
    ensures var r := IsMoveForbidden(b, id, nx, ny);
      var from := Pos(nx + CastleMul(nx), ny);
      && r.Ok?
      && From(b, id) in b.cells && from in b.cells
      && var k := b.cells[From(b, id)];
      && var rk := b.cells[from];
      && r.value.1.cells == b.cells - {Pos(nx - CastleMul(nx), ny)}
      && r.value.1.table == b.table[k := b.table[k].(hasMoved := false)][rk := b.table[rk].(hasMoved := false)]
  {
    CastleRoundTrip(b, From(b, id).x, From(b, id).y, nx, ny);
  }

  // ---------------------------------------------------------------------
  // `isMate`.
  // ---------------------------------------------------------------------

  /**
   * `availableMoves().any { !isMoveForbidden(piece, it) }` of one piece: the
   * moves are asked in list order on the board the previous question left
   * behind, and the first allowed one stops the search. "Found" means some
   * listed move was allowed on the board it was asked on, and the board
   * left is the one that question left; "not found" means every listed move
   * was forbidden, one after the other.
   */
  function AnyAllowed(b: Board, id: PieceId, moves: seq<Pos>): (r: Result<(bool, Board), Fault>)
    requires Valid(b) && id in b.table
    ensures r.Ok? ==> Valid(r.value.1) && Extends(b, r.value.1)
    ensures r.Ok? ==> Searched(b, id, moves, r.value.0, r.value.1)
    decreases |moves|
  {
    if moves == [] then Ok((false, b))
    else
      var (forbidden, b1) :- IsMoveForbidden(b, id, moves[0].x, moves[0].y);
      if !forbidden then
        AllowedFirst(b, id, moves, b1);
        Ok((true, b1))
      else
        var r :- AnyAllowed(b1, id, moves[1..]);
        ExtendsTrans(b, b1, r.1);
        if r.0 then
          FoundLater(b, id, moves, b1, r.1);
          Ok(r)
        else
          NoneFound(b, id, moves, b1, r.1);
          Ok(r)
  }

  /**
   * The board `moves[k]` is asked about on: the board the oracle left after
   * forbidding each of the `k` moves before it; None when one of them was
   * allowed or raised.
   */
  function Asked(b: Board, id: PieceId, moves: seq<Pos>, k: nat): (r: Option<Board>)
    requires Valid(b) && id in b.table && k <= |moves|
    ensures r.Some? ==> Valid(r.value) && Extends(b, r.value)
    decreases k
  {
    if k == 0 then Some(b)
    else
      var q := IsMoveForbidden(b, id, moves[0].x, moves[0].y);
      if q.Err? || !q.value.0 then None
      else
        var r := Asked(q.value.1, id, moves[1..], k - 1);
        if r.None? then r else (ExtendsTrans(b, q.value.1, r.value); r)
  }

  /** The oracle's verdict on `moves[k]`, asked on the board `Asked` gives, and the board it leaves. */
  function Answer(b: Board, id: PieceId, moves: seq<Pos>, k: nat): Option<(bool, Board)>
    requires Valid(b) && id in b.table && k < |moves|
  {
    var a := Asked(b, id, moves, k);
    if a.None? then None
    else
      var q := IsMoveForbidden(a.value, id, moves[k].x, moves[k].y);
      if q.Ok? then Some(q.value) else None
  }

  /**
   * The outcome of a search through `moves`: when `found`, some listed move
   * was allowed and `b2` is the board that question left; otherwise every
   * listed move was forbidden and `b2` is the board the last one left.
   */
  predicate Searched(b: Board, id: PieceId, moves: seq<Pos>, found: bool, b2: Board)
    requires Valid(b) && id in b.table
  {
    && (found ==> Allowed(b, id, moves, b2))
    && (!found ==> AllRefused(b, id, moves) && Asked(b, id, moves, |moves|) == Some(b2))
  }

  /** Some listed move was allowed on the board it was asked on, and that question left `b2`. */
  predicate Allowed(b: Board, id: PieceId, moves: seq<Pos>, b2: Board)
    requires Valid(b) && id in b.table
  {
    exists k :: 0 <= k < |moves| && Answer(b, id, moves, k) == Some((false, b2))
  }

  /** Every listed move was forbidden on the board it was asked on. */
  predicate AllRefused(b: Board, id: PieceId, moves: seq<Pos>)
    requires Valid(b) && id in b.table
  {
    forall k :: 0 <= k < |moves| ==> Answer(b, id, moves, k).Some? && Answer(b, id, moves, k).value.0
  }

  /** The first move is asked on the board the search starts from. */
  lemma AnswerFirst(b: Board, id: PieceId, moves: seq<Pos>)
    requires Valid(b) && id in b.table && moves != []
    ensures var q := IsMoveForbidden(b, id, moves[0].x, moves[0].y);
      Answer(b, id, moves, 0) == if q.Ok? then Some(q.value) else None
  {
    assert Asked(b, id, moves, 0) == Some(b);
  }

  /** Asking past a forbidden first move is asking the rest of the list on the board it left. */
  lemma AnswerShift(b: Board, id: PieceId, moves: seq<Pos>, b1: Board, k: nat)
    requires Valid(b) && id in b.table && 0 < k < |moves|
    requires IsMoveForbidden(b, id, moves[0].x, moves[0].y) == Ok((true, b1))
    ensures Answer(b, id, moves, k) == Answer(b1, id, moves[1..], k - 1)
  {
    assert moves[1..][k - 1] == moves[k];
    AskedShift(b, id, moves, b1, k);
  }

  /** A move allowed after a forbidden first move is allowed in the whole list. */
  lemma FoundLater(b: Board, id: PieceId, moves: seq<Pos>, b1: Board, b2: Board)
    requires Valid(b) && id in b.table && moves != []
    requires IsMoveForbidden(b, id, moves[0].x, moves[0].y) == Ok((true, b1))
    requires Searched(b1, id, moves[1..], true, b2)
    ensures Searched(b, id, moves, true, b2)
  {
    AllowedStep(b, id, moves, b1, b2);
  }

  /** A forbidden first move followed by a list of forbidden moves forbids the whole list. */
  lemma NoneFound(b: Board, id: PieceId, moves: seq<Pos>, b1: Board, b2: Board)
    requires Valid(b) && id in b.table && moves != []
    requires IsMoveForbidden(b, id, moves[0].x, moves[0].y) == Ok((true, b1))
    requires Searched(b1, id, moves[1..], false, b2)
    ensures Searched(b, id, moves, false, b2)
  {
    assert AllRefused(b1, id, moves[1..]) && Asked(b1, id, moves[1..], |moves[1..]|) == Some(b2);
    RefusedStep(b, id, moves, b1);
    AskedShift(b, id, moves, b1, |moves|);
    assert |moves[1..]| == |moves| - 1;
  }

  lemma AskedShift(b: Board, id: PieceId, moves: seq<Pos>, b1: Board, k: nat)
    requires Valid(b) && id in b.table && 0 < k <= |moves|
    requires IsMoveForbidden(b, id, moves[0].x, moves[0].y) == Ok((true, b1))
    ensures Asked(b, id, moves, k) == Asked(b1, id, moves[1..], k - 1)
  {
  }

  lemma AllowedFirst(b: Board, id: PieceId, moves: seq<Pos>, b1: Board)
    requires Valid(b) && id in b.table && moves != []
    requires IsMoveForbidden(b, id, moves[0].x, moves[0].y) == Ok((false, b1))
    ensures Allowed(b, id, moves, b1)
  {
    AnswerFirst(b, id, moves);
  }

  lemma AllowedStep(b: Board, id: PieceId, moves: seq<Pos>, b1: Board, b2: Board)
    requires Valid(b) && id in b.table && moves != []
    requires IsMoveForbidden(b, id, moves[0].x, moves[0].y) == Ok((true, b1))
    requires Allowed(b1, id, moves[1..], b2)
    ensures Allowed(b, id, moves, b2)
  {
    var k :| 0 <= k < |moves[1..]| && Answer(b1, id, moves[1..], k) == Some((false, b2));
    AnswerShift(b, id, moves, b1, k + 1);
    assert Answer(b, id, moves, k + 1) == Some((false, b2));
  }

  lemma RefusedStep(b: Board, id: PieceId, moves: seq<Pos>, b1: Board)
    requires Valid(b) && id in b.table && moves != []
    requires IsMoveForbidden(b, id, moves[0].x, moves[0].y) == Ok((true, b1))
    requires AllRefused(b1, id, moves[1..])
    ensures AllRefused(b, id, moves)
  {
    forall k | 0 <= k < |moves|
      ensures Answer(b, id, moves, k).Some? && Answer(b, id, moves, k).value.0
    {
      if k == 0 {
        AnswerFirst(b, id, moves);
      } else {
        RefusedLater(b, id, moves, b1, k);
      }
    }
  }

  lemma RefusedLater(b: Board, id: PieceId, moves: seq<Pos>, b1: Board, k: nat)
    requires Valid(b) && id in b.table && 0 < k < |moves|
    requires IsMoveForbidden(b, id, moves[0].x, moves[0].y) == Ok((true, b1))
    requires AllRefused(b1, id, moves[1..])
    ensures Answer(b, id, moves, k).Some? && Answer(b, id, moves, k).value.0
  {
    AnswerShift(b, id, moves, b1, k);
    assert Answer(b1, id, moves[1..], k - 1).Some?;
  }

  /** `order` lists the set `s`, each element once: the iteration order of a copied HashSet. */
  predicate Enumerates(order: seq<PieceId>, s: set<PieceId>) {
    && (forall id :: id in s ==> id in order)
    && (forall i :: 0 <= i < |order| ==> order[i] in s)
    && (forall i, j :: 0 <= i < j < |order| ==> order[i] != order[j])
  }

  /** Every identity of `order` is a known piece of `b`. */
  predicate Known(b: Board, order: seq<PieceId>) {
    forall i :: 0 <= i < |order| ==> order[i] in b.table
  }

  /**
   * `none { piece.colour == c && any-allowed }` over the remaining pieces:
   * true when no piece of colour `c` has an allowed move.
   */
  function MateFold(b: Board, c: Colour, order: seq<PieceId>): (r: Result<(bool, Board), Fault>)
    requires Valid(b) && Known(b, order)
    ensures r.Ok? ==> Valid(r.value.1) && Extends(b, r.value.1)
    ensures r.Ok? ==> Concluded(b, c, order, r.value.0, r.value.1)
    decreases |order|
  {
    if order == [] then Ok((true, b))
    else
      var id := order[0];
      if b.table[id].colour != c then
        var r :- MateFold(b, c, order[1..]);
        MateNext(b, c, order, b, r.0, r.1);
        Ok(r)
      else
        var (found, b1) :- AnyAllowed(b, id, AvailableMoves(b, id));
        if found then
          MateFound(b, c, order, b1);
          Ok((false, b1))
        else
          KnownStable(b, b1, order);
          var r :- MateFold(b1, c, order[1..]);
          ExtendsTrans(b, b1, r.1);
          MateNext(b, c, order, b1, r.0, r.1);
          Ok(r)
  }

  /**
   * `isMate(c)`, iterating the live pieces in the order `order` of the copied
   * set. "Not mate" names a piece of colour `c` and one of its listed moves
   * the oracle allowed on the board that piece was examined on; "mate" says
   * every listed move of every piece of colour `c` was forbidden on the
   * board it was asked on.
   */
  function IsMate(b: Board, c: Colour, order: seq<PieceId>): (r: Result<(bool, Board), Fault>)
    requires Valid(b) && Enumerates(order, b.live)
    ensures r.Ok? ==> Valid(r.value.1) && Extends(b, r.value.1)
    ensures r.Ok? && !r.value.0 ==> exists i :: 0 <= i < |order| && FoundAt(b, c, order, i, r.value.1)
    ensures r.Ok? && r.value.0 ==> forall i :: 0 <= i < |order| ==> ClearedAt(b, c, order, i)
    ensures r.Ok? && r.value.0 ==> Examined(b, c, order, |order|) == Some(r.value.1)
  {
    MateFold(b, c, order)
  }

  /** A board that keeps every piece object knows every piece `order` names. */
  lemma KnownStable(b: Board, b1: Board, order: seq<PieceId>)
    requires Known(b, order) && Extends(b, b1)
    ensures Known(b1, order)
  {
  }

  /**
   * The board piece `order[i]` is examined on: the board the searches of the
   * earlier pieces of colour `c` left behind, each of which found no allowed
   * move (pieces of the other colour are passed over); None once one of
   * them found one or raised.
   */
  function Examined(b: Board, c: Colour, order: seq<PieceId>, i: nat): (r: Option<Board>)
    requires Valid(b) && Known(b, order) && i <= |order|
    ensures r.Some? ==> Valid(r.value) && Extends(b, r.value) && Known(r.value, order)
    decreases i
  {
    if i == 0 then Some(b)
    else
      var id := order[0];
      if b.table[id].colour != c then Examined(b, c, order[1..], i - 1)
      else
        var a := AnyAllowed(b, id, AvailableMoves(b, id));
        if a.Err? || a.value.0 then None
        else
          KnownStable(b, a.value.1, order);
          var r := Examined(a.value.1, c, order[1..], i - 1);
          if r.None? then r else (ExtendsTrans(b, a.value.1, r.value); r)
  }

  /**
   * Piece `order[i]` has colour `c` and, on the board it is examined on, one
   * of its listed moves was allowed, by a question that left `b2`.
   */
  predicate FoundAt(b: Board, c: Colour, order: seq<PieceId>, i: nat, b2: Board)
    requires Valid(b) && Known(b, order) && i < |order|
  {
    var e := Examined(b, c, order, i);
    && e.Some? && e.value.table[order[i]].colour == c
    && Allowed(e.value, order[i], AvailableMoves(e.value, order[i]), b2)
  }

  /**
   * Piece `order[i]` is reached, and it is of the other colour or each of its
   * listed moves was forbidden on the board it was asked on.
   */
  predicate ClearedAt(b: Board, c: Colour, order: seq<PieceId>, i: nat)
    requires Valid(b) && Known(b, order) && i < |order|
  {
    var e := Examined(b, c, order, i);
    && e.Some?
    && (e.value.table[order[i]].colour == c ==> AllRefused(e.value, order[i], AvailableMoves(e.value, order[i])))
  }

  /** The outcome of the fold: a piece that found an allowed move, or every piece cleared and `b2` the board left. */
  predicate Concluded(b: Board, c: Colour, order: seq<PieceId>, mate: bool, b2: Board)
    requires Valid(b) && Known(b, order)
  {
    && (!mate ==> exists i :: 0 <= i < |order| && FoundAt(b, c, order, i, b2))
    && (mate ==> (forall i :: 0 <= i < |order| ==> ClearedAt(b, c, order, i)) && Examined(b, c, order, |order|) == Some(b2))
  }

  /** The board after the first piece of `order`: unchanged for the other colour, else what its unsuccessful search left. */
  predicate PassedFirst(b: Board, c: Colour, order: seq<PieceId>, b1: Board)
    requires Valid(b) && Known(b, order) && order != []
  {
    var id := order[0];
    if b.table[id].colour != c then b1 == b
    else AnyAllowed(b, id, AvailableMoves(b, id)) == Ok((false, b1))
  }

  lemma ExaminedShift(b: Board, c: Colour, order: seq<PieceId>, b1: Board, i: nat)
    requires Valid(b) && Known(b, order) && 0 < i <= |order|
    requires PassedFirst(b, c, order, b1)
    ensures Valid(b1) && Known(b1, order[1..])
    ensures Examined(b, c, order, i) == Examined(b1, c, order[1..], i - 1)
  {
  }

  /** A search that finds an allowed move for the first piece concludes "not mate" at that piece. */
  lemma MateFound(b: Board, c: Colour, order: seq<PieceId>, b1: Board)
    requires Valid(b) && Known(b, order) && order != []
    requires b.table[order[0]].colour == c
    requires AnyAllowed(b, order[0], AvailableMoves(b, order[0])) == Ok((true, b1))
    ensures Concluded(b, c, order, false, b1)
  {
    assert Examined(b, c, order, 0) == Some(b);
    assert FoundAt(b, c, order, 0, b1);
  }

  /** Past the first piece, the fold over the rest concludes the same for the whole of `order`. */
  lemma MateNext(b: Board, c: Colour, order: seq<PieceId>, b1: Board, mate: bool, b2: Board)
    requires Valid(b) && Known(b, order) && order != []
    requires PassedFirst(b, c, order, b1)
    requires Valid(b1) && Known(b1, order[1..])
    requires Concluded(b1, c, order[1..], mate, b2)
    ensures Concluded(b, c, order, mate, b2)
  {
    if mate {
      MateClearedNext(b, c, order, b1);
      MateEndNext(b, c, order, b1, b2);
    } else {
      MateFoundNext(b, c, order, b1, b2);
    }
  }

  lemma MateEndNext(b: Board, c: Colour, order: seq<PieceId>, b1: Board, b2: Board)
    requires Valid(b) && Known(b, order) && order != []
    requires PassedFirst(b, c, order, b1)
    requires Valid(b1) && Known(b1, order[1..])
    requires Examined(b1, c, order[1..], |order[1..]|) == Some(b2)
    ensures Examined(b, c, order, |order|) == Some(b2)
  {
    ExaminedShift(b, c, order, b1, |order|);
    assert |order[1..]| == |order| - 1;
  }

  lemma MateFoundNext(b: Board, c: Colour, order: seq<PieceId>, b1: Board, b2: Board)
    requires Valid(b) && Known(b, order) && order != []
    requires PassedFirst(b, c, order, b1)
    requires Valid(b1) && Known(b1, order[1..])
    requires exists j :: 0 <= j < |order[1..]| && FoundAt(b1, c, order[1..], j, b2)
    ensures exists i :: 0 <= i < |order| && FoundAt(b, c, order, i, b2)
  {
    var j :| 0 <= j < |order[1..]| && FoundAt(b1, c, order[1..], j, b2);
    ExaminedShift(b, c, order, b1, j + 1);
    var id := order[j + 1];
    assert order[1..][j] == id;
    var e := Examined(b1, c, order[1..], j).value;
    assert e.table[id].colour == c && Allowed(e, id, AvailableMoves(e, id), b2);
    assert Examined(b, c, order, j + 1) == Some(e);
    assert FoundAt(b, c, order, j + 1, b2);
  }

  lemma MateClearedNext(b: Board, c: Colour, order: seq<PieceId>, b1: Board)
    requires Valid(b) && Known(b, order) && order != []
    requires PassedFirst(b, c, order, b1)
    requires Valid(b1) && Known(b1, order[1..])
    requires forall j :: 0 <= j < |order[1..]| ==> ClearedAt(b1, c, order[1..], j)
    ensures forall i :: 0 <= i < |order| ==> ClearedAt(b, c, order, i)
  {
    forall i | 0 <= i < |order|
      ensures ClearedAt(b, c, order, i)
    {
      if i == 0 {
        assert Examined(b, c, order, 0) == Some(b);
      } else {
        ExaminedShift(b, c, order, b1, i);
        assert order[1..][i - 1] == order[i];
        assert ClearedAt(b1, c, order[1..], i - 1);
      }
    }
  }

  /** The pieces of `order` that have colour `c` on `b`. */
  function OfColour(b: Board, c: Colour, order: seq<PieceId>): (r: seq<PieceId>)
    requires Known(b, order)
    ensures Known(b, r)
    ensures forall i :: 0 <= i < |r| ==> b.table[r[i]].colour == c
  {
    if order == [] then []
    else if b.table[order[0]].colour == c then [order[0]] + OfColour(b, c, order[1..])
    else OfColour(b, c, order[1..])
  }

  /** A board that keeps every piece object keeps the colour filter. */
  lemma {:induction false} OfColourStable(b: Board, b1: Board, c: Colour, order: seq<PieceId>)
    requires Known(b, order) && Extends(b, b1)
    ensures Known(b1, order) && OfColour(b1, c, order) == OfColour(b, c, order)
    decreases |order|
  {
    if order != [] {
      OfColourStable(b, b1, c, order[1..]);
    }
  }

  /**
   * Pieces of the other colour are skipped without touching the board:
   * the fold over `order` equals the fold over its pieces of colour `c`.
   */
  lemma {:induction false} MateSkipsOtherColour(b: Board, c: Colour, order: seq<PieceId>)
    requires Valid(b) && Known(b, order)
    ensures MateFold(b, c, order) == MateFold(b, c, OfColour(b, c, order))
    decreases |order|
  {
    if order != [] {
      var id := order[0];
      if b.table[id].colour == c {
        var a := AnyAllowed(b, id, AvailableMoves(b, id));
        if a.Ok? && !a.value.0 {
          var b1 := a.value.1;
          OfColourStable(b, b1, c, order[1..]);
          MateSkipsOtherColour(b1, c, order[1..]);
        }
        SkipsOwnHead(b, c, order);
      } else {
        MateSkipsOtherColour(b, c, order[1..]);
        assert OfColour(b, c, order) == OfColour(b, c, order[1..]);
      }
    }
  }

  /** The colour-`c` head step of `MateSkipsOtherColour`. */
  lemma SkipsOwnHead(b: Board, c: Colour, order: seq<PieceId>)
    requires Valid(b) && Known(b, order) && order != [] && b.table[order[0]].colour == c
    requires var a := AnyAllowed(b, order[0], AvailableMoves(b, order[0]));
      a.Ok? && !a.value.0 ==> MateFold(a.value.1, c, order[1..]) == MateFold(a.value.1, c, OfColour(b, c, order[1..]))
    ensures MateFold(b, c, order) == MateFold(b, c, OfColour(b, c, order))
  {
    var o := OfColour(b, c, order);
    assert o == [order[0]] + OfColour(b, c, order[1..]);
    assert o[0] == order[0] && o[1..] == OfColour(b, c, order[1..]);
    MateSameHead(b, c, order, o);
  }

  /** Two orders that start with the same piece of colour `c` fold alike when their tails do after that piece's search. */
  lemma MateSameHead(b: Board, c: Colour, o1: seq<PieceId>, o2: seq<PieceId>)
    requires Valid(b) && Known(b, o1) && Known(b, o2) && o1 != [] && o2 != [] && o1[0] == o2[0]
    requires b.table[o1[0]].colour == c
    requires var a := AnyAllowed(b, o1[0], AvailableMoves(b, o1[0]));
      a.Ok? && !a.value.0 ==> MateFold(a.value.1, c, o1[1..]) == MateFold(a.value.1, c, o2[1..])
    ensures MateFold(b, c, o1) == MateFold(b, c, o2)
  {
  }

  /**
   * When no piece of colour `c` in `order` has an available move, the fold
   * answers "mate" and leaves the board untouched.
   */
  lemma {:induction false} MateWithoutMoves(b: Board, c: Colour, order: seq<PieceId>)
    requires Valid(b) && Known(b, order)
    requires forall i :: 0 <= i < |order| && b.table[order[i]].colour == c ==> AvailableMoves(b, order[i]) == []
    ensures MateFold(b, c, order) == Ok((true, b))
    decreases |order|
  {
    if order != [] {
      MateWithoutMoves(b, c, order[1..]);
    }
  }

  /** A board without live pieces of colour `c` is always "mate" for `c`, and the board stays as it is. */
  lemma NoPiecesIsMate(b: Board, c: Colour, order: seq<PieceId>)
    requires Valid(b) && Enumerates(order, b.live)
    requires forall id :: id in b.live ==> b.table[id].colour != c
    ensures IsMate(b, c, order) == Ok((true, b))
  {
    MateWithoutMoves(b, c, order);
  }

  /** "Not mate" is only answered when some piece of `order` has colour `c`. */
  lemma NotMateHasWitness(b: Board, c: Colour, order: seq<PieceId>)
    requires Valid(b) && Known(b, order)
    requires MateFold(b, c, order).Ok? && !MateFold(b, c, order).value.0
    ensures exists i :: 0 <= i < |order| && b.table[order[i]].colour == c
  {
    var b2 := MateFold(b, c, order).value.1;
    assert Concluded(b, c, order, false, b2);
    var i :| 0 <= i < |order| && FoundAt(b, c, order, i, b2);
    var e := Examined(b, c, order, i).value;
    assert e.table[order[i]].colour == c && Extends(b, e);
  }

  /**
   * The first allowed move stops the search: if the first move of a piece of
   * colour `c` that `order` names first is allowed, the answer is "not mate".
   */
  lemma FirstAllowedIsNotMate(b: Board, c: Colour, order: seq<PieceId>)
    requires Valid(b) && Known(b, order) && order != []
    requires b.table[order[0]].colour == c
    requires var moves := AvailableMoves(b, order[0]);
      moves != [] && IsMoveForbidden(b, order[0], moves[0].x, moves[0].y) == Ok((false, b))
    ensures MateFold(b, c, order) == Ok((false, b))
  {
  }
}

=== FILE: rays.dfy ===
/**
 * The ray walks of ChessPiece.kt: the `while` loops with which Queen, Rook
 * and Bishop list their moves and test whether they can hit a square.
 */
module ChessRays {
  import opened Results
  import opened ChessGeometry
  import opened ChessBoard

  /** No piece stands on the squares 1 .. k-1 steps away from `from`. */
  predicate ClearBetween(b: Board, from: Pos, dx: int, dy: int, k: int)
  {
    forall j :: 1 <= j < k ==> !HasPieceAt(b, Step(from, dx, dy, j).x, Step(from, dx, dy, j).y)
  }

  /** A piece of colour `c` on `from` can slide `k` steps in direction (dx, dy). */
  predicate Reaches(b: Board, c: Colour, from: Pos, dx: int, dy: int, k: int)
  {
    var s := Step(from, dx, dy, k);
    && k >= 1
    && OnBoard(s)
    && !HasColouredPieceAt(b, s.x, s.y, c)
    && ClearBetween(b, from, dx, dy, k)
  }

  /**
   * One ray of a sliding piece of colour `c`: the squares after `from` up to
   * the board edge, stopping before a friendly piece and on an opposing one.
   * The i-th square is i+1 steps out, on the board and not friendly, and
   * every square before the last is empty.
   */
  function Ray(b: Board, c: Colour, from: Pos, dx: int, dy: int): (r: seq<Pos>)
    requires OnBoard(from) && IsDir(dx, dy)
    decreases Span(from, dx, dy)
    ensures forall i :: 0 <= i < |r| ==>
      r[i] == Step(from, dx, dy, i + 1) && OnBoard(r[i]) && !HasColouredPieceAt(b, r[i].x, r[i].y, c)
    ensures forall i :: 0 <= i < |r| - 1 ==> !HasPieceAt(b, r[i].x, r[i].y)
  {
    var n := Pos(from.x + dx, from.y + dy);
    StepsShift(from, n, dx, dy);
    if !OnBoard(n) then []
    else if HasPieceAt(b, n.x, n.y) then
      (if ColourAt(b, n.x, n.y) == Some(c) then [] else [n])
    else [n] + Ray(b, c, n, dx, dy)
  }

  /** Stepping j times from the next square `n` is stepping j+1 times, for every j. */
  lemma StepsShift(from: Pos, n: Pos, dx: int, dy: int)
    requires n == Pos(from.x + dx, from.y + dy)
    ensures forall j :: Step(n, dx, dy, j) == Step(from, dx, dy, j + 1)
  {
    forall j ensures Step(n, dx, dy, j) == Step(from, dx, dy, j + 1) {
      StepShift(from, dx, dy, j);
    }
  }

  /** A ray through an empty first square is that square followed by the ray from it. */
  lemma RayHeadOpen(b: Board, c: Colour, from: Pos, dx: int, dy: int)
    requires OnBoard(from) && IsDir(dx, dy)
    requires var n := Pos(from.x + dx, from.y + dy);
      OnBoard(n) && !HasPieceAt(b, n.x, n.y)
    ensures var n := Pos(from.x + dx, from.y + dy);
      Ray(b, c, from, dx, dy) == [n] + Ray(b, c, n, dx, dy)
  {
  }

  /**
   * Why a ray of length `len` ends: the next square is off the board or
   * friendly, or the last square listed holds an opposing piece.
   */
  predicate RayEnds(b: Board, c: Colour, from: Pos, dx: int, dy: int, len: int) {
    var s := Step(from, dx, dy, len + 1);
    var l := Step(from, dx, dy, len);
    || !OnBoard(s)
      || HasColouredPieceAt(b, s.x, s.y, c)
      || (len > 0 && HasPieceAt(b, l.x, l.y))
  }

  /** Every ray ends for one of the reasons `RayEnds` lists. */
  lemma {:induction false} RayStop(b: Board, c: Colour, from: Pos, dx: int, dy: int)
    requires OnBoard(from) && IsDir(dx, dy)
    decreases Span(from, dx, dy)
    ensures RayEnds(b, c, from, dx, dy, |Ray(b, c, from, dx, dy)|)
  {
    var n := Pos(from.x + dx, from.y + dy);
    if !OnBoard(n) || HasPieceAt(b, n.x, n.y) {
      RayStopsAtOnce(b, c, from, dx, dy);
    } else {
      RayStop(b, c, n, dx, dy);
      RayHeadOpen(b, c, from, dx, dy);
      assert n == Step(from, dx, dy, 1);
      RayEndsShift(b, c, from, dx, dy, |Ray(b, c, n, dx, dy)|);
    }
  }

  /** A ray whose first square is off the board or occupied ends there. */
  lemma RayStopsAtOnce(b: Board, c: Colour, from: Pos, dx: int, dy: int)
    requires OnBoard(from) && IsDir(dx, dy)
    requires var n := Pos(from.x + dx, from.y + dy);
      !OnBoard(n) || HasPieceAt(b, n.x, n.y)
    ensures RayEnds(b, c, from, dx, dy, |Ray(b, c, from, dx, dy)|)
  {
    var n := Pos(from.x + dx, from.y + dy);
    assert n == Step(from, dx, dy, 1);
    if OnBoard(n) && ColourAt(b, n.x, n.y) != Some(c) {
      assert Ray(b, c, from, dx, dy) == [n];
    } else {
      assert Ray(b, c, from, dx, dy) == [];
    }
  }

  /** A reason to end `len` squares after the next square is one to end `len + 1` squares after `from`. */
  lemma RayEndsShift(b: Board, c: Colour, from: Pos, dx: int, dy: int, len: nat)
    requires RayEnds(b, c, Step(from, dx, dy, 1), dx, dy, len)
    ensures RayEnds(b, c, from, dx, dy, len + 1)
  {
    StepShift(from, dx, dy, len + 1);
    StepShift(from, dx, dy, len);
  }

  /** Every square of a ray is one the piece can slide to. */
  lemma RayListed(b: Board, c: Colour, from: Pos, dx: int, dy: int, i: int)
    requires OnBoard(from) && IsDir(dx, dy)
    requires 0 <= i < |Ray(b, c, from, dx, dy)|
    ensures Ray(b, c, from, dx, dy)[i] == Step(from, dx, dy, i + 1)
    ensures Reaches(b, c, from, dx, dy, i + 1)
  {
    var r := Ray(b, c, from, dx, dy);
    forall j | 1 <= j < i + 1
      ensures !HasPieceAt(b, Step(from, dx, dy, j).x, Step(from, dx, dy, j).y)
    {
      assert r[j - 1] == Step(from, dx, dy, j);
    }
  }

  /** Every square the piece can slide to is on the ray. */
  lemma RayComplete(b: Board, c: Colour, from: Pos, dx: int, dy: int, k: int)
    requires OnBoard(from) && IsDir(dx, dy)
    requires Reaches(b, c, from, dx, dy, k)
    ensures k <= |Ray(b, c, from, dx, dy)|
    ensures Ray(b, c, from, dx, dy)[k - 1] == Step(from, dx, dy, k)
  {
    var r := Ray(b, c, from, dx, dy);
    RayStop(b, c, from, dx, dy);
    if |r| < k {
      StepBetweenOnBoard(from, dx, dy, |r| + 1, k);
      ReachesPastEnd(b, c, from, dx, dy, |r|, k);
      assert false;
    }
  }

  /** A square the piece can slide to leaves no reason for a ray to end before it. */
  lemma ReachesPastEnd(b: Board, c: Colour, from: Pos, dx: int, dy: int, len: int, k: int)
    requires Reaches(b, c, from, dx, dy, k) && 0 <= len < k
    requires OnBoard(Step(from, dx, dy, len + 1))
    ensures !RayEnds(b, c, from, dx, dy, len)
  {
    var s := Step(from, dx, dy, len + 1);
    if len + 1 < k {
      assert !HasPieceAt(b, s.x, s.y);
    }
    if len > 0 {
      var l := Step(from, dx, dy, len);
      assert !HasPieceAt(b, l.x, l.y);
    }
  }

  /** A square is on a ray exactly when the piece can slide to it. */
  lemma RayMembership(b: Board, c: Colour, from: Pos, dx: int, dy: int)
    requires OnBoard(from) && IsDir(dx, dy)
    ensures forall s :: s in Ray(b, c, from, dx, dy) <==>
      exists k :: s == Step(from, dx, dy, k) && Reaches(b, c, from, dx, dy, k)
  {
    var r := Ray(b, c, from, dx, dy);
    forall s ensures s in r <==> exists k :: s == Step(from, dx, dy, k) && Reaches(b, c, from, dx, dy, k) {
      if s in r {
        var i :| 0 <= i < |r| && r[i] == s;
        RayListed(b, c, from, dx, dy, i);
      }
      if k :| s == Step(from, dx, dy, k) && Reaches(b, c, from, dx, dy, k) {
        RayComplete(b, c, from, dx, dy, k);
      }
    }
  }

  /** Directions of the rook rays, in the order `Rook.availableMoves` walks them: left, right, bottom, top. */
  const RookDirs: seq<(int, int)> := [(-1, 0), (1, 0), (0, -1), (0, 1)]

  /** Directions of the bishop rays: top left, top right, bottom left, bottom right. */
  const BishopDirs: seq<(int, int)> := [(-1, 1), (1, 1), (-1, -1), (1, -1)]

  predicate AllDirs(dirs: seq<(int, int)>) {
    forall i :: 0 <= i < |dirs| ==> IsDir(dirs[i].0, dirs[i].1)
  }

  /** Some direction of `dirs` lets a piece of colour `c` on `from` slide to `s`. */
  ghost predicate SlideReaches(b: Board, c: Colour, from: Pos, dirs: seq<(int, int)>, s: Pos) {
    exists i, k :: 0 <= i < |dirs| && s == Step(from, dirs[i].0, dirs[i].1, k)
      && Reaches(b, c, from, dirs[i].0, dirs[i].1, k)
  }

  /**
   * The rays of a sliding piece, one after the other: exactly the squares some
   * direction reaches, on the board, not friendly, with only empty squares
   * strictly between.
   */
  function Slide(b: Board, c: Colour, from: Pos, dirs: seq<(int, int)>): (r: seq<Pos>)
    requires OnBoard(from) && AllDirs(dirs)
    ensures forall s :: s in r <==> SlideReaches(b, c, from, dirs, s)
  {
    if dirs == [] then []
    else
      var head := Ray(b, c, from, dirs[0].0, dirs[0].1);
      var rest := Slide(b, c, from, dirs[1..]);
      RayMembership(b, c, from, dirs[0].0, dirs[0].1);
      SlideJoin(b, c, from, dirs, head, rest);
      head + rest
  }

  /** The squares of the first ray, then those of the remaining directions, are those of all directions. */
  lemma SlideJoin(b: Board, c: Colour, from: Pos, dirs: seq<(int, int)>, head: seq<Pos>, rest: seq<Pos>)
    requires dirs != []
    requires forall s :: s in head <==>
      exists k :: s == Step(from, dirs[0].0, dirs[0].1, k) && Reaches(b, c, from, dirs[0].0, dirs[0].1, k)
    requires forall s :: s in rest <==> SlideReaches(b, c, from, dirs[1..], s)
    ensures forall s :: s in head + rest <==> SlideReaches(b, c, from, dirs, s)
  {
    forall s ensures s in head + rest <==> SlideReaches(b, c, from, dirs, s) {
      if s in head {
        var k :| s == Step(from, dirs[0].0, dirs[0].1, k) && Reaches(b, c, from, dirs[0].0, dirs[0].1, k);
        assert 0 <= 0 < |dirs|;
      } else if s in rest {
        var i, k :| 0 <= i < |dirs[1..]| && s == Step(from, dirs[1..][i].0, dirs[1..][i].1, k)
          && Reaches(b, c, from, dirs[1..][i].0, dirs[1..][i].1, k);
        assert dirs[1..][i] == dirs[i + 1];
      }
      if i, k :| (0 <= i < |dirs| && s == Step(from, dirs[i].0, dirs[i].1, k)
        && Reaches(b, c, from, dirs[i].0, dirs[i].1, k)) {
        if i > 0 {
          assert dirs[1..][i - 1] == dirs[i];
        }
      }
    }
  }

  /** Clearing a line one square further out. */
  lemma ClearShift(b: Board, from: Pos, dx: int, dy: int, k: int)
    requires k >= 1
    ensures var n := Step(from, dx, dy, 1);
      ClearBetween(b, from, dx, dy, k + 1) <==> !HasPieceAt(b, n.x, n.y) && ClearBetween(b, n, dx, dy, k)
  {
    var n := Step(from, dx, dy, 1);
    forall j ensures Step(n, dx, dy, j) == Step(from, dx, dy, j + 1) {
      StepShift(from, dx, dy, j);
    }
    if !HasPieceAt(b, n.x, n.y) && ClearBetween(b, n, dx, dy, k) {
      forall j | 1 <= j < k + 1
        ensures !HasPieceAt(b, Step(from, dx, dy, j).x, Step(from, dx, dy, j).y)
      {
        if j > 1 {
          assert Step(from, dx, dy, j) == Step(n, dx, dy, j - 1);
        }
      }
    }
    if ClearBetween(b, from, dx, dy, k + 1) {
      assert Step(from, dx, dy, 1) == n;
      forall j | 1 <= j < k
        ensures !HasPieceAt(b, Step(n, dx, dy, j).x, Step(n, dx, dy, j).y)
      {
        assert Step(n, dx, dy, j) == Step(from, dx, dy, j + 1);
      }
    }
  }

  /** A straight walk from `cur` heads along its file or rank for a different on-board square `t`. */
  predicate StraightHeading(cur: Pos, t: Pos, dx: int, dy: int) {
    && OnBoard(t) && cur != t
    && (|| (dx == 0 && cur.x == t.x && dy == Sign(t.y - cur.y))
        || (dy == 0 && cur.y == t.y && dx == Sign(t.x - cur.x)))
  }

  /**
   * The straight loop of Rook and Queen `canHit`: step along a file or rank
   * until the target is reached (true) or a piece is met (false). Kotlin
   * compares only the moving coordinate. A step off the board reaches the
   * loop's `chess.assert(.. in 0..7)`, which throws; the walk then answers
   * false, and `StraightRaises` records when that happens. Heading for an
   * on-board target, the walk hits exactly when every square strictly
   * between is empty.
   */
  function StraightWalk(b: Board, cur: Pos, t: Pos, dx: int, dy: int): (r: bool)
    requires OnBoard(cur) && IsDir(dx, dy)
    decreases Span(cur, dx, dy)
    ensures StraightHeading(cur, t, dx, dy) ==> (r <==> ClearBetween(b, cur, dx, dy, Distance(cur, t)))
  {
    var n := Pos(cur.x + dx, cur.y + dy);
    StraightStep(b, cur, t, dx, dy);
    if (if dx == 0 then n.y == t.y else n.x == t.x) then true
    else if HasPieceAt(b, n.x, n.y) then false
    else if !OnBoard(n) then false
    else StraightWalk(b, n, t, dx, dy)
  }

  /** One straight step towards the target: it arrives, or it stays on the board one square closer with one square fewer to clear. */
  lemma StraightStep(b: Board, cur: Pos, t: Pos, dx: int, dy: int)
    ensures var n := Pos(cur.x + dx, cur.y + dy);
      StraightHeading(cur, t, dx, dy) && OnBoard(cur) ==>
        && ((if dx == 0 then n.y == t.y else n.x == t.x) <==> n == t)
        && (n == t ==> Distance(cur, t) == 1)
        && (n != t ==>
              && OnBoard(n) && StraightHeading(n, t, dx, dy)
              && (ClearBetween(b, cur, dx, dy, Distance(cur, t)) <==>
                    !HasPieceAt(b, n.x, n.y) && ClearBetween(b, n, dx, dy, Distance(n, t))))
  {
    var n := Pos(cur.x + dx, cur.y + dy);
    if StraightHeading(cur, t, dx, dy) && OnBoard(cur) && n != t {
      if dx == 0 {
        assert Distance(cur, t) == Abs(t.y - cur.y) && Distance(n, t) == Abs(t.y - n.y);
      } else {
        assert Distance(cur, t) == Abs(t.x - cur.x) && Distance(n, t) == Abs(t.x - n.x);
      }
      assert n == Step(cur, dx, dy, 1);
      ClearShift(b, cur, dx, dy, Distance(n, t));
    }
  }

  /**
   * The straight loop reaches its `chess.assert` with an off-board
   * coordinate, and throws: it steps off the board without having met the
   * target's coordinate or a piece.
   */
  predicate StraightRaises(b: Board, cur: Pos, t: Pos, dx: int, dy: int)
    requires OnBoard(cur) && IsDir(dx, dy)
    decreases Span(cur, dx, dy)
  {
    var n := Pos(cur.x + dx, cur.y + dy);
    if (if dx == 0 then n.y == t.y else n.x == t.x) then false
    else if HasPieceAt(b, n.x, n.y) then false
    else if !OnBoard(n) then true
    else StraightRaises(b, n, t, dx, dy)
  }

  /** The first off-board square the straight walk from `t`'s file or rank meets, moving the way (dx, dy) points. */
  function Beyond(t: Pos, dx: int, dy: int): Pos {
    if dx == 0 then Pos(t.x, if dy < 0 then -1 else 8)
    else Pos(if dx < 0 then -1 else 8, t.y)
  }

  /** `t` lies ahead of `cur` in the straight direction (dx, dy), along the moving coordinate. */
  predicate Ahead(cur: Pos, t: Pos, dx: int, dy: int) {
    if dx == 0 then (dy < 0 ==> t.y < cur.y) && (dy > 0 ==> t.y > cur.y)
    else (dx < 0 ==> t.x < cur.x) && (dx > 0 ==> t.x > cur.x)
  }

  /**
   * A walk that would throw for a target ahead walks unobstructed off the
   * board, so the target lies past the first square beyond the edge, and the
   * same walk aimed at that square hits it.
   */
  lemma {:induction false} RaiseMeansEdgeHit(b: Board, cur: Pos, t: Pos, dx: int, dy: int)
    requires OnBoard(cur) && IsDir(dx, dy) && (dx == 0 || dy == 0)
    requires Ahead(cur, t, dx, dy) && StraightRaises(b, cur, t, dx, dy)
    decreases Span(cur, dx, dy)
    ensures Ahead(Beyond(t, dx, dy), t, dx, dy)
    ensures StraightWalk(b, cur, Beyond(t, dx, dy), dx, dy)
  {
    var n := Pos(cur.x + dx, cur.y + dy);
    if OnBoard(n) {
      RaiseMeansEdgeHit(b, n, t, dx, dy);
    }
  }

  /** A diagonal walk from an on-board `cur` towards a different on-board `t`, each coordinate stepping towards it. */
  predicate DiagonalHeading(cur: Pos, t: Pos, mx: int, my: int) {
    && OnBoard(cur) && OnBoard(t) && cur != t
    && (mx == 1 || mx == -1) && (my == 1 || my == -1)
    && (cur.x != t.x ==> mx == Sign(t.x - cur.x))
    && (cur.y != t.y ==> my == Sign(t.y - cur.y))
  }

  /**
   * The diagonal loop of Bishop and Queen `canHit`: step diagonally towards
   * the target while neither coordinate has reached it, stopping early on a
   * piece; hit when both coordinates match. Heading for an on-board target,
   * it hits exactly a square on a common diagonal with nothing between.
   */
  function DiagonalWalk(b: Board, cur: Pos, t: Pos, mx: int, my: int): (r: bool)
    requires IsDir(mx, my)
    decreases if OnBoard(cur) then Span(cur, mx, my) + 1 else 0
    ensures DiagonalHeading(cur, t, mx, my) ==>
      (r <==> OnDiagonal(cur, t) && ClearBetween(b, cur, mx, my, Distance(cur, t)))
  {
    DiagonalStep(b, cur, t, mx, my);
    if cur.x != t.x && cur.y != t.y && InRange(cur.x) && InRange(cur.y) then
      var n := Pos(cur.x + mx, cur.y + my);
      if HasPieceAt(b, n.x, n.y) then n.x == t.x && n.y == t.y
      else DiagonalWalk(b, n, t, mx, my)
    else cur.x == t.x && cur.y == t.y
  }

  /**
   * One diagonal step towards the target: a target on the same file or rank
   * is off every diagonal; otherwise the step arrives at a neighbouring
   * diagonal target, or keeps heading for it with one square fewer to clear.
   */
  lemma DiagonalStep(b: Board, cur: Pos, t: Pos, mx: int, my: int)
    ensures var n := Pos(cur.x + mx, cur.y + my);
      DiagonalHeading(cur, t, mx, my) ==>
        && (cur.x == t.x || cur.y == t.y ==> !OnDiagonal(cur, t))
        && (cur.x != t.x && cur.y != t.y ==>
              && (n == t ==> OnDiagonal(cur, t) && Distance(cur, t) == 1)
              && (n != t ==>
                    && DiagonalHeading(n, t, mx, my)
                    && (OnDiagonal(cur, t) <==> OnDiagonal(n, t))
                    && (OnDiagonal(cur, t) ==>
                          (ClearBetween(b, cur, mx, my, Distance(cur, t)) <==>
                             !HasPieceAt(b, n.x, n.y) && ClearBetween(b, n, mx, my, Distance(n, t))))))
  {
    var n := Pos(cur.x + mx, cur.y + my);
    if DiagonalHeading(cur, t, mx, my) && cur.x != t.x && cur.y != t.y {
      DiagonalApproach(cur, t, mx, my);
      assert n == Step(cur, mx, my, 1);
      if n != t && OnDiagonal(cur, t) {
        ClearShift(b, cur, mx, my, Distance(n, t));
      }
    }
  }
}

=== FILE: results.dfy ===
/** Failure-carrying values shared by the chess engine and the codec. */
module Results {

  /** An optional value: the Kotlin nullable `T?`. */
  datatype Option<+T> = None | Some(value: T)

  /** Either a value or the exception that the Kotlin code raises instead. */
  datatype Result<+T, +E> = Ok(value: T) | Err(error: E) {
    predicate IsFailure() { Err? }

    function PropagateFailure<U>(): Result<U, E>
      requires Err?
    {
      Err(error)
    }

    function Extract(): T
      requires Ok?
    {
      value
    }
  }
}
